=== FILE: README.md ===
# SheSecure decision logic in Dafny

SheSecure is a browser prototype of a women's-safety application. Most of its
code is page wiring. Underneath sit small, deterministic decision procedures,
and this project states them as pure Dafny functions and proves what they
promise:

- **RiskScoring** (`public/risk-prediction.js`): the risk engine. A base of 50
  is moved by five analysers (time of day, location signals, weather, stored
  history, behaviour). The score is clamped to 0..100, bucketed into
  LOW / MEDIUM / HIGH and turned into an ordered recommendation list. The
  assessment history is capped at 100 entries.
- **RouteSafety** (`safe-routes.js`): the route scorer. A base of 70 is moved
  by the hour, the walk's length, three preferences and four simulated area
  findings. The score is clamped and labelled High / Medium / Low, with
  warnings and advice. The first best-scoring route is chosen, and blank
  input is guarded.
- **Search** and **TimeAgo** (`docs/search.js`, `public/community.js`,
  `doc/safety-ratings.js`):
  - the searchable items;
  - the two-character query guard;
  - category filtering and case-insensitive matching;
  - the relevance comparator;
  - result icons and badges;
  - title truncation;
  - the relative-time label.
- **ChatGuide** (`public/ai-guide.js`): the first-match keyword rules of the
  AI guide, the quick actions, the blank-input guard and the chat history
  (the 50-entry cap, the last 10 redrawn, the welcome message).
- **AppShell** (`main.js`): the shell's canned replies, its sample search, its
  contact guard and its notification colours.
- **Community** (`public/community.js`):
  - post validation and order;
  - likes and comments;
  - writing a post back;
  - upload checks and media typing;
  - safety badges.
- **Instructors** (`public/self-defense.js`): registration, the two list
  filters, the card labels and the reviews block.
- **SafetyRatings** and **Stars** (`doc/safety-ratings.js`, `main.js`,
  `public/self-defense.js`, `Shesecure.js`):
  - collecting and filtering ratings;
  - the five-star row drawn for a rating;
  - the clickable star widget as a small state machine.
- **Emergency** (`public/emergency.js`):
  - the shake detector as a state machine over readings and timer callbacks;
  - the voice-phrase trigger;
  - alert priority and the location line;
  - the emergency-contact list.
- **Shesecure** (`Shesecure.js`): the older single-file page, with its risk
  meter, route label, directions guard, voice trigger and section dispatch.
  Lemmas relate it to the newer modules.
- **Base** and **Text**: shared vocabulary.
  - Base: `Option`, clamping, the "keep the last N" cap and an
    order-preserving filter.
  - Text: `toLowerCase`, `includes`, `startsWith` and `trim` over `string`.

Everything that is not decided by the code itself becomes a parameter of the
functions:
- the clock (hour, weekday, milliseconds);
- simulated sensor values, weather and behaviour;
- the outcomes of `Math.random`;
- the answers to `prompt` and `confirm`;
- the canned response texts.

## Model

| member | source | states |
|---|---|---|
| TimeAgo.Classify | docs/search.js:513-524 | the five buckets partition the elapsed seconds at 60, 3600, 86400 and 2592000 (a future timestamp reads "just now"); each count is the floor quotient, in 1..59 minutes, 1..23 hours or 1..29 days |
| TimeAgo.LaterIsCoarser | public/community.js:516-527 | as the clock advances a post's label never becomes finer, and within one unit its count never decreases |
| TimeAgo.ShortLabel | docs/search.js:517-524 | "Just now"; otherwise the count in digits followed by "m ago", "h ago" or "d ago" for minutes, hours or days; a plain-date label is the date |
| TimeAgo.LongLabel | doc/safety-ratings.js:301-308 | the count in digits followed by " minutes ago", " hours ago" or " days ago"; "Just now" and the date read the same as the short labels |
| TimeAgo.LabelStartsWithCount | doc/safety-ratings.js:297-308 | reading back the leading digits of either wording ("5m ago", "5 minutes ago") gives the count |
| Stars.StarRow | doc/safety-ratings.js:241-260 | `floor(r)` full stars first, a half star iff r has a fractional part, empty stars after; five stars for any r in 0..5 |
| Stars.ShownIsClose | public/self-defense.js:463-482 | for 0 <= r <= 5 the drawn row shows r exactly when r is whole and otherwise within half a star of it |
| Stars.Highlight | main.js:102-110 | star i is active iff i < count |
| Stars.HighlightLights | doc/safety-ratings.js:53-63 | a highlighted row lights exactly count stars, capped at 0 and at the row length |
| Stars.Step | main.js:77-100 | hover lights up to the hovered star without changing the remembered value; leaving relights the remembered value; a click on star i remembers and stores i+1 |
| Stars.HoverThenLeaveRestores | main.js:83-89 | hovering and leaving restores the lit stars of the remembered value |
| Stars.ClickIdempotent | main.js:91-97 | clicking a star twice is the same as clicking it once |
| Stars.StepKeepsValid | doc/safety-ratings.js:30-51 | every listener keeps the stored value equal to the remembered one and within the row |
| Stars.ResetAsWritten | doc/safety-ratings.js:289-295 | the reset stores 0 and unlights every star but leaves the listeners' remembered value as it was |
| Stars.ResetThenLeaveShowsOldRating | doc/safety-ratings.js:41-42 | after that reset, hovering a star and leaving relights the old rating while the stored value is 0 |
| Stars.Reset | doc/safety-ratings.js:289-295 | the corrected reset clears both the stored and the remembered value and unlights every star |
| Stars.ResetKeepsValid | doc/safety-ratings.js:289-295 | after the corrected reset, hover and leave light nothing and the stored value stays 0 |
| SafetyRatings.CollectScores | doc/safety-ratings.js:73-78 | the collected map has exactly the categories of the star widgets as keys |
| SafetyRatings.CollectScoresTakesLast | doc/safety-ratings.js:74-77 | a category holds the value of its last widget, a widget with nothing stored counting 0 |
| SafetyRatings.SubmitRating | doc/safety-ratings.js:80-93 | the rating is appended after the existing list with the collected scores, the given id and timestamp; a signed-in user's non-empty id and name are kept, and a missing or empty one falls back to "anonymous" / "Anonymous User" |
| SafetyRatings.FilterRatings | doc/safety-ratings.js:262-274 | "all" keeps the list; otherwise a rating is kept iff its overall score (missing reads 0) equals the parsed target; an unparseable target keeps none |
| SafetyRatings.FilterRatingsIsOneFilter | doc/safety-ratings.js:266-274 | for a star filter the result is one order-preserving filter of the list by the kept-rating test, so the matches stay in list order |
| SafetyRatings.FilterRatingsIdempotent | doc/safety-ratings.js:268-273 | filtering the filtered list again changes nothing |
| SafetyRatings.FiltersCoverScale | doc/safety-ratings.js:268-273 | every rating with an overall score in 0..5 is found by one of the six star filters |
| Community.CreatePost | public/community.js:44-72 | rejected iff the trimmed content or location is empty or no safety level is chosen, with content checked first, then location, then level; an accepted post keeps the values as typed, starts with 0 likes and 0 comments, keeps a signed-in user's non-empty id and name, and falls back to "anonymous" / "Anonymous User" for a missing or empty one |
| Community.Publish | public/community.js:80-81 | an accepted post goes to the front of the feed ahead of the unchanged old feed; a rejected one changes nothing |
| Community.FindPost | public/community.js:364 | the index of the first post with the id, or none exactly when no post has it |
| Community.ToggleLike | public/community.js:363-385 | an unknown id changes nothing; otherwise the liked mark flips, that post's likes move by exactly -1 (was liked) or +1, and every other post and field is unchanged |
| Community.ToggleTwiceRestores | public/community.js:371-379 | toggling twice restores both the feed and the mark |
| Community.AddComment | public/community.js:387-399 | a present, non-blank comment adds exactly one to the first matching post's comment count and changes nothing else; otherwise the feed is unchanged |
| Community.UpdatePost | public/community.js:430-442 | the first stored post with the same id is replaced in place and the rest kept; with none the list is unchanged |
| Community.UpdatePostIdempotent | public/community.js:437-440 | writing the same post back twice is the same as once |
| Community.FirstFailure | public/community.js:545-557 | all files pass, or the first failing file is reported: too large if over 10 MB, otherwise its unsupported type, every earlier file passing |
| Community.CheckFiles | public/community.js:540-564 | accepted iff every file passes and there are at most 5; "too many" only when every file passes; a size/type failure iff some file fails |
| Community.MediaKindOf | public/community.js:108 | an image iff the MIME type starts with "image/", else a video |
| Community.UploadFiles | public/community.js:96-125 | one media entry per file, in order, with the file's name and kind |
| Community.AllowedKind | public/community.js:543 | among the allowed types, exactly the first three are tagged as images |
| Community.AcceptedKinds | public/community.js:543 | in a batch that passed validation, a file is typed an image (line 108) iff its type is one of the three image types |
| Community.SafetyBadgeClass | public/community.js:506-514 | the four known levels map to themselves, anything else to "safe"; the result is always one of the four |
| Community.BadgeClassIdempotent | public/community.js:506-514 | mapping a class again changes nothing |
| Instructors.Register | public/self-defense.js:70-98 | refused for a missing field iff one of the seven fields is empty; else refused for the price iff a paid session has no positive price; an accepted record keeps every form field (name, specialization, experience, location, pricing, skill level, contact, email), carries the given id and time, takes the signed-in user's id or "anonymous" when there is none or it is empty, stores the price only for paid sessions (0 otherwise) and starts unverified with rating 0, no students and no reviews |
| Instructors.AddInstructor | public/self-defense.js:101 | an accepted instructor is appended; a refusal changes nothing |
| Instructors.FilterInstructors | public/self-defense.js:425-443 | an instructor is shown iff it matches the price filter ("all" or equal pricing) and the skill filter ("all", equal level, or an instructor teaching all levels) |
| Instructors.FilterInstructorsIsOneFilter | public/self-defense.js:432-443 | the two successive filters equal one order-preserving filter by both conditions |
| Instructors.AllAllIsIdentity | public/self-defense.js:429-443 | with both filters on "all" the list is unchanged |
| Instructors.PriceLabelOf | public/self-defense.js:271 | "Free" iff pricing is "free", otherwise the per-session label with the stored price |
| Instructors.SkillLabel | public/self-defense.js:272-273 | "All Levels" for "all"; otherwise the level with only its first letter upper-cased, the same text in lower case |
| Instructors.SkillLabelExamples | public/self-defense.js:272-273 | "beginner" is labelled "Beginner" and "advanced" "Advanced" |
| Instructors.ReviewsBlockOf | public/self-defense.js:313-325 | no block without reviews; the first review alone for one review; the first review and a "View all n" button iff there are more than one |
| Search.FromRating | docs/search.js:101-113 | a rated location is a location item titled by its place; an empty review falls back to "Safety rated location"; the rating is the overall score, missing read as 0 |
| Search.PostTitle | docs/search.js:155 | the title is at most 53 characters: the content itself when it has at most 50, else its first 50 characters followed by "..."; it always starts with the content's first 50 characters |
| Search.FromPost | docs/search.js:149-163 | a post item is titled by the truncated content and described as a safety update about its location |
| Search.FromInstructor | docs/search.js:165-180 | an instructor item is titled by the name and carries the specialization, location, rating and pricing |
| Search.MapRatings | docs/search.js:104 | one item per rating, in order |
| Search.MapPosts | docs/search.js:152 | one item per post, in order |
| Search.MapInstructors | docs/search.js:168 | one item per instructor, in order |
| Search.LoadIndex | docs/search.js:76-90 | the index holds, position by position, the item made from each stored rating, post and instructor, each in its own category, plus the three sample users; post titles are at most 53 characters |
| Search.SearchPart | docs/search.js:210-242 | a category contributes exactly its items of which some searched field, lower-cased, contains the query, and only when the filter selects it |
| Search.SearchContent | docs/search.js:201-243 | nothing without a loaded index; otherwise an item is returned iff it lies in a selected category and one of that category's fields contains the lower-cased query (title and description; posts also location; instructors also specialization and location) |
| Search.FoundInIffSomeCategory | docs/search.js:210-242 | being found is the same as matching in some selected category |
| Search.UnknownFilterFindsNothing | docs/search.js:210-242 | a filter that is neither "all" nor a category name finds nothing |
| Search.SearchIgnoresCase | docs/search.js:206 | queries differing only in case find the same items |
| Search.PerformSearch | docs/search.js:182-199 | the placeholder iff the trimmed query has fewer than 2 characters; otherwise the trimmed query is searched, giving "no results" iff nothing matches |
| Search.TierChain | docs/search.js:254-263 | an equal title starts with the query, and a title starting with it contains it |
| Search.Tier | docs/search.js:254-264 | tier 0 iff the title equals the query, at most 1 iff it starts with it, at most 2 iff it contains it, 3 otherwise |
| Search.Compare | docs/search.js:249-272 | a better title tier (equal, starts with, contains, none) always sorts first; within a tier only two present ratings decide, higher first |
| Search.CompareAntisymmetric | docs/search.js:249-272 | swapping the two items negates the comparison |
| Search.CompareTransitiveWhenRated | docs/search.js:266-269 | among items of one tier that all have ratings the comparator is transitive |
| Search.MissingRatingBreaksTies | docs/search.js:267-271 | an unrated item ties with a 5-star and a 3-star item of the same tier, which do not tie with each other, so the comparator is not a consistent order |
| Search.ResultIcon | docs/search.js:304-312 | one icon per known type, the magnifier exactly for any other type |
| Search.IndexedItemsHaveIcons | docs/search.js:304-312 | every category's type name has its own icon |
| Search.ResultBadge | docs/search.js:314-340 | a rating badge iff a location has a rating; a verified badge iff a user is verified; always a safety badge for a post; always a price badge for an instructor, "Free" iff pricing is "free" |
| RiskScoring.ImpactMatchesSign | public/risk-prediction.js:151-377 | every factor marked "positive" lowers the score and every factor marked "negative" raises it |
| RiskScoring.KindMatchesPositions | public/risk-prediction.js:109-141 | a factor's type is the analyser whose evaluation positions it occupies, so types appear in analyser order |
| RiskScoring.HourBand | public/risk-prediction.js:159-196 | one hour factor with its score change, and for an hour of the day it is the band that contains that hour |
| RiskScoring.WeekendCheck | public/risk-prediction.js:198-206 | the weekend factor (+5) iff the weekday is Sunday (0) or Saturday (6) |
| RiskScoring.AnalyzeTime | public/risk-prediction.js:151-210 | one band factor, plus the weekend factor as second exactly on weekends; the modifier is the sum of the factors' changes |
| RiskScoring.ExactlyOneBand | public/risk-prediction.js:159-196 | for every hour 0..23 exactly one of the four bands (6-18, 19-21, 22-2, 3-5) holds, and it is the one reported |
| RiskScoring.BandOf | public/risk-prediction.js:221-270 | above iff the signal exceeds the upper threshold, below iff it is under the lower one |
| RiskScoring.DensityCheck | public/risk-prediction.js:221-237 | high density (-10) iff above 0.7, low density (+15) iff below 0.3, at most one factor |
| RiskScoring.LightingCheck | public/risk-prediction.js:241-257 | well lit (-8) iff above 0.8, poorly lit (+12) iff below 0.4, at most one factor |
| RiskScoring.CrimeCheck | public/risk-prediction.js:261-277 | high incidents (+20) iff above 0.7, low incidents (-10) iff below 0.3, at most one factor |
| RiskScoring.LocationChecks | public/risk-prediction.js:212-280 | the three checks in order give at most three location factors, with a modifier equal to their changes |
| RiskScoring.LocationMembers | public/risk-prediction.js:221-277 | each location factor appears exactly when its signal falls in its band |
| RiskScoring.AnalyzeLocation | public/risk-prediction.js:212-280 | each of the six location factors appears iff its strict threshold is crossed, 0 to 3 in all |
| RiskScoring.VisibilityCheck | public/risk-prediction.js:290-306 | poor visibility (+10) iff "poor", clear weather (-5) iff "excellent", nothing otherwise |
| RiskScoring.PrecipitationCheck | public/risk-prediction.js:308-315 | heavy precipitation (+8) iff "heavy" |
| RiskScoring.AnalyzeWeather | public/risk-prediction.js:282-319 | visibility and precipitation are judged independently; good or fair visibility without heavy rain adds nothing |
| RiskScoring.WeatherConsistent | public/risk-prediction.js:282-319 | the weather modifier equals its factors' changes, listed in order |
| RiskScoring.AnalyzeHistory | public/risk-prediction.js:321-347 | one factor (+5) iff some stored assessment scored over 70 and is at most 24 hours old (a future-stamped one included) |
| RiskScoring.StoreAssessment | public/risk-prediction.js:554-568 | the new assessment is appended and only the last 100 entries are kept, in order |
| RiskScoring.AnalyzeBehavior | public/risk-prediction.js:349-377 | night activity (+5) and regular routes (-3) appear independently, each iff its flag is set |
| RiskScoring.JoinConsistent | public/risk-prediction.js:109-141 | running one analyser after another keeps the score change equal to the sum of the listed factors' changes and the factors in order |
| RiskScoring.SkipLocation | public/risk-prediction.js:119-123 | skipping the location analyser leaves no location factor and keeps the rest consistent |
| RiskScoring.LaterAnalysers | public/risk-prediction.js:125-138 | the factors are the weather analyser's, then the history analyser's, then the behaviour analyser's, and the modifier is the sum of the three analysers' modifiers |
| RiskScoring.RunAnalysers | public/risk-prediction.js:109-138 | the factors are the time, location (only with a location), weather, history and behaviour analysers' factors concatenated in that order, and the modifier is the sum of their five modifiers; the first factor is the hour band |
| RiskScoring.Finish | public/risk-prediction.js:140-148 | the score is 50 plus the factors' changes clamped to 0..100, and the result carries the location and time |
| RiskScoring.Assess | public/risk-prediction.js:109-149 | the score is clamp(50 + the five analysers' modifiers, 0, 100), equal to clamp(50 + sum of the reported factors' changes); the factors are the five analysers' in order; no location factor without a location |
| RiskScoring.LevelOf | public/risk-prediction.js:387-399 | LOW iff score <= 30, MEDIUM iff 31..60, HIGH iff above 60 |
| RiskScoring.LevelMonotone | public/risk-prediction.js:387-399 | a higher score never shows a lower level |
| RiskScoring.Recommend | public/risk-prediction.js:451-511 | exactly the due recommendations (ride-share at hours >= 22 or <= 5, alert above 70, area awareness for a negative location factor, preparedness always, route planning above 40), each once, in rule order, 1 to 5 of them |
| RiskScoring.RideShareIffNightFactor | public/risk-prediction.js:454-458 | the ride-share advice appears iff the hour band is late night or very early morning, so it also covers the 3-5 band |
| RiskScoring.ShowAt | public/risk-prediction.js:55-71 | the assessment is the one of the context moved to the position, the advice is the recommendation for it at that hour, the level follows its score, and the history gains it |
| RiskScoring.Refresh | public/risk-prediction.js:55-107 | an unsupported lookup shows the default MEDIUM panel and stores nothing; a failed lookup shows the assessment of the context moved to the New York fallback; a found position shows the assessment of the context moved there; whatever is assessed is shown with the recommendation for it |
| RiskScoring.ScenarioNoon | public/risk-prediction.js:109-141 | noon on a weekday with neutral inputs scores 30, LOW |
| RiskScoring.ScenarioSaturdayNight | public/risk-prediction.js:109-141 | 11 PM on a Saturday with neutral inputs scores 80, HIGH |
| RiskScoring.ScenarioEverythingBad | public/risk-prediction.js:109-141 | every bad signal at once is clamped to 100 |
| RouteSafety.SumPointsConcat | safe-routes.js:229-287 | the points of two runs of factor lines add up |
| RouteSafety.TimeNote | safe-routes.js:236-246 | exactly one time line per hour: daylight iff 6..18, evening iff 19..21, late night otherwise |
| RouteSafety.When | safe-routes.js:249-285 | a line appears iff its condition holds, and then announces its points |
| RouteSafety.PreferenceNotes | safe-routes.js:257-270 | each preference line appears iff its box is ticked; the lines announce exactly the preference points |
| RouteSafety.GoodDrawNotes | safe-routes.js:273-275 | the improvements line appears iff drawn and the patrol line iff drawn, announcing +5 and +8; no other line appears |
| RouteSafety.LateDrawNotes | safe-routes.js:276-277 | the incident line appears iff drawn and the well-lit line iff drawn, announcing -10 and +6; no other line appears |
| RouteSafety.DrawNotes | safe-routes.js:273-285 | each of the four simulated lines appears iff drawn, and together they announce exactly the drawn points |
| RouteSafety.RawScore | safe-routes.js:229-288 | the running score before clamping lies in 45..134, and is 45 exactly for a long late-night walk with no preference ticked and only the incident drawn |
| RouteSafety.RouteNotes | safe-routes.js:236-254 | the time line comes first; the long-walk line appears iff the walk exceeds 1800 s |
| RouteSafety.ChoiceNotes | safe-routes.js:257-285 | each preference line appears iff its box is ticked and each simulated line iff drawn, announcing their points; the long-walk line never appears |
| RouteSafety.Notes | safe-routes.js:229-285 | the listed lines announce exactly what was added to the base of 70; the time line is first; each line is present iff its condition holds |
| RouteSafety.NotesFollowCatalogue | safe-routes.js:229-285 | the listed lines are exactly the lines whose condition holds, each once, in the order the analysis tests them |
| RouteSafety.LevelOf | safe-routes.js:290-306 | High iff score >= 80, Medium iff 60..79, Low iff below 60 |
| RouteSafety.SafetyScore | safe-routes.js:228-317 | the score is clamp(running score, 0, 100) and equals clamp(70 + the listed points); it is never below 45; the factors are the listed lines; the transport warning iff the hour is outside 6..21; the high-risk warning and ride-share advice iff Low; "stay alert" iff Medium; "break up the journey" iff the walk exceeds 1800 s |
| RouteSafety.Warnings | safe-routes.js:245-304 | the two warnings each appear iff their condition holds, so warnings exist iff late or Low |
| RouteSafety.AdviceFor | safe-routes.js:253-305 | each piece of advice appears iff its condition holds |
| RouteSafety.QuietDaylightRoute | safe-routes.js:236-238 | a short daylight walk with nothing ticked or drawn scores 85, High |
| RouteSafety.WorstRouteScores45 | safe-routes.js:229-288 | the worst combination scores exactly 45, Low |
| RouteSafety.PickSafest | safe-routes.js:209-219 | the chosen analysis has the highest score, no earlier route reaches it, it replaces the first route's initial analysis only when strictly better, and when no re-scored route beats the initial analysis the initial one is kept at index 0 |
| RouteSafety.ScoreAll | safe-routes.js:210-211 | every route scored once with its own draws |
| RouteSafety.ChooseRoute | safe-routes.js:203-226 | a single route keeps its first analysis; otherwise the chosen route has the highest score among the re-scored routes, is the first to reach it, is never worse than the first analysis, and when no re-scored route beats the first analysis that analysis is kept at index 0 |
| RouteSafety.FirstBest | safe-routes.js:209-219 | the first index of the highest score |
| RouteSafety.FirstBestUnique | safe-routes.js:212 | ties go to the earlier route: the first index reaching the maximum is the one chosen |
| RouteSafety.PlanRoute | safe-routes.js:161-173 | both fields are trimmed; a blank one stops the request; a missing map stops it next; otherwise the trimmed values are requested |
| ChatGuide.ContainsKeywords | public/ai-guide.js:249-251 | true iff some keyword of the list occurs at some position of the message |
| ChatGuide.Decide | public/ai-guide.js:209-246 | the topic of the first rule whose keyword list has a hit in the message; General when none fires |
| ChatGuide.TopicAsWritten | public/ai-guide.js:202-246 | the rules applied in order to the lower-cased message, exactly as written: any emergency keyword gives Emergency; no firing rule gives General |
| ChatGuide.TopicOf | public/ai-guide.js:202-246 | the rules applied in order to the lower-cased message (with the corrected self-defense keywords): any emergency keyword gives Emergency; no firing rule gives General |
| ChatGuide.TopicIgnoresCase | public/ai-guide.js:206 | the topic, as written and corrected, does not depend on letter case |
| ChatGuide.DecideAlike | public/ai-guide.js:206-246 | two rule lists that fire alike on a message and answer alike give the same topic |
| ChatGuide.CorrectionOnlyAddsHyphen | public/ai-guide.js:217 | the corrected rules give the same topic as the written ones for every message that does not spell "self-defense" |
| ChatGuide.HelpMeansEmergency | public/ai-guide.js:209-241 | any message containing "help" is an emergency, so the app-help keyword "help" never decides |
| ChatGuide.EmergencyContactMeansEmergency | public/ai-guide.js:209-237 | any message containing "emergency contact" is an emergency, so that contacts keyword never decides |
| ChatGuide.QuickMessage | public/ai-guide.js:76-89 | exactly the four quick-action names send a prompt, which is not blank; any other action sends nothing |
| ChatGuide.ShapePassesAllRules | public/ai-guide.js:209-241 | a lower-cased text lacking the letters g, p, r, k, w, v, y and the pairs un, "f ", nd, la, in, lo, co, us fires none of the nine rules |
| ChatGuide.SelfDefensePromptAsWritten | public/ai-guide.js:81 | the "self-defense" quick action sends "Tell me about self-defense techniques", which as written fires no rule and gets the general answer |
| ChatGuide.SelfDefensePromptCorrected | public/ai-guide.js:217 | with "self-defense" added to the self-defense keywords the prompt gets the self-defense answer |
| ChatGuide.Start | public/ai-guide.js:738-777 | a saved non-empty history is loaded whole and its last 10 messages are redrawn in order; a missing or empty one leaves only the welcome message, shown |
| ChatGuide.Record | public/ai-guide.js:801-812 | the message and the reply are the last two entries; the cut keeps min(n+2, 50) entries, the rest being the end of the old history in order |
| ChatGuide.Send | public/ai-guide.js:91-120 | ignored iff the input is blank; otherwise the trimmed message and the reply are recorded and the topic is the as-written topic of the trimmed message |
| ChatGuide.SendCorrected | public/ai-guide.js:91-120 | the same send with the corrected self-defense keywords: ignored iff blank, else the same record and the corrected topic |
| ChatGuide.SendsDifferOnlyOnHyphen | public/ai-guide.js:91-120 | the two sends ignore the same inputs and record the same history, and they agree entirely unless the trimmed message spells "self-defense" |
| ChatGuide.RecordTwiceKeepsBoth | public/ai-guide.js:801-812 | two exchanges recorded in a row are the last four entries, in order, whatever the cut |
| ChatGuide.RecordKeepsCap | public/ai-guide.js:804-806 | a history within the cap stays within it, and a short one is kept whole |
| ChatGuide.Clear | public/ai-guide.js:814-824 | clearing is the same as starting with no saved history: the welcome message alone |
| Emergency.OnMotion | public/emergency.js:111-137 | the reading always becomes the new baseline; it counts as a shake iff there was a baseline, the summed jolt exceeds 30 and more than 500 ms passed since the last counted shake; a counted shake records its time and the third one raises the alarm and clears the count; anything else changes nothing but the baseline |
| Emergency.OnTimer | public/emergency.js:139-144 | the timer of a reading clears the count iff that reading came more than 3000 ms after the last counted shake, and touches nothing else |
| Emergency.CountStaysBelowAlarm | public/emergency.js:124-130 | over any sequence of readings and timers the count stays below three |
| Emergency.ThreeShakesRaiseOneAlarm | public/emergency.js:115-130 | from a fresh listener, a baseline reading followed by three readings 600 ms apart, each 40 away from the one before, raises exactly one alarm, on the third, and leaves the count at 0 |
| Emergency.QuickJoltsCountOnce | public/emergency.js:123 | a second jolt only 500 ms after a counted one is not counted |
| Emergency.Transcript | public/emergency.js:66-69 | the joined transcript holds no upper-case letter, and no results give the empty transcript |
| Emergency.TranscriptIsLowerOfJoined | public/emergency.js:66-69 | lower-casing each result and joining them is lower-casing the joined results |
| Emergency.VoiceTriggers | public/emergency.js:66-78 | the alarm is raised iff one of the eight phrases occurs at some position of the transcript |
| Emergency.VoiceTriggersIffMinimal | public/emergency.js:72-78 | the eight phrases trigger exactly when one of six do: "help me" and "i need help" are covered by "help" |
| Emergency.ShoutedHelpTriggers | public/emergency.js:65-78 | results containing "HELP" in capitals raise the voice alarm |
| Emergency.PriorityOf | public/emergency.js:358 | high priority iff the alert is the voice alert |
| Emergency.ShakeIsMediumVoiceIsHigh | public/emergency.js:568-579 | a confirmed shake sends the silent alert, which is medium priority; the voice alert is high |
| Emergency.LocationLineOf | public/emergency.js:364-367 | a maps link with the alert's own coordinates iff a location is known, otherwise "Unable to determine" |
| Emergency.AddContact | public/emergency.js:424-441 | a cancelled or blank name or phone leaves the list unchanged; otherwise exactly one contact is appended, with trimmed non-empty name and phone and the trimmed relationship or "Contact" |
| Emergency.MissingRelationshipIsContact | public/emergency.js:431 | a cancelled or empty relationship answer gives "Contact" |
| Emergency.RemoveContact | public/emergency.js:448-458 | an unknown id or a refusal changes nothing; a confirmed known id removes exactly the first contact with that id, keeping the order of the rest |
| Emergency.RemoveUndoesAdd | public/emergency.js:424-458 | removing, with confirmation, a contact just added under a fresh id gives back the original list |
| AppShell.ReplyOf | main.js:407-423 | the reply is that of the first of the five keyword tests that holds on the lower-cased message, each reply given exactly when its test holds and the earlier ones fail |
| AppShell.HelpGetsEmergencyReply | main.js:410-413 | a message mentioning "help" gets the emergency reply unless it asks for a safe route, which it then gets |
| AppShell.ReplyIgnoresCase | main.js:408 | the reply does not depend on letter case |
| AppShell.EmergencyReplyAgreesWithGuide | main.js:412 | a message the shell answers with its emergency reply is an emergency for the chat guide as well, as written and corrected |
| AppShell.SearchSamples | main.js:324-362 | a blank query clears the results; otherwise a sample is found iff it is of the chosen type ("all" for any) and its lower-cased title contains the lower-cased query |
| AppShell.SearchSamplesIsOneFilter | main.js:353-357 | the results are the samples in their fixed order, filtered once by type and title together |
| AppShell.UnknownTypeFindsNothing | main.js:353-354 | a type filter naming none of the three kinds finds nothing |
| AppShell.IconOf | main.js:364-366 | a map marker iff the result is a location, a user icon iff it is a user, a file icon otherwise |
| AppShell.ShellContact | main.js:470-482 | the contact is shown iff both answers are present and non-empty, untrimmed |
| AppShell.ShellAcceptsBlankName | main.js:474 | the shell accepts a name of spaces that the emergency panel rejects |
| AppShell.ColourOf | main.js:549 | green iff success, red iff error, amber iff warning, blue for any other type |
| Shesecure.HourRisk | Shesecure.js:325-342 | low risk iff the hour is 6..18, medium iff 19..21, high otherwise |
| Shesecure.RiskPercent | Shesecure.js:330-341 | the meter shows 25, 45 and 70 percent for the three bands |
| Shesecure.RiskBandsMatchRouteHours | Shesecure.js:330-341 | the meter's hour bands coincide with the daylight, evening and late-night bands of the route score |
| Shesecure.RiskPercentAgainstRoutePoints | Shesecure.js:330-341 | an hour with a higher risk percentage earns a route fewer time points |
| Shesecure.LabelOf | Shesecure.js:632-650 | High iff the score exceeds 75, Medium iff it is in (50, 75], Low iff at most 50 |
| Shesecure.LabelMonotone | Shesecure.js:637-650 | a higher score never gets a lower label |
| Shesecure.RouteRequest | Shesecure.js:605-613 | the request goes out iff both fields are non-empty, with the untrimmed values |
| Shesecure.SpacesPassOnlyHere | Shesecure.js:609 | a start of spaces is requested here but stops the newer route planner |
| Shesecure.VoiceTriggers | Shesecure.js:102-112 | true iff "help" or "emergency" occurs in the lower-cased transcript joined from the result index on |
| Shesecure.TriggerImpliesPanelTrigger | Shesecure.js:102-112 | whatever speech raises the alarm here raises it on the emergency panel too |
| Shesecure.LoaderOf | Shesecure.js:136-157 | a loader runs iff the section is one of the six names |
| Shesecure.LoadersAreDistinct | Shesecure.js:136-157 | two different section names run different loaders |
| Text.Lower | public/ai-guide.js:206 | same length, every letter lower-cased position by position, other characters kept |
| Text.LowerIdempotent | public/ai-guide.js:206 | lower-casing twice is lower-casing once |
| Text.ContainsIffOccurs | public/ai-guide.js:250 | the left-to-right scan finds a text exactly when it occurs at some position |
| Text.ContainsLowerOfLowerWord | docs/search.js:212 | a lower-case word found in a text is still found in its lower-cased form |
| Text.Trim | public/emergency.js:435-437 | the result is the input without its leading and trailing white space: a slice starting after the leading spaces, followed only by spaces, and starting and ending with a non-space when non-empty |
| Text.BlankIffAllSpace | public/emergency.js:426 | a text trims to empty iff every character is white space |
| Text.OrElse | public/emergency.js:431 | a present non-empty answer is kept; a missing or empty one gives the fallback |
| Text.Capitalize | public/self-defense.js:273 | the first letter is upper-cased and the rest kept, so the text is unchanged up to case |
| Base.Filter | public/self-defense.js:433-443 | the kept elements all pass and come from the input, and every passing element is kept |
| Base.KeepLast | public/ai-guide.js:805 | the last min(n, length) elements, the whole list when it is short enough |
| Base.FindIndex | public/emergency.js:449 | the first position whose element passes, or none exactly when no element passes |
| Stars.NewWidget | doc/safety-ratings.js:30-35 | a fresh widget remembers 0, stores 0 and lights no star |

## Left out

- `auth.js` and `firebox.js`: thin wrappers over the Firebase SDKs. They hold no decision logic besides a password-equality check.
- Page building:
  - DOM queries, `innerHTML` templates, CSS, modals and animations;
  - the texts of notifications and alerts.
- Persistence:
  - `localStorage`, Firestore and JSON encoding;
  - the lists are sequences, and only the append, cap, replace and remove operations on them are modelled;
  - the Firestore branch of `updatePost` and the recovery from unreadable stored data are not modelled.
- Timers:
  - the risk monitor's `setInterval`, the 300 ms search debounce and the 30-minute alert auto-cancel are not modelled;
  - the 3-second shake reset is modelled as an explicit timer event, but not its scheduling.
- Randomness and floating-point simulation: `Math.random`, the `sin`/`cos` density simulation and the random choice among canned chat answers. Their outcomes are inputs.
- Browser and external APIs: geolocation (only its outcome is an input), Google Maps directions, speech recognition and synthesis, the Web Audio alarm, notifications, sharing, and `tel:`/`mailto:` links.
- `formatMessage` and `highlightQuery`: both are regular-expression rewrites of display text.
- Date and locale formatting (`toLocaleString`, `toLocaleDateString`, ISO timestamps). Times are whole seconds or milliseconds, and the hour and weekday are integers.
- The sort in `sortResultsByRelevance`: only the comparator is modelled. Search.MissingRatingBreaksTies shows the comparator is not a consistent ordering, so the order the engine's sort produces is unspecified.
- The `catch` branches of the post-creation, upload, message-sending and rating-submission paths. A failing storage call is not modelled, and neither are the effects of these branches:
  - in the post-creation and rating-submission paths the failure is only reported, and the feed or rating list is left as it was;
  - in `uploadFiles` (`public/community.js:100-121`) a failed upload skips that file's media entry;
  - in `sendMessage` (`public/ai-guide.js:115-119`) the history receives an apology reply instead of the answer.
- Community.UploadFiles: its one-media-entry-per-file contract covers only the path on which every upload succeeds; a failed upload, which leaves its file out, is not modelled.
- Text.Lower: only the ASCII letters are lower-cased, not the full Unicode mapping of `toLowerCase`. Every keyword and phrase the application compares against is ASCII.
- Text.Capitalize: only an ASCII first letter is upper-cased, not the full Unicode mapping of `toUpperCase` (which turns "ß" into "SS" and so changes the length). Its one use, Instructors.SkillLabel, sees only the ASCII skill levels of the form's select box.
- Text.Trim: white space is the ASCII set plus U+00A0 and U+FEFF. The other Unicode space separators and line terminators are not trimmed.
- Community.ToggleLike: the page keeps the "liked" mark per button, but here it is a single flag that travels with the feed.
- Community.SafetyBadgeClass: an object-property lookup in the source. A level named after an inherited property such as "constructor" is not modelled; every unknown level maps to "safe".
- Search.ResultIcon: `icons[type] || 'fa-search'` is an object-property lookup in the source as well. A type named after an inherited property is not modelled; every unknown type gets the magnifier. The item types the index builds are all known ones.
- AppShell.IconOf: models only the icon choice. A sample result with an `avatar` (the sample user, `main.js:343`) is drawn as an image instead (`main.js:371-373`); that branch is markup and is not modelled.
- Instructors.Register: the price is the already-parsed number input (`None` when missing or not a number). `parseFloat`'s partial parsing is not modelled.
- SafetyRatings.CollectScores: a widget's value is the stored whole number. `parseInt` of a non-numeric attribute, which the source reads as 0, is represented by a widget with nothing stored.
- ChatGuide.Send: the answer text comes from a parameter; only its topic is decided here. The topic follows the rules as written. ChatGuide.SendCorrected is the same send under the corrected rules.
- ChatGuide.Record: each send is modelled as one atomic step. In the source the reply is added after a wait of 1000 ms plus a random delay of up to 2000 ms (`public/ai-guide.js:91-120`, `public/ai-guide.js:204`). A second message sent during that wait is recorded before the first reply, and that interleaving is not modelled.
- Search.PostTitle: lengths count characters (code points). JavaScript's `substring(0, 50)` and `length` count UTF-16 code units. The two agree on text without characters outside the Basic Multilingual Plane. For other text, the source may cut a surrogate pair in half, which a `seq<char>` cannot represent.
- Search.PerformSearch: the two-character minimum counts characters (code points), while `query.trim().length` counts UTF-16 code units. A single character outside the Basic Multilingual Plane, such as one emoji, passes the source's check but is a placeholder here.
- RouteSafety.ChooseRoute: the route list comes from the directions service, and each route's simulated findings are inputs.
- RiskScoring.Refresh: the outcome of the geolocation lookup (unsupported, failed, or a position) is an input.

## Findings

| source | as written | input that shows it | evidently intended | confidence | as-written member | corrected member |
|---|---|---|---|---|---|---|
| public/ai-guide.js:217 | the "self-defense" quick action sends "Tell me about self-defense techniques", but the self-defense rule's keyword is "self defense" with a space, and no other rule fires | the quick action "self-defense" | the self-defense quick action gets the self-defense answer | not executed | ChatGuide.SelfDefensePromptAsWritten | ChatGuide.SelfDefensePromptCorrected |
| doc/safety-ratings.js:289-295 | `resetStarRatings` stores "0" and unlights the stars, but the listeners' `currentRating` keeps the old value, so leaving a star relights the old rating (line 41) | rate 4 stars, submit, then hover any star and move away | after a reset, leaving the stars shows no rating, as the stored value says | not executed | Stars.ResetThenLeaveShowsOldRating | Stars.ResetKeepsValid |

=== FILE: app_shell.dfy ===
/** The single-page shell of the application: its canned chat replies, the
    sample search, the emergency-contact guard and the notification
    colours. */
module AppShell {
  import opened Base
  import opened Text
  import ChatGuide
  import Emergency

  // ---------------------------------------------------------------------
  // Chat replies
  // ---------------------------------------------------------------------

  datatype Reply = SafeRouteReply | EmergencyReply | SelfDefenseReply | NightReply | ReportReply | DefaultReply

  /** 'safe' together with 'route' or 'path'. */
  predicate AsksSafeRoute(m: string) { Contains(m, "safe") && (Contains(m, "route") || Contains(m, "path")) }

  predicate AsksEmergency(m: string) { Contains(m, "emergency") || Contains(m, "help") }

  predicate AsksSelfDefense(m: string) { Contains(m, "self defense") || Contains(m, "protect") }

  predicate AsksNight(m: string) { Contains(m, "dark") || Contains(m, "night") }

  predicate AsksReport(m: string) { Contains(m, "report") || Contains(m, "incident") }

  /** `generateAIResponse`: the first of the five tests that holds on the
      lower-cased message picks the reply. */
  function ReplyOf(userMessage: string): (r: Reply)
    ensures var m := Lower(userMessage);
      (r == SafeRouteReply <==> AsksSafeRoute(m))
      && (r == EmergencyReply <==> !AsksSafeRoute(m) && AsksEmergency(m))
      && (r == SelfDefenseReply <==> !AsksSafeRoute(m) && !AsksEmergency(m) && AsksSelfDefense(m))
      && (r == NightReply <==> !AsksSafeRoute(m) && !AsksEmergency(m) && !AsksSelfDefense(m) && AsksNight(m))
      && (r == ReportReply <==> !AsksSafeRoute(m) && !AsksEmergency(m) && !AsksSelfDefense(m)
                                && !AsksNight(m) && AsksReport(m))
  {
    var m := Lower(userMessage);
    if AsksSafeRoute(m) then SafeRouteReply
    else if AsksEmergency(m) then EmergencyReply
    else if AsksSelfDefense(m) then SelfDefenseReply
    else if AsksNight(m) then NightReply
    else if AsksReport(m) then ReportReply
    else DefaultReply
  }

  /** A message mentioning "help" gets the emergency reply unless it also
      asks for a safe route. */
  lemma HelpGetsEmergencyReply(userMessage: string)
    requires Contains(Lower(userMessage), "help")
    ensures ReplyOf(userMessage) == EmergencyReply || ReplyOf(userMessage) == SafeRouteReply
    ensures !AsksSafeRoute(Lower(userMessage)) ==> ReplyOf(userMessage) == EmergencyReply
  {
  }

  /** Case makes no difference to the reply. */
  lemma ReplyIgnoresCase(userMessage: string)
    ensures ReplyOf(Lower(userMessage)) == ReplyOf(userMessage)
  {
    LowerIdempotent(userMessage);
  }

  /** Whatever the shell answers with its emergency reply, the AI guide
      also treats as an emergency: both of its words are keywords of the
      guide's first rule. */
  lemma EmergencyReplyAgreesWithGuide(userMessage: string)
    requires ReplyOf(userMessage) == EmergencyReply
    ensures ChatGuide.TopicOf(userMessage) == ChatGuide.Emergency
    ensures ChatGuide.TopicAsWritten(userMessage) == ChatGuide.Emergency
  {
    var m := Lower(userMessage);
    if Contains(m, "help") {
      ChatGuide.HelpMeansEmergency(userMessage);
    } else {
      assert ChatGuide.GuideRules[0].keywords[0] == "emergency";
      assert ChatGuide.Fires(m, ChatGuide.GuideRules[0]);
    }
  }

  // ---------------------------------------------------------------------
  // Sample search
  // ---------------------------------------------------------------------

  datatype SampleKind = LocationSample | UserSample | PostSample

  /** The `type` field of a sample result. */
  function KindName(k: SampleKind): (r: string)
    ensures r in {"location", "user", "post"}
  {
    match k
    case LocationSample => "location"
    case UserSample => "user"
    case PostSample => "post"
  }

  datatype Sample = Sample(kind: SampleKind, title: string, description: string)

  /** The three fixed results the shell searches. */
  const Samples: seq<Sample> := [
    Sample(LocationSample, "Central Park", "Well-lit park with good safety ratings"),
    Sample(UserSample, "Sarah Johnson", "Active safety advocate and community member"),
    Sample(PostSample, "Safety update about downtown area", "Recent lighting improvements make evening walks safer")
  ]

  predicate OfType(filter: string, s: Sample) { filter == "all" || KindName(s.kind) == filter }

  predicate TitleMatches(query: string, s: Sample) { Contains(Lower(s.title), Lower(query)) }

  /** `performSearch`: `None` when the query is blank and the results are
      cleared; otherwise the samples of the chosen type whose title holds
      the query, compared in lower case. The query is not trimmed for the
      comparison. */
  function SearchSamples(query: string, filter: string): (r: Option<seq<Sample>>)
    ensures r.None? <==> IsBlank(query)
    ensures r.Some? ==> forall s :: s in r.value <==> s in Samples && OfType(filter, s) && TitleMatches(query, s)
  {
    if IsBlank(query) then None
    else
      var byType := if filter == "all" then Samples else Filter(Samples, (s: Sample) => KindName(s.kind) == filter);
      Some(Filter(byType, (s: Sample) => TitleMatches(query, s)))
  }

  /** The results keep the order of the sample list: the two filters are
      one filter. */
  lemma SearchSamplesIsOneFilter(query: string, filter: string)
    requires !IsBlank(query)
    ensures SearchSamples(query, filter).value
      == Filter(Samples, (s: Sample) => OfType(filter, s) && TitleMatches(query, s))
  {
    var both := (s: Sample) => OfType(filter, s) && TitleMatches(query, s);
    var t := (s: Sample) => TitleMatches(query, s);
    if filter == "all" {
      FilterAgrees(Samples, t, both);
    } else {
      FilterThenFilter(Samples, (s: Sample) => KindName(s.kind) == filter, t, both);
    }
  }

  /** A filter naming no type finds nothing. */
  lemma UnknownTypeFindsNothing(query: string, filter: string)
    requires !IsBlank(query) && filter !in {"all", "location", "user", "post"}
    ensures SearchSamples(query, filter) == Some([])
  {
  }

  datatype SampleIcon = MapMarker | UserIcon | FileIcon

  /** `createSearchResultItem`: the icon of a result. */
  function IconOf(s: Sample): (r: SampleIcon)
    ensures r == MapMarker <==> s.kind == LocationSample
    ensures r == UserIcon <==> s.kind == UserSample
  {
    if KindName(s.kind) == "location" then MapMarker
    else if KindName(s.kind) == "user" then UserIcon
    else FileIcon
  }

  // ---------------------------------------------------------------------
  // Emergency contact and notifications
  // ---------------------------------------------------------------------

  /** `addEmergencyContact` of the shell: the contact is shown when both
      prompts returned a non-empty text, which is not trimmed. */
  function ShellContact(name: Option<string>, phone: Option<string>): (r: Option<(string, string)>)
    ensures r.Some? <==> name.Some? && name.value != [] && phone.Some? && phone.value != []
    ensures r.Some? ==> r.value == (name.value, phone.value)
  {
    if name.Some? && name.value != [] && phone.Some? && phone.value != [] then Some((name.value, phone.value))
    else None
  }

  /** Unlike the emergency panel, the shell accepts a name made of spaces. */
  lemma ShellAcceptsBlankName()
    ensures ShellContact(Some(" "), Some("911")).Some?
    ensures Emergency.AddContact([], Some(" "), Some("911"), None, 0) == []
  {
    assert Emergency.Blank(Some(" ")) by {
      BlankIffAllSpace(" ");
    }
  }

  datatype Colour = Green | Red | Amber | Blue

  /** The background of a notification by its type. */
  function ColourOf(kind: string): (r: Colour)
    ensures r == Green <==> kind == "success"
    ensures r == Red <==> kind == "error"
    ensures r == Amber <==> kind == "warning"
    ensures r == Blue <==> kind !in {"success", "error", "warning"}
  {
    if kind == "success" then Green
    else if kind == "error" then Red
    else if kind == "warning" then Amber
    else Blue
  }
}

=== FILE: base.dfy ===
/** Small shared vocabulary: optional values, clamping, the "keep the most
    recent N entries" cap used by every stored history, and an
    order-preserving filter over sequences. */
module Base {

  /** A value that may be missing (`null`, `undefined`, a cancelled prompt). */
  datatype Option<+T> = None | Some(value: T)

  function Min(a: int, b: int): int { if a <= b then a else b }

  /** `Math.max(lo, Math.min(hi, x))`. */
  function Clamp(x: int, lo: int, hi: int): (r: int)
    requires lo <= hi
    ensures lo <= r <= hi
    ensures lo <= x <= hi ==> r == x
    ensures x <= lo ==> r == lo
    ensures hi <= x ==> r == hi
  {
    var m := if x < hi then x else hi;
    if lo > m then lo else m
  }

  /** `array.slice(-n)` for n > 0: the last `n` entries, or all of them when
      there are fewer. */
  function KeepLast<T>(s: seq<T>, n: nat): (r: seq<T>)
    requires n > 0
    ensures |r| == Min(|s|, n)
    ensures r == s[|s| - |r|..]
    ensures |s| <= n ==> r == s
  {
    if |s| <= n then s else s[|s| - n..]
  }

  /** A concatenation contains exactly what either part contains. */
  lemma ConcatMembers<T>(a: seq<T>, b: seq<T>)
    ensures forall x :: x in a + b <==> x in a || x in b
  {
  }

  /** `array.filter(p)`: the elements satisfying `p`, in their original order. */
  function Filter<T>(s: seq<T>, p: T -> bool): (r: seq<T>)
    ensures |r| <= |s|
    ensures forall i :: 0 <= i < |r| ==> r[i] in s && p(r[i])
    ensures forall i :: 0 <= i < |s| && p(s[i]) ==> s[i] in r
  {
    if s == [] then []
    else if p(s[0]) then [s[0]] + Filter(s[1..], p)
    else Filter(s[1..], p)
  }

  /** Filtering a sequence that starts with `x` keeps `x` exactly when it
      passes, then filters the rest. */
  lemma FilterCons<T>(x: T, s: seq<T>, p: T -> bool)
    ensures Filter([x] + s, p) == (if p(x) then [x] else []) + Filter(s, p)
  {
    assert ([x] + s)[0] == x;
    assert ([x] + s)[1..] == s;
  }

  /** Filtering a concatenation filters each part and keeps the parts in
      order: the filter never reorders what it keeps. */
  lemma {:induction false} FilterConcat<T>(a: seq<T>, b: seq<T>, p: T -> bool)
    ensures Filter(a + b, p) == Filter(a, p) + Filter(b, p)
  {
    if a == [] {
      assert a + b == b;
    } else {
      assert (a + b)[0] == a[0];
      assert (a + b)[1..] == a[1..] + b;
      FilterConcat(a[1..], b, p);
    }
  }

  /** A filter that every element passes returns its input unchanged. */
  lemma {:induction false} FilterKeepsAll<T>(s: seq<T>, p: T -> bool)
    requires forall i :: 0 <= i < |s| ==> p(s[i])
    ensures Filter(s, p) == s
  {
    if s != [] {
      FilterKeepsAll(s[1..], p);
    }
  }

  /** Filtering twice with the same predicate changes nothing the second time. */
  lemma {:induction false} FilterIdempotent<T>(s: seq<T>, p: T -> bool)
    ensures Filter(Filter(s, p), p) == Filter(s, p)
  {
    var r := Filter(s, p);
    FilterKeepsAll(r, p);
  }

  /** Filtering by `p` and then by `q` keeps exactly what passes both
      (`pq`), in the original order: two successive filters are one filter. */
  lemma {:induction false} FilterThenFilter<T>(s: seq<T>, p: T -> bool, q: T -> bool, pq: T -> bool)
    requires forall x :: pq(x) == (p(x) && q(x))
    ensures Filter(Filter(s, p), q) == Filter(s, pq)
  {
    if s != [] {
      FilterThenFilter(s[1..], p, q, pq);
      if p(s[0]) {
        assert Filter(s, p) == [s[0]] + Filter(s[1..], p);
        assert Filter(s, p)[1..] == Filter(s[1..], p);
      }
    }
  }

  /** Filters whose predicates agree on every value return the same list. */
  lemma {:induction false} FilterAgrees<T>(s: seq<T>, p: T -> bool, q: T -> bool)
    requires forall x :: p(x) == q(x)
    ensures Filter(s, p) == Filter(s, q)
  {
    if s != [] {
      FilterAgrees(s[1..], p, q);
    }
  }

  /** `array.findIndex(p)`: the first position whose element satisfies `p`,
      or `None` (JavaScript's -1) when there is none. */
  function FindIndex<T>(s: seq<T>, p: T -> bool): (r: Option<nat>)
    ensures r.Some? ==> r.value < |s| && p(s[r.value])
    ensures r.Some? ==> forall j :: 0 <= j < r.value ==> !p(s[j])
    ensures r.None? <==> forall j :: 0 <= j < |s| ==> !p(s[j])
  {
    if s == [] then None
    else if p(s[0]) then Some(0)
    else match FindIndex(s[1..], p)
      case None => None
      case Some(i) => Some(i + 1)
  }

  /** `array.splice(i, 1)`: the element at `i` is dropped, the elements
      before it keep their positions and the ones after it move down by one. */
  function RemoveAt<T>(s: seq<T>, i: nat): (r: seq<T>)
    requires i < |s|
    ensures |r| == |s| - 1
    ensures forall j :: 0 <= j < i ==> r[j] == s[j]
    ensures forall j :: i <= j < |r| ==> r[j] == s[j + 1]
    ensures multiset(r) + multiset{s[i]} == multiset(s)
  {
    assert s == s[..i] + [s[i]] + s[i + 1..];
    s[..i] + s[i + 1..]
  }

  /** `array[i] = x`: position `i` now holds `x`, nothing else changes. */
  function ReplaceAt<T>(s: seq<T>, i: nat, x: T): (r: seq<T>)
    requires i < |s|
    ensures |r| == |s| && r[i] == x
    ensures forall j :: 0 <= j < |s| && j != i ==> r[j] == s[j]
  {
    s[i := x]
  }
}

=== FILE: chat_guide.dfy ===
/** The AI safety guide: the keyword rules that pick the kind of answer for
    a message, the quick-action prompts, and the chat history (sending,
    loading, the welcome message and the 50-entry cap). */
module ChatGuide {
  import opened Base
  import opened Text

  /** The kinds of answer the guide gives; `General` when no rule fires. */
  datatype Topic =
    | Emergency | Route | SelfDefense | SafetyTips | NightSafety
    | Reporting | Location | Contacts | AppHelp | General

  /** One `if (containsKeywords(message, [...]))` test of `generateResponse`. */
  datatype Rule = Rule(keywords: seq<string>, topic: Topic)

  /** `containsKeywords`: some keyword occurs in the message. */
  function ContainsKeywords(message: string, keywords: seq<string>): (r: bool)
    ensures r <==> exists k, i :: 0 <= k < |keywords| && OccursAt(message, keywords[k], i)
  {
    AnyContainsIffOccurs(message, keywords);
    exists k :: 0 <= k < |keywords| && Contains(message, keywords[k])
  }

  predicate Fires(message: string, rule: Rule) { ContainsKeywords(message, rule.keywords) }

  /** The rules in the order `generateResponse` tests them. */
  const GuideRules: seq<Rule> := [
    Rule(["emergency", "help", "danger", "unsafe", "scared", "attack"], Emergency),
    Rule(["route", "path", "walk", "go", "travel", "navigation"], Route),
    Rule(["self defense", "protect", "fight", "defend", "martial arts", "karate"], SelfDefense),
    Rule(["safety tips", "advice", "precaution", "careful", "aware"], SafetyTips),
    Rule(["night", "dark", "evening", "late"], NightSafety),
    Rule(["report", "incident", "harassment", "suspicious"], Reporting),
    Rule(["location", "share", "gps", "where"], Location),
    Rule(["contact", "family", "friend", "emergency contact"], Contacts),
    Rule(["app", "feature", "how to", "use", "help"], AppHelp)
  ]

  /** The same rules with the hyphenated spelling "self-defense" added to
      the self-defense keywords, the spelling the guide's own quick action
      uses. */
  const CorrectedRules: seq<Rule> := GuideRules[2 := Rule(GuideRules[2].keywords + ["self-defense"], SelfDefense)]

  /** The first rule that fires decides the topic; with none, `General`. */
  function Decide(message: string, rules: seq<Rule>): (r: Topic)
    ensures (forall i :: 0 <= i < |rules| ==> !Fires(message, rules[i])) ==> r == General
    ensures forall i :: (0 <= i < |rules| && Fires(message, rules[i])
      && (forall j :: 0 <= j < i ==> !Fires(message, rules[j]))) ==> r == rules[i].topic
  {
    match FindIndex(rules, (rule: Rule) => Fires(message, rule))
    case None => General
    case Some(i) => rules[i].topic
  }

  /** `generateResponse` as written: the rules applied to the lower-cased
      message. */
  function TopicAsWritten(message: string): (r: Topic)
    ensures ContainsKeywords(Lower(message), GuideRules[0].keywords) ==> r == Emergency
    ensures (forall i :: 0 <= i < |GuideRules| ==> !Fires(Lower(message), GuideRules[i])) ==> r == General
  {
    Decide(Lower(message), GuideRules)
  }

  /** `generateResponse` with the corrected self-defense keywords. */
  function TopicOf(message: string): (r: Topic)
    ensures ContainsKeywords(Lower(message), GuideRules[0].keywords) ==> r == Emergency
    ensures (forall i :: 0 <= i < |CorrectedRules| ==> !Fires(Lower(message), CorrectedRules[i])) ==> r == General
  {
    Decide(Lower(message), CorrectedRules)
  }

  /** Upper and lower case make no difference to the answer, as written
      and corrected. */
  lemma TopicIgnoresCase(message: string)
    ensures TopicAsWritten(Lower(message)) == TopicAsWritten(message)
    ensures TopicOf(Lower(message)) == TopicOf(message)
  {
    LowerIdempotent(message);
  }

  /** Any message mentioning "help" gets the emergency answer, so the "help"
      keyword of the app-help rule never decides anything. */
  lemma HelpMeansEmergency(message: string)
    requires Contains(Lower(message), "help")
    ensures TopicOf(message) == Emergency && TopicAsWritten(message) == Emergency
  {
    assert GuideRules[0].keywords[1] == "help";
    assert Fires(Lower(message), GuideRules[0]);
  }

  /** "emergency contact" contains "emergency", so the contacts rule's
      keyword "emergency contact" is shadowed by the emergency rule. */
  lemma EmergencyContactMeansEmergency(message: string)
    requires Contains(Lower(message), "emergency contact")
    ensures TopicOf(message) == Emergency && TopicAsWritten(message) == Emergency
  {
    MatchesAt("emergency contact", "emergency", 0);
    ContainsTransitive(Lower(message), "emergency contact", "emergency");
    assert GuideRules[0].keywords[0] == "emergency";
    assert Fires(Lower(message), GuideRules[0]);
  }

  /** Two rule lists that fire alike and answer alike decide alike. */
  lemma {:induction false} DecideAlike(message: string, a: seq<Rule>, b: seq<Rule>)
    requires |a| == |b|
    requires forall i :: 0 <= i < |a| ==> (Fires(message, a[i]) <==> Fires(message, b[i]))
    requires forall i :: 0 <= i < |a| ==> a[i].topic == b[i].topic
    ensures Decide(message, a) == Decide(message, b)
  {
    var f := (rule: Rule) => Fires(message, rule);
    match FindIndex(a, f)
    case None =>
      assert forall j :: 0 <= j < |b| ==> !f(b[j]) by {
        forall j | 0 <= j < |b| ensures !f(b[j]) {
          assert !f(a[j]);
        }
      }
    case Some(i) =>
      assert f(b[i]);
  }

  /** The correction changes nothing for a message that does not spell
      "self-defense": both rule lists then fire alike. */
  lemma CorrectionOnlyAddsHyphen(message: string)
    requires !Contains(Lower(message), "self-defense")
    ensures TopicOf(message) == TopicAsWritten(message)
  {
    var m := Lower(message);
    forall i | 0 <= i < |GuideRules|
      ensures Fires(m, CorrectedRules[i]) <==> Fires(m, GuideRules[i])
    {
      if i == 2 {
        var ks := GuideRules[2].keywords;
        var kc := CorrectedRules[2].keywords;
        assert kc == ks + ["self-defense"];
        if Fires(m, CorrectedRules[2]) {
          var k :| 0 <= k < |kc| && Contains(m, kc[k]);
          assert k < |ks|;
          assert Contains(m, ks[k]);
        }
        if Fires(m, GuideRules[2]) {
          var k :| 0 <= k < |ks| && Contains(m, ks[k]);
          assert kc[k] == ks[k];
        }
      }
    }
    DecideAlike(m, CorrectedRules, GuideRules);
  }

  // ---------------------------------------------------------------------
  // Quick actions
  // ---------------------------------------------------------------------

  const SelfDefensePrompt := "Tell me about self-defense techniques"

  /** `handleQuickAction`: the prompt sent for each of the four buttons;
      any other action sends nothing. */
  function QuickMessage(action: string): (r: Option<string>)
    ensures r.Some? <==> action in {"safety-tips", "emergency-help", "route-advice", "self-defense"}
    ensures r.Some? ==> |r.value| > 0 && !IsSpace(r.value[0])
  {
    if action == "safety-tips" then Some("Can you give me some general safety tips?")
    else if action == "emergency-help" then Some("What should I do in an emergency situation?")
    else if action == "route-advice" then Some("How can I plan a safe route?")
    else if action == "self-defense" then Some(SelfDefensePrompt)
    else None
  }

  /** `a` is never directly followed by `b` in `s`. */
  predicate NoPair(s: string, a: char, b: char) {
    forall i :: 0 <= i < |s| - 1 ==> !(s[i] == a && s[i + 1] == b)
  }

  /** None of the characters `cs` occurs in `s`. */
  predicate Lacks(s: string, cs: set<char>) {
    forall i :: 0 <= i < |s| ==> s[i] !in cs
  }

  /** The letters absent from the self-defense prompt in either case. */
  const AbsentLetters: set<char> := {'g', 'p', 'r', 'k', 'w', 'v', 'y'}

  /** The characters and character pairs missing from the lower-cased
      self-defense prompt that rule out every keyword of the table. */
  predicate SelfDefensePromptShape(s: string) {
    Lacks(s, AbsentLetters)
    && NoPair(s, 'u', 'n') && NoPair(s, 'f', ' ') && NoPair(s, 'n', 'd') && NoPair(s, 'l', 'a')
    && NoPair(s, 'i', 'n') && NoPair(s, 'l', 'o') && NoPair(s, 'c', 'o') && NoPair(s, 'u', 's')
  }

  /** The prompt as typed: a capital first letter and no other capitals,
      and the same absent letters and pairs. */
  predicate TypedShape(m: string) {
    |m| > 0 && m[0] == 'T' && (forall i :: 1 <= i < |m| ==> !IsUpper(m[i]))
    && SelfDefensePromptShape(m)
  }

  /** Lower-casing such a text only turns the first 'T' into 't', which
      starts none of the pairs and is not among the absent letters. */
  lemma LowerHasShape(m: string)
    requires TypedShape(m)
    ensures SelfDefensePromptShape(Lower(m))
  {
    var s := Lower(m);
    assert s[0] == 't';
    assert forall i :: 1 <= i < |m| ==> s[i] == m[i];
  }

  lemma SelfDefensePromptCase(m: string)
    requires m == SelfDefensePrompt
    ensures |m| > 0 && m[0] == 'T' && forall i :: 1 <= i < |m| ==> !IsUpper(m[i])
  {
  }

  lemma SelfDefensePromptLetters(m: string)
    requires m == SelfDefensePrompt
    ensures Lacks(m, AbsentLetters)
  {
  }

  lemma SelfDefensePromptLacksUnsafeAndSelfDefense(m: string)
    requires m == SelfDefensePrompt
    ensures NoPair(m, 'u', 'n') && NoPair(m, 'f', ' ')
  {
  }

  lemma SelfDefensePromptLacksDefendAndLate(m: string)
    requires m == SelfDefensePrompt
    ensures NoPair(m, 'n', 'd') && NoPair(m, 'l', 'a')
  {
  }

  lemma SelfDefensePromptLacksIncidentAndLocation(m: string)
    requires m == SelfDefensePrompt
    ensures NoPair(m, 'i', 'n') && NoPair(m, 'l', 'o')
  {
  }

  lemma SelfDefensePromptLacksContactAndUse(m: string)
    requires m == SelfDefensePrompt
    ensures NoPair(m, 'c', 'o') && NoPair(m, 'u', 's')
  {
  }

  /** The lower-cased self-defense prompt has the shape. */
  lemma SelfDefensePromptHasShape(m: string)
    requires m == SelfDefensePrompt
    ensures SelfDefensePromptShape(Lower(m))
  {
    SelfDefensePromptCase(m);
    SelfDefensePromptLetters(m);
    SelfDefensePromptLacksUnsafeAndSelfDefense(m);
    SelfDefensePromptLacksDefendAndLate(m);
    SelfDefensePromptLacksIncidentAndLocation(m);
    SelfDefensePromptLacksContactAndUse(m);
    LowerHasShape(m);
  }

  /** The lower-cased prompt spells "self-defense" from position 14 on. */
  lemma SelfDefensePromptSpellsKeyword(m: string)
    requires m == SelfDefensePrompt
    ensures Contains(Lower(m), "self-defense")
  {
    MatchesAt(Lower(m), "self-defense", 14);
  }

  /** A missing character rules a keyword out. */
  lemma LacksRulesOut(s: string, cs: set<char>, sub: string, c: char)
    requires Lacks(s, cs) && c in cs && c in sub
    ensures !Contains(s, sub)
  {
    AbsentCharRulesOut(s, sub, c);
  }

  /** A rule none of whose keywords occurs does not fire. */
  lemma Silent(s: string, rule: Rule)
    requires forall k :: 0 <= k < |rule.keywords| ==> !Contains(s, rule.keywords[k])
    ensures !Fires(s, rule)
  {
  }

  /** For each rule, every keyword misses a letter or a letter pair that a
      text of that shape lacks. */
  lemma ShapeMissesEmergency(s: string)
    requires SelfDefensePromptShape(s)
    ensures forall k :: 0 <= k < |GuideRules[0].keywords| ==> !Contains(s, GuideRules[0].keywords[k])
  {
    var cs := AbsentLetters;
    LacksRulesOut(s, cs, "emergency", 'g');
    LacksRulesOut(s, cs, "help", 'p');
    LacksRulesOut(s, cs, "danger", 'g');
    AbsentPairRulesOut(s, "unsafe", 0);
    LacksRulesOut(s, cs, "scared", 'r');
    LacksRulesOut(s, cs, "attack", 'k');
  }

  lemma ShapeMissesRoute(s: string)
    requires SelfDefensePromptShape(s)
    ensures forall k :: 0 <= k < |GuideRules[1].keywords| ==> !Contains(s, GuideRules[1].keywords[k])
  {
    var cs := AbsentLetters;
    LacksRulesOut(s, cs, "route", 'r');
    LacksRulesOut(s, cs, "path", 'p');
    LacksRulesOut(s, cs, "walk", 'w');
    LacksRulesOut(s, cs, "go", 'g');
    LacksRulesOut(s, cs, "travel", 'r');
    LacksRulesOut(s, cs, "navigation", 'v');
  }

  lemma ShapeMissesSelfDefense(s: string)
    requires SelfDefensePromptShape(s)
    ensures forall k :: 0 <= k < |GuideRules[2].keywords| ==> !Contains(s, GuideRules[2].keywords[k])
  {
    var cs := AbsentLetters;
    AbsentPairRulesOut(s, "self defense", 3);
    LacksRulesOut(s, cs, "protect", 'p');
    LacksRulesOut(s, cs, "fight", 'g');
    AbsentPairRulesOut(s, "defend", 4);
    LacksRulesOut(s, cs, "martial arts", 'r');
    LacksRulesOut(s, cs, "karate", 'k');
  }

  lemma ShapeMissesSafetyTips(s: string)
    requires SelfDefensePromptShape(s)
    ensures forall k :: 0 <= k < |GuideRules[3].keywords| ==> !Contains(s, GuideRules[3].keywords[k])
  {
    var cs := AbsentLetters;
    LacksRulesOut(s, cs, "safety tips", 'p');
    LacksRulesOut(s, cs, "advice", 'v');
    LacksRulesOut(s, cs, "precaution", 'r');
    LacksRulesOut(s, cs, "careful", 'r');
    LacksRulesOut(s, cs, "aware", 'w');
  }

  lemma ShapeMissesNightSafety(s: string)
    requires SelfDefensePromptShape(s)
    ensures forall k :: 0 <= k < |GuideRules[4].keywords| ==> !Contains(s, GuideRules[4].keywords[k])
  {
    var cs := AbsentLetters;
    LacksRulesOut(s, cs, "night", 'g');
    LacksRulesOut(s, cs, "dark", 'r');
    LacksRulesOut(s, cs, "evening", 'v');
    AbsentPairRulesOut(s, "late", 0);
  }

  lemma ShapeMissesReporting(s: string)
    requires SelfDefensePromptShape(s)
    ensures forall k :: 0 <= k < |GuideRules[5].keywords| ==> !Contains(s, GuideRules[5].keywords[k])
  {
    var cs := AbsentLetters;
    LacksRulesOut(s, cs, "report", 'r');
    AbsentPairRulesOut(s, "incident", 0);
    LacksRulesOut(s, cs, "harassment", 'r');
    LacksRulesOut(s, cs, "suspicious", 'p');
  }

  lemma ShapeMissesLocation(s: string)
    requires SelfDefensePromptShape(s)
    ensures forall k :: 0 <= k < |GuideRules[6].keywords| ==> !Contains(s, GuideRules[6].keywords[k])
  {
    var cs := AbsentLetters;
    AbsentPairRulesOut(s, "location", 0);
    LacksRulesOut(s, cs, "share", 'r');
    LacksRulesOut(s, cs, "gps", 'g');
    LacksRulesOut(s, cs, "where", 'w');
  }

  lemma ShapeMissesContacts(s: string)
    requires SelfDefensePromptShape(s)
    ensures forall k :: 0 <= k < |GuideRules[7].keywords| ==> !Contains(s, GuideRules[7].keywords[k])
  {
    var cs := AbsentLetters;
    AbsentPairRulesOut(s, "contact", 0);
    LacksRulesOut(s, cs, "family", 'y');
    LacksRulesOut(s, cs, "friend", 'r');
    LacksRulesOut(s, cs, "emergency contact", 'g');
  }

  lemma ShapeMissesAppHelp(s: string)
    requires SelfDefensePromptShape(s)
    ensures forall k :: 0 <= k < |GuideRules[8].keywords| ==> !Contains(s, GuideRules[8].keywords[k])
  {
    var cs := AbsentLetters;
    LacksRulesOut(s, cs, "app", 'p');
    LacksRulesOut(s, cs, "feature", 'r');
    LacksRulesOut(s, cs, "how to", 'w');
    AbsentPairRulesOut(s, "use", 0);
    LacksRulesOut(s, cs, "help", 'p');
  }

  /** Neither the emergency rule nor the route rule fires on a text of that
      shape. */
  lemma ShapePassesFirstRules(s: string)
    requires SelfDefensePromptShape(s)
    ensures !Fires(s, GuideRules[0]) && !Fires(s, GuideRules[1])
  {
    ShapeMissesEmergency(s);
    Silent(s, GuideRules[0]);
    ShapeMissesRoute(s);
    Silent(s, GuideRules[1]);
  }

  /** The self-defense rule as written, spelled "self defense" with a
      space, and the safety-tips rule do not fire on it either. */
  lemma ShapePassesMiddleRules(s: string)
    requires SelfDefensePromptShape(s)
    ensures !Fires(s, GuideRules[2]) && !Fires(s, GuideRules[3])
  {
    ShapeMissesSelfDefense(s);
    Silent(s, GuideRules[2]);
    ShapeMissesSafetyTips(s);
    Silent(s, GuideRules[3]);
  }

  /** Nor do the night, reporting and location rules. */
  lemma ShapePassesLaterRules(s: string)
    requires SelfDefensePromptShape(s)
    ensures !Fires(s, GuideRules[4]) && !Fires(s, GuideRules[5]) && !Fires(s, GuideRules[6])
  {
    ShapeMissesNightSafety(s);
    Silent(s, GuideRules[4]);
    ShapeMissesReporting(s);
    Silent(s, GuideRules[5]);
    ShapeMissesLocation(s);
    Silent(s, GuideRules[6]);
  }

  /** Nor the contacts and app-help rules. */
  lemma ShapePassesLastRules(s: string)
    requires SelfDefensePromptShape(s)
    ensures !Fires(s, GuideRules[7]) && !Fires(s, GuideRules[8])
  {
    ShapeMissesContacts(s);
    Silent(s, GuideRules[7]);
    ShapeMissesAppHelp(s);
    Silent(s, GuideRules[8]);
  }

  /** So no rule of the table as written fires on a text of that shape. */
  lemma ShapePassesAllRules(s: string)
    requires SelfDefensePromptShape(s)
    ensures forall i :: 0 <= i < |GuideRules| ==> !Fires(s, GuideRules[i])
  {
    ShapePassesFirstRules(s);
    ShapePassesMiddleRules(s);
    ShapePassesLaterRules(s);
    ShapePassesLastRules(s);
  }

  /** As written, the "Self Defense" quick action gets the general answer. */
  lemma SelfDefensePromptAsWritten()
    ensures QuickMessage("self-defense") == Some(SelfDefensePrompt)
    ensures TopicAsWritten(SelfDefensePrompt) == General
  {
    SelfDefensePromptHasShape(SelfDefensePrompt);
    ShapePassesAllRules(Lower(SelfDefensePrompt));
  }

  /** With the hyphenated keyword added, it gets the self-defense answer. */
  lemma SelfDefensePromptCorrected()
    ensures TopicOf(SelfDefensePrompt) == SelfDefense
  {
    var s := Lower(SelfDefensePrompt);
    SelfDefensePromptHasShape(SelfDefensePrompt);
    ShapePassesFirstRules(s);
    SelfDefensePromptSpellsKeyword(SelfDefensePrompt);
    assert CorrectedRules[2].keywords[6] == "self-defense";
    assert Fires(s, CorrectedRules[2]);
  }

  // ---------------------------------------------------------------------
  // Chat history
  // ---------------------------------------------------------------------

  datatype Sender = UserSender | AiSender

  /** One stored chat message; the ISO timestamp is not modelled. */
  datatype Entry = Entry(sender: Sender, content: string)

  /** `saveChatHistory` keeps the last 50 messages. */
  const HistoryCap: nat := 50

  /** `loadChatHistory` redraws the last 10 saved messages. */
  const RedrawCount: nat := 10

  /** The guide after `init`: the whole history and the messages on screen. */
  datatype Session = Session(history: seq<Entry>, shown: seq<Entry>)

  /** `init`: the saved history (`None` when there is none or it does not
      parse) is loaded and its last 10 messages are redrawn; an empty
      history then gets the welcome message. */
  function Start(saved: Option<seq<Entry>>, welcome: string): (r: Session)
    ensures saved.Some? && saved.value != [] ==> r.history == saved.value
    ensures saved.Some? && saved.value != [] ==>
      (|r.shown| == Min(|saved.value|, RedrawCount) && r.shown == saved.value[|saved.value| - |r.shown|..])
    ensures saved.None? || saved.value == [] ==>
      (r.history == [Entry(AiSender, welcome)] && r.shown == [Entry(AiSender, welcome)])
  {
    var history := if saved.Some? then saved.value else [];
    var shown := if saved.Some? then KeepLast(saved.value, RedrawCount) else [];
    if history == [] then Session([Entry(AiSender, welcome)], shown + [Entry(AiSender, welcome)])
    else Session(history, shown)
  }

  /** `addMessage` for the message and for the reply, then the cut of
      `saveChatHistory` to the last 50 messages. */
  function Record(history: seq<Entry>, message: string, reply: string): (r: seq<Entry>)
    ensures |r| == Min(|history| + 2, HistoryCap)
    ensures r[|r| - 2] == Entry(UserSender, message) && r[|r| - 1] == Entry(AiSender, reply)
    ensures r[..|r| - 2] == history[|history| - (|r| - 2)..]
  {
    var all := history + [Entry(UserSender, message), Entry(AiSender, reply)];
    var kept := KeepLast(all, HistoryCap);
    assert kept[..|kept| - 2] == all[|all| - |kept|..|all| - 2];
    kept
  }

  datatype Sent = Ignored | Answered(history: seq<Entry>, topic: Topic)

  /** `sendMessage`: a blank input is ignored; otherwise the trimmed message
      and the reply are recorded. `reply` is the answer text, which the
      source picks at random among the texts of the topic. */
  function Send(history: seq<Entry>, input: string, reply: string): (r: Sent)
    ensures r.Ignored? <==> IsBlank(input)
    ensures r.Answered? ==> r.topic == TopicAsWritten(Trim(input))
    ensures r.Answered? ==> r.history == Record(history, Trim(input), reply)
  {
    var message := Trim(input);
    if message == [] then Ignored else Answered(Record(history, message, reply), TopicAsWritten(message))
  }

  /** `sendMessage` with the corrected self-defense keywords. */
  function SendCorrected(history: seq<Entry>, input: string, reply: string): (r: Sent)
    ensures r.Ignored? <==> IsBlank(input)
    ensures r.Answered? ==> r.topic == TopicOf(Trim(input))
    ensures r.Answered? ==> r.history == Record(history, Trim(input), reply)
  {
    var message := Trim(input);
    if message == [] then Ignored else Answered(Record(history, message, reply), TopicOf(message))
  }

  /** The two sends record the same history and differ in the topic only
      for a message spelling "self-defense". */
  lemma SendsDifferOnlyOnHyphen(history: seq<Entry>, input: string, reply: string)
    ensures Send(history, input, reply).Ignored? <==> SendCorrected(history, input, reply).Ignored?
    ensures Send(history, input, reply).Answered? ==>
      Send(history, input, reply).history == SendCorrected(history, input, reply).history
    ensures Send(history, input, reply).Answered? && !Contains(Lower(Trim(input)), "self-defense") ==>
      Send(history, input, reply) == SendCorrected(history, input, reply)
  {
    if !Contains(Lower(Trim(input)), "self-defense") {
      CorrectionOnlyAddsHyphen(Trim(input));
    }
  }

  /** Two exchanges recorded one after the other both stay in the history,
      in order. */
  lemma RecordTwiceKeepsBoth(history: seq<Entry>, a: string, replyA: string, b: string, replyB: string)
    ensures var h := Record(Record(history, a, replyA), b, replyB);
      |h| >= 4 && h[|h| - 4] == Entry(UserSender, a) && h[|h| - 3] == Entry(AiSender, replyA)
      && h[|h| - 2] == Entry(UserSender, b) && h[|h| - 1] == Entry(AiSender, replyB)
  {
    var h1 := Record(history, a, replyA);
    var h := Record(h1, b, replyB);
    var n := |h| - 2;
    assert h[..n] == h1[|h1| - n..];
    assert n >= 2;
    assert h[n - 2] == h[..n][n - 2] == h1[|h1| - n..][n - 2] == h1[|h1| - 2];
    assert h[n - 1] == h[..n][n - 1] == h1[|h1| - n..][n - 1] == h1[|h1| - 1];
  }

  /** A history within the cap stays within it. */
  lemma RecordKeepsCap(history: seq<Entry>, message: string, reply: string)
    requires |history| <= HistoryCap
    ensures |Record(history, message, reply)| <= HistoryCap
    ensures |history| + 2 <= HistoryCap ==> Record(history, message, reply)[..|history|] == history
  {
  }

  /** `clearChatHistory`: the history is emptied and the welcome message
      shown again. */
  function Clear(welcome: string): (r: Session)
    ensures r == Start(None, welcome)
  {
    Session([Entry(AiSender, welcome)], [Entry(AiSender, welcome)])
  }
}

=== FILE: community.dfy ===
/** The community feed: creating a post (with its validation order),
    liking and commenting, writing a changed post back to the stored list,
    checking files picked for upload, and the safety badge of a post. */
module Community {
  import opened Base
  import opened Text

  datatype MediaKind = Image | Video

  /** An uploaded attachment; the storage URL is left out. */
  datatype Media = Media(kind: MediaKind, name: string)

  /** A file picked in the form. */
  datatype PickedFile = PickedFile(name: string, size: int, mime: string)

  datatype Post = Post(
    id: int, content: string, location: string, safetyLevel: string, timestampMs: int,
    userId: string, userName: string, likes: int, comments: int, media: seq<Media>)

  // ---------------------------------------------------------------------
  // Creating a post
  // ---------------------------------------------------------------------

  datatype PostError = MissingContent | MissingLocation | MissingSafetyLevel

  datatype Created = Rejected(reason: PostError) | Published(post: Post)

  /** `handlePostCreation`: content is checked first, then location (both
      after trimming), then that a safety level was chosen. The values are
      stored as typed, untrimmed. `uid` and `displayName` are the signed-in
      user's, if any; `id` and `nowMs` come from the clock. */
  function CreatePost(content: string, location: string, safetyLevel: string, id: int, nowMs: int,
                      uid: Option<string>, displayName: Option<string>, media: seq<Media>): (r: Created)
    ensures r.Rejected? <==> IsBlank(content) || IsBlank(location) || safetyLevel == []
    ensures r == Rejected(MissingContent) <==> IsBlank(content)
    ensures r == Rejected(MissingLocation) <==> !IsBlank(content) && IsBlank(location)
    ensures r == Rejected(MissingSafetyLevel) <==> !IsBlank(content) && !IsBlank(location) && safetyLevel == []
    ensures r.Published? ==> (r.post.content == content && r.post.location == location
      && r.post.safetyLevel == safetyLevel && r.post.likes == 0 && r.post.comments == 0
      && r.post.id == id && r.post.timestampMs == nowMs && r.post.media == media)
    ensures r.Published? && uid.None? ==> r.post.userId == "anonymous"
    ensures r.Published? && displayName.None? ==> r.post.userName == "Anonymous User"
    ensures r.Published? ==> (r.post.userId == OrElse(uid, "anonymous")
      && r.post.userName == OrElse(displayName, "Anonymous User"))
  {
    if IsBlank(content) then Rejected(MissingContent)
    else if IsBlank(location) then Rejected(MissingLocation)
    else if safetyLevel == [] then Rejected(MissingSafetyLevel)
    else Published(Post(id, content, location, safetyLevel, nowMs,
                        OrElse(uid, "anonymous"), OrElse(displayName, "Anonymous User"), 0, 0, media))
  }

  /** The new post goes to the front of the feed (`unshift`), and the stored
      list likewise; a rejected post changes neither. */
  function Publish(feed: seq<Post>, c: Created): (r: seq<Post>)
    ensures c.Rejected? ==> r == feed
    ensures c.Published? ==> |r| == |feed| + 1 && r[0] == c.post && r[1..] == feed
  {
    if c.Published? then [c.post] + feed else feed
  }

  // ---------------------------------------------------------------------
  // Likes and comments
  // ---------------------------------------------------------------------

  /** `posts.find(p => p.id === id)`, as an index. */
  function FindPost(posts: seq<Post>, id: int): (r: Option<nat>)
    ensures r.Some? ==> r.value < |posts| && posts[r.value].id == id
    ensures r.Some? ==> forall j :: 0 <= j < r.value ==> posts[j].id != id
    ensures r.None? <==> forall j :: 0 <= j < |posts| ==> posts[j].id != id
  {
    FindIndex(posts, (p: Post) => p.id == id)
  }

  /** The like button of one post: the feed and whether the button shows "liked". */
  datatype LikeState = LikeState(posts: seq<Post>, liked: bool)

  /** `toggleLike`: the first post with the id loses a like if the button is
      marked liked and gains one otherwise, and the mark flips; an unknown
      id changes nothing. */
  function ToggleLike(s: LikeState, id: int): (r: LikeState)
    ensures FindPost(s.posts, id).None? ==> r == s
    ensures FindPost(s.posts, id).Some? ==>
      var i := FindPost(s.posts, id).value;
      && r.liked == !s.liked
      && |r.posts| == |s.posts|
      && r.posts[i].likes == s.posts[i].likes + (if s.liked then -1 else 1)
      && r.posts[i] == s.posts[i].(likes := r.posts[i].likes)
      && (forall j :: 0 <= j < |s.posts| && j != i ==> r.posts[j] == s.posts[j])
  {
    match FindPost(s.posts, id)
    case None => s
    case Some(i) =>
      var p := s.posts[i];
      var likes := if s.liked then p.likes - 1 else p.likes + 1;
      LikeState(ReplaceAt(s.posts, i, p.(likes := likes)), !s.liked)
  }

  /** Liking and then unliking (or the other way round) restores the feed
      and the button exactly. */
  lemma ToggleTwiceRestores(s: LikeState, id: int)
    ensures ToggleLike(ToggleLike(s, id), id) == s
  {
    var t := ToggleLike(s, id);
    match FindPost(s.posts, id)
    case None =>
    case Some(i) =>
      assert t.posts[i].id == id;
      assert forall j :: 0 <= j < i ==> t.posts[j].id != id;
      assert FindPost(t.posts, id) == Some(i);
      assert ToggleLike(t, id).posts == s.posts;
  }

  /** `showComments`: a comment that is present and not blank adds one to
      the comment count of the first post with the id; anything else
      changes nothing. */
  function AddComment(posts: seq<Post>, id: int, comment: Option<string>): (r: seq<Post>)
    ensures |r| == |posts|
    ensures comment.None? || IsBlank(comment.value) || FindPost(posts, id).None? ==> r == posts
    ensures comment.Some? && !IsBlank(comment.value) && FindPost(posts, id).Some? ==>
      var i := FindPost(posts, id).value;
      && r[i] == posts[i].(comments := posts[i].comments + 1)
      && (forall j :: 0 <= j < |posts| && j != i ==> r[j] == posts[j])
  {
    if comment.None? || IsBlank(comment.value) then posts
    else match FindPost(posts, id)
      case None => posts
      case Some(i) => ReplaceAt(posts, i, posts[i].(comments := posts[i].comments + 1))
  }

  /** `updatePost` on the stored list: the first stored post with the same
      id is replaced by the changed one; with none, the list is unchanged. */
  function UpdatePost(stored: seq<Post>, post: Post): (r: seq<Post>)
    ensures |r| == |stored|
    ensures FindPost(stored, post.id).None? ==> r == stored
    ensures FindPost(stored, post.id).Some? ==>
      var i := FindPost(stored, post.id).value;
      r[i] == post && forall j :: 0 <= j < |stored| && j != i ==> r[j] == stored[j]
  {
    match FindPost(stored, post.id)
    case None => stored
    case Some(i) => ReplaceAt(stored, i, post)
  }

  /** Writing back the same post twice is the same as writing it once. */
  lemma UpdatePostIdempotent(stored: seq<Post>, post: Post)
    ensures UpdatePost(UpdatePost(stored, post), post) == UpdatePost(stored, post)
  {
    var once := UpdatePost(stored, post);
    match FindPost(stored, post.id)
    case None =>
    case Some(i) =>
      assert forall j :: 0 <= j < i ==> once[j].id != post.id;
      assert FindPost(once, post.id) == Some(i);
  }

  // ---------------------------------------------------------------------
  // Files
  // ---------------------------------------------------------------------

  /** 10 MB. */
  const MaxFileSize: int := 10 * 1024 * 1024

  const AllowedTypes: seq<string> := ["image/jpeg", "image/png", "image/gif", "video/mp4", "video/webm"]

  const MaxFiles: int := 5

  datatype FileCheck = FileTooLarge(name: string) | UnsupportedType(mime: string) | TooManyFiles | FilesAccepted

  predicate FilePasses(f: PickedFile) { f.size <= MaxFileSize && f.mime in AllowedTypes }

  /** The per-file loop of `handleFileUpload`: the first file that fails is
      reported, size being checked before type. */
  function FirstFailure(files: seq<PickedFile>): (r: FileCheck)
    ensures !r.TooManyFiles?
    ensures r.FilesAccepted? <==> forall i :: 0 <= i < |files| ==> FilePasses(files[i])
    ensures r.FileTooLarge? ==> exists i :: (0 <= i < |files| && files[i].size > MaxFileSize
      && files[i].name == r.name && forall j :: 0 <= j < i ==> FilePasses(files[j]))
    ensures r.UnsupportedType? ==> exists i :: (0 <= i < |files| && files[i].size <= MaxFileSize
      && files[i].mime == r.mime && files[i].mime !in AllowedTypes
      && forall j :: 0 <= j < i ==> FilePasses(files[j]))
  {
    match FindIndex(files, (f: PickedFile) => !FilePasses(f))
    case None => FilesAccepted
    case Some(i) => if files[i].size > MaxFileSize then FileTooLarge(files[i].name) else UnsupportedType(files[i].mime)
  }

  /** `handleFileUpload`: every file must pass before the count is looked
      at; more than five files are refused only when each of them passes. */
  function CheckFiles(files: seq<PickedFile>): (r: FileCheck)
    ensures r.FilesAccepted? <==> |files| <= MaxFiles && forall i :: 0 <= i < |files| ==> FilePasses(files[i])
    ensures r.TooManyFiles? <==> |files| > MaxFiles && forall i :: 0 <= i < |files| ==> FilePasses(files[i])
    ensures r.FileTooLarge? || r.UnsupportedType? <==> exists i :: 0 <= i < |files| && !FilePasses(files[i])
  {
    var first := FirstFailure(files);
    if !first.FilesAccepted? then first
    else if |files| > MaxFiles then TooManyFiles
    else FilesAccepted
  }

  /** The media kind recorded for an upload: an image exactly when the MIME
      type starts with "image/", a video otherwise. */
  function MediaKindOf(mime: string): (r: MediaKind)
    ensures r == Image <==> StartsWith(mime, "image/")
  {
    if StartsWith(mime, "image/") then Image else Video
  }

  /** `uploadFiles`: one media entry per file, in order. */
  function UploadFiles(files: seq<PickedFile>): (r: seq<Media>)
    ensures |r| == |files|
    ensures forall i :: 0 <= i < |files| ==> r[i].name == files[i].name && r[i].kind == MediaKindOf(files[i].mime)
  {
    if files == [] then [] else [Media(MediaKindOf(files[0].mime), files[0].name)] + UploadFiles(files[1..])
  }

  /** Among the accepted types, exactly the first three are images. */
  lemma AllowedKind(mime: string)
    requires mime in AllowedTypes
    ensures MediaKindOf(mime) == Image <==> mime in AllowedTypes[..3]
  {
    var k :| 0 <= k < 5 && AllowedTypes[k] == mime;
    if k < 3 {
      assert AllowedTypes[..3][k] == mime;
    } else {
      assert mime[0] == 'v';
    }
  }

  /** Every accepted file is tagged with the kind its MIME type names: the
      three image types as images, the two video types as videos. */
  lemma AcceptedKinds(files: seq<PickedFile>)
    requires CheckFiles(files).FilesAccepted?
    ensures forall i :: 0 <= i < |files| ==>
      (UploadFiles(files)[i].kind == Image <==> files[i].mime in AllowedTypes[..3])
  {
    forall i | 0 <= i < |files|
      ensures UploadFiles(files)[i].kind == Image <==> files[i].mime in AllowedTypes[..3]
    {
      AllowedKind(files[i].mime);
    }
  }

  // ---------------------------------------------------------------------
  // Safety badge
  // ---------------------------------------------------------------------

  const BadgeClasses: seq<string> := ["safe", "caution", "unsafe", "emergency"]

  /** `getSafetyBadgeClass`: the four known levels are their own class;
      anything else is shown as "safe". */
  function SafetyBadgeClass(level: string): (r: string)
    ensures r in BadgeClasses
    ensures level in BadgeClasses ==> r == level
    ensures level !in BadgeClasses ==> r == "safe"
  {
    if level in BadgeClasses then level else "safe"
  }

  /** Mapping a level to its class twice changes nothing more. */
  lemma BadgeClassIdempotent(level: string)
    ensures SafetyBadgeClass(SafetyBadgeClass(level)) == SafetyBadgeClass(level)
  {
  }
}

=== FILE: emergency.dfy ===
/** The emergency panel: shake detection, the voice trigger, the priority
    and location line of an alert, and the emergency-contact list. */
module Emergency {
  import opened Base
  import opened Text

  // ---------------------------------------------------------------------
  // Shake detection
  // ---------------------------------------------------------------------

  /** One `accelerationIncludingGravity` reading. */
  datatype Motion = Motion(x: real, y: real, z: real)

  /** The variables the motion listener closes over: the previous reading
      (absent before the first one), the shake count and the time of the
      last counted shake. */
  datatype Detector = Detector(baseline: Option<Motion>, count: nat, lastShakeMs: int)

  const Idle: Detector := Detector(None, 0, 0)

  /** The jolt threshold on |dx| + |dy| + |dz|. */
  const JoltThreshold: real := 30.0

  /** The minimum gap between two counted shakes. */
  const DebounceMs: int := 500

  /** The number of shakes that raises the alarm. */
  const ShakesToAlarm: nat := 3

  /** The wait after which the timer started by a reading clears the count. */
  const ResetAfterMs: int := 3000

  function Abs(r: real): real { if r < 0.0 then -r else r }

  predicate IsJolt(prev: Motion, cur: Motion) {
    Abs(cur.x - prev.x) + Abs(cur.y - prev.y) + Abs(cur.z - prev.z) > JoltThreshold
  }

  /** The state after a reading, and whether the shake alarm went off. */
  datatype Reaction = Reaction(next: Detector, alarm: bool)

  /** A reading counts as a shake when there was a previous reading, the
      jolt exceeds the threshold and more than 500 ms passed since the last
      counted shake. */
  predicate Counts(d: Detector, m: Motion, nowMs: int) {
    d.baseline.Some? && IsJolt(d.baseline.value, m) && nowMs - d.lastShakeMs > DebounceMs
  }

  /** The `devicemotion` listener. */
  function OnMotion(d: Detector, m: Motion, nowMs: int): (r: Reaction)
    ensures r.next.baseline == Some(m)
    ensures !Counts(d, m, nowMs) ==> r == Reaction(Detector(Some(m), d.count, d.lastShakeMs), false)
    ensures Counts(d, m, nowMs) ==> r.next.lastShakeMs == nowMs
    ensures Counts(d, m, nowMs) ==> (r.alarm <==> d.count + 1 >= ShakesToAlarm)
    ensures Counts(d, m, nowMs) && r.alarm ==> r.next.count == 0
    ensures Counts(d, m, nowMs) && !r.alarm ==> r.next.count == d.count + 1
  {
    if Counts(d, m, nowMs) then
      var count := d.count + 1;
      if count >= ShakesToAlarm then Reaction(Detector(Some(m), 0, nowMs), true)
      else Reaction(Detector(Some(m), count, nowMs), false)
    else Reaction(Detector(Some(m), d.count, d.lastShakeMs), false)
  }

  /** The 3-second timer of a reading taken at `readingMs`: it clears the
      count when no shake was counted since well before that reading. */
  function OnTimer(d: Detector, readingMs: int): (r: Detector)
    ensures r.baseline == d.baseline && r.lastShakeMs == d.lastShakeMs
    ensures r.count == (if readingMs - d.lastShakeMs > ResetAfterMs then 0 else d.count)
  {
    if readingMs - d.lastShakeMs > ResetAfterMs then d.(count := 0) else d
  }

  /** What happens to the detector: a reading, or a reading's timer. */
  datatype Event = Reading(m: Motion, atMs: int) | TimerOf(readingMs: int)

  function Apply(d: Detector, e: Event): Detector {
    match e
    case Reading(m, t) => OnMotion(d, m, t).next
    case TimerOf(t) => OnTimer(d, t)
  }

  function Run(d: Detector, events: seq<Event>): Detector
    decreases |events|
  {
    if events == [] then d else Run(Apply(d, events[0]), events[1..])
  }

  /** The number of alarms a run raises. */
  function Alarms(d: Detector, events: seq<Event>): nat
    decreases |events|
  {
    if events == [] then 0
    else
      var raised := if events[0].Reading? then OnMotion(d, events[0].m, events[0].atMs).alarm else false;
      (if raised then 1 else 0) + Alarms(Apply(d, events[0]), events[1..])
  }

  /** Between events the count never reaches three. */
  lemma {:induction false} CountStaysBelowAlarm(d: Detector, events: seq<Event>)
    requires d.count < ShakesToAlarm
    ensures Run(d, events).count < ShakesToAlarm
    decreases |events|
  {
    if events != [] {
      CountStaysBelowAlarm(Apply(d, events[0]), events[1..]);
    }
  }

  /** Starting idle, three readings 600 ms apart, each a jolt of 40 away
      from the one before (shaking back and forth), raise exactly one
      alarm, on the third; the first reading is only the baseline. */
  lemma ThreeShakesRaiseOneAlarm()
    ensures var still := Motion(0.0, 0.0, 9.8);
            var jolt := Motion(40.0, 0.0, 9.8);
            var evs := [Reading(still, 1000), Reading(jolt, 2000), Reading(still, 2600), Reading(jolt, 3200)];
            Alarms(Idle, evs) == 1 && Run(Idle, evs).count == 0
  {
    var still := Motion(0.0, 0.0, 9.8);
    var jolt := Motion(40.0, 0.0, 9.8);
    var evs := [Reading(still, 1000), Reading(jolt, 2000), Reading(still, 2600), Reading(jolt, 3200)];
    var d1 := Apply(Idle, evs[0]);
    assert !OnMotion(Idle, still, 1000).alarm && d1 == Detector(Some(still), 0, 0);
    var d2 := Apply(d1, evs[1]);
    assert !OnMotion(d1, jolt, 2000).alarm && d2 == Detector(Some(jolt), 1, 2000);
    var d3 := Apply(d2, evs[2]);
    assert !OnMotion(d2, still, 2600).alarm && d3 == Detector(Some(still), 2, 2600);
    var d4 := Apply(d3, evs[3]);
    assert OnMotion(d3, jolt, 3200).alarm && d4.count == 0;
    assert evs[1..][1..][1..][1..] == [];
    assert Alarms(d4, []) == 0 && Run(d4, []) == d4;
    assert Alarms(d3, evs[3..]) == 1 && Run(d3, evs[3..]) == d4;
    assert evs[1..][1..][1..] == evs[3..];
    assert Alarms(d2, evs[2..]) == 1 && Run(d2, evs[2..]) == d4;
    assert evs[1..][1..] == evs[2..];
    assert Alarms(d1, evs[1..]) == 1 && Run(d1, evs[1..]) == d4;
  }

  /** Jolts closer than the debounce gap count once. */
  lemma QuickJoltsCountOnce(d: Detector, a: Motion, b: Motion, t: int)
    requires d.count == 0 && d.baseline.Some? && IsJolt(d.baseline.value, a) && IsJolt(a, b)
    requires t - d.lastShakeMs > DebounceMs
    ensures var d1 := OnMotion(d, a, t).next;
            OnMotion(d1, b, t + DebounceMs).next.count == 1
  {
  }

  // ---------------------------------------------------------------------
  // Voice trigger
  // ---------------------------------------------------------------------

  /** The lower-cased text of the speech results from `resultIndex` on. */
  function Transcript(results: seq<string>, resultIndex: nat): (r: string)
    ensures forall i :: 0 <= i < |r| ==> !IsUpper(r[i])
    ensures resultIndex >= |results| ==> r == []
    decreases |results| - resultIndex
  {
    if resultIndex >= |results| then []
    else Lower(results[resultIndex]) + Transcript(results, resultIndex + 1)
  }

  /** Joining the lower-cased pieces is lower-casing the joined text. */
  function Joined(results: seq<string>, resultIndex: nat): string
    decreases |results| - resultIndex
  {
    if resultIndex >= |results| then [] else results[resultIndex] + Joined(results, resultIndex + 1)
  }

  lemma {:induction false} TranscriptIsLowerOfJoined(results: seq<string>, resultIndex: nat)
    ensures Transcript(results, resultIndex) == Lower(Joined(results, resultIndex))
    decreases |results| - resultIndex
  {
    if resultIndex < |results| {
      TranscriptIsLowerOfJoined(results, resultIndex + 1);
      LowerConcat(results[resultIndex], Joined(results, resultIndex + 1));
    }
  }

  const EmergencyPhrases: seq<string> :=
    ["help me", "emergency", "call police", "i need help", "danger", "unsafe", "scared", "help"]

  /** The phrases that matter: "help me" and "i need help" contain "help". */
  const MinimalPhrases: seq<string> := ["emergency", "call police", "danger", "unsafe", "scared", "help"]

  /** The `onresult` test. */
  function VoiceTriggers(transcript: string): (r: bool)
    ensures r <==> exists k, i :: 0 <= k < |EmergencyPhrases| && OccursAt(transcript, EmergencyPhrases[k], i)
  {
    AnyContainsIffOccurs(transcript, EmergencyPhrases);
    exists k :: 0 <= k < |EmergencyPhrases| && Contains(transcript, EmergencyPhrases[k])
  }

  /** The trigger fires exactly when one of the six minimal phrases occurs. */
  lemma VoiceTriggersIffMinimal(transcript: string)
    ensures VoiceTriggers(transcript) <==>
      exists k :: 0 <= k < |MinimalPhrases| && Contains(transcript, MinimalPhrases[k])
  {
    MatchesAt("help me", "help", 0);
    MatchesAt("i need help", "help", 7);
    if VoiceTriggers(transcript) {
      var k :| 0 <= k < |EmergencyPhrases| && Contains(transcript, EmergencyPhrases[k]);
      if k == 0 || k == 3 {
        ContainsTransitive(transcript, EmergencyPhrases[k], "help");
        assert MinimalPhrases[5] == "help";
      } else {
        var m := [0, 0, 1, 0, 2, 3, 4, 5][k];
        assert MinimalPhrases[m] == EmergencyPhrases[k];
      }
    }
    if exists k :: 0 <= k < |MinimalPhrases| && Contains(transcript, MinimalPhrases[k]) {
      var k :| 0 <= k < |MinimalPhrases| && Contains(transcript, MinimalPhrases[k]);
      assert EmergencyPhrases[[1, 2, 4, 5, 6, 7][k]] == MinimalPhrases[k];
    }
  }

  /** Speaking "HELP" in any case raises the voice alarm. */
  lemma ShoutedHelpTriggers(results: seq<string>, resultIndex: nat)
    requires Contains(Joined(results, resultIndex), "HELP")
    ensures VoiceTriggers(Transcript(results, resultIndex))
  {
    TranscriptIsLowerOfJoined(results, resultIndex);
    var j := Joined(results, resultIndex);
    ContainsIffOccurs(j, "HELP");
    var i :| OccursAt(j, "HELP", i);
    assert j[i..i + 4] == "HELP";
    forall k | 0 <= k < 4 ensures Lower(j)[i + k] == "help"[k] {
      assert j[i + k] == j[i..i + 4][k];
    }
    MatchesAt(Lower(j), "help", i);
    assert EmergencyPhrases[7] == "help";
  }

  // ---------------------------------------------------------------------
  // Alerts
  // ---------------------------------------------------------------------

  /** The `type` of an alert: the voice alarm, the silent alert (also sent
      after a confirmed shake), the 911 call and the default. */
  datatype AlertKind = VoiceAlert | SilentAlert | PoliceCall | GeneralAlert

  datatype Priority = High | Medium

  /** The priority sent to emergency services. */
  function PriorityOf(kind: AlertKind): (r: Priority)
    ensures r == High <==> kind == VoiceAlert
  {
    if kind == VoiceAlert then High else Medium
  }

  /** A confirmed shake sends the silent alert, so shakes are never high
      priority, while the voice alarm always is. */
  lemma ShakeIsMediumVoiceIsHigh()
    ensures PriorityOf(SilentAlert) == Medium && PriorityOf(VoiceAlert) == High
  {
  }

  datatype Position = Position(lat: real, lng: real)

  datatype LocationLine = MapsLink(lat: real, lng: real) | UnableToDetermine

  /** The location line of the alert message. */
  function LocationLineOf(location: Option<Position>): (r: LocationLine)
    ensures r.MapsLink? <==> location.Some?
    ensures r.MapsLink? ==> r.lat == location.value.lat && r.lng == location.value.lng
  {
    if location.Some? then MapsLink(location.value.lat, location.value.lng) else UnableToDetermine
  }

  // ---------------------------------------------------------------------
  // Emergency contacts
  // ---------------------------------------------------------------------

  datatype Contact = Contact(id: int, name: string, phone: string, relationship: string)

  /** What a `prompt` returned: `None` when it was cancelled. */
  predicate Blank(answer: Option<string>) { answer.None? || IsBlank(answer.value) }

  /** `addEmergencyContact`. The relationship is `prompt(...) || 'Contact'`,
      trimmed afterwards. */
  function AddContact(contacts: seq<Contact>, name: Option<string>, phone: Option<string>,
                      relationship: Option<string>, id: int): (r: seq<Contact>)
    ensures Blank(name) || Blank(phone) ==> r == contacts
    ensures !Blank(name) && !Blank(phone) ==> (|r| == |contacts| + 1 && r[..|contacts|] == contacts
      && r[|contacts|] == Contact(id, Trim(name.value), Trim(phone.value), Trim(OrElse(relationship, "Contact"))))
    ensures !Blank(name) && !Blank(phone) ==> r[|contacts|].name != [] && r[|contacts|].phone != []
  {
    if Blank(name) || Blank(phone) then contacts
    else contacts + [Contact(id, Trim(name.value), Trim(phone.value), Trim(OrElse(relationship, "Contact")))]
  }

  /** A cancelled or empty relationship prompt gives "Contact". */
  lemma MissingRelationshipIsContact(contacts: seq<Contact>, name: string, phone: string,
                                     relationship: Option<string>, id: int)
    requires !IsBlank(name) && !IsBlank(phone)
    requires relationship.None? || relationship.value == []
    ensures AddContact(contacts, Some(name), Some(phone), relationship, id)[|contacts|].relationship == "Contact"
  {
    TrimKeepsTrimmed("Contact");
  }

  function WithId(id: int): Contact -> bool { (c: Contact) => c.id == id }

  /** `removeEmergencyContact`: the first contact with the id is removed
      when the user confirms; an unknown id or a refusal changes nothing. */
  function RemoveContact(contacts: seq<Contact>, id: int, confirmed: bool): (r: seq<Contact>)
    ensures (forall c :: c in contacts ==> c.id != id) || !confirmed ==> r == contacts
    ensures confirmed && (exists c :: c in contacts && c.id == id) ==>
      (|r| == |contacts| - 1 && exists i :: (0 <= i < |contacts| && contacts[i].id == id
        && (forall j :: 0 <= j < i ==> contacts[j].id != id)
        && r == contacts[..i] + contacts[i + 1..]))
  {
    match FindIndex(contacts, WithId(id))
    case None => contacts
    case Some(i) =>
      if confirmed then
        var r := RemoveAt(contacts, i);
        assert r == contacts[..i] + contacts[i + 1..];
        r
      else contacts
  }

  /** Removing the id of a contact appended under a fresh id restores the
      list. */
  lemma RemoveAppended(contacts: seq<Contact>, c: Contact, id: int)
    requires forall x :: x in contacts ==> x.id != id
    requires c.id == id
    ensures RemoveContact(contacts + [c], id, true) == contacts
  {
    var added := contacts + [c];
    assert forall j :: 0 <= j < |contacts| ==> added[j] in contacts;
    assert WithId(id)(added[|contacts|]);
    assert FindIndex(added, WithId(id)) == Some(|contacts|);
    assert RemoveAt(added, |contacts|) == contacts;
  }

  /** Removing a freshly added contact restores the list. */
  lemma RemoveUndoesAdd(contacts: seq<Contact>, name: string, phone: string, relationship: Option<string>, id: int)
    requires !IsBlank(name) && !IsBlank(phone)
    requires forall c :: c in contacts ==> c.id != id
    ensures RemoveContact(AddContact(contacts, Some(name), Some(phone), relationship, id), id, true) == contacts
  {
    var added := AddContact(contacts, Some(name), Some(phone), relationship, id);
    assert added == contacts + [added[|contacts|]];
    RemoveAppended(contacts, added[|contacts|], id);
  }
}

=== FILE: instructors.dfy ===
/** Self-defense instructors: registration (required fields, the price of
    paid sessions, the defaults of a new record), the price and skill-level
    filters, the labels on an instructor card and its reviews block. */
module Instructors {
  import opened Base
  import opened Text

  datatype Instructor = Instructor(
    id: int, name: string, specialization: string, experience: string, location: string,
    pricing: string, price: real, skillLevel: string, contact: string, email: string,
    timestampMs: int, userId: string, verified: bool, rating: real, students: int,
    reviews: seq<string>)

  /** The registration form as typed. `price` is the number field: `None`
      when it is missing or empty. */
  datatype Registration = Registration(
    name: string, specialization: string, experience: string, location: string,
    pricing: string, price: Option<real>, skillLevel: string, contact: string, email: string)

  datatype RegistrationError = MissingField | InvalidPrice

  datatype Registered = Refused(reason: RegistrationError) | Accepted(instructor: Instructor)

  /** Every required field is filled in (the values are not trimmed). */
  predicate AllFilled(f: Registration) {
    f.name != [] && f.specialization != [] && f.experience != [] && f.location != []
    && f.skillLevel != [] && f.contact != [] && f.email != []
  }

  /** A paid session needs a price above zero. */
  predicate PriceOk(f: Registration) {
    f.pricing != "paid" || (f.price.Some? && f.price.value > 0.0)
  }

  /** `handleInstructorRegistration`. */
  function Register(f: Registration, id: int, nowMs: int, uid: Option<string>): (r: Registered)
    ensures r == Refused(MissingField) <==> !AllFilled(f)
    ensures r == Refused(InvalidPrice) <==> AllFilled(f) && !PriceOk(f)
    ensures r.Accepted? <==> AllFilled(f) && PriceOk(f)
    ensures r.Accepted? ==> (r.instructor.name == f.name && r.instructor.pricing == f.pricing
      && r.instructor.skillLevel == f.skillLevel && r.instructor.id == id)
    ensures r.Accepted? ==> (r.instructor.specialization == f.specialization
      && r.instructor.experience == f.experience && r.instructor.location == f.location
      && r.instructor.contact == f.contact && r.instructor.email == f.email)
    ensures r.Accepted? ==> r.instructor.timestampMs == nowMs
    ensures r.Accepted? ==> (uid.Some? && uid.value != [] ==> r.instructor.userId == uid.value)
    ensures r.Accepted? ==> (uid.None? || uid.value == [] ==> r.instructor.userId == "anonymous")
    ensures r.Accepted? ==> (r.instructor.price == if f.pricing == "paid" then f.price.value else 0.0)
    ensures r.Accepted? ==> r.instructor.pricing == "paid" ==> r.instructor.price > 0.0
    ensures r.Accepted? ==> (!r.instructor.verified && r.instructor.rating == 0.0
      && r.instructor.students == 0 && r.instructor.reviews == [])
  {
    if !AllFilled(f) then Refused(MissingField)
    else if !PriceOk(f) then Refused(InvalidPrice)
    else
      var price := if f.pricing == "paid" then f.price.value else 0.0;
      Accepted(Instructor(id, f.name, f.specialization, f.experience, f.location, f.pricing, price,
                          f.skillLevel, f.contact, f.email, nowMs, OrElse(uid, "anonymous"),
                          false, 0.0, 0, []))
  }

  /** A new instructor is appended to the list. */
  function AddInstructor(list: seq<Instructor>, r: Registered): (out: seq<Instructor>)
    ensures r.Refused? ==> out == list
    ensures r.Accepted? ==> out == list + [r.instructor]
  {
    if r.Accepted? then list + [r.instructor] else list
  }

  // ---------------------------------------------------------------------
  // Filters
  // ---------------------------------------------------------------------

  predicate PriceMatches(filter: string, i: Instructor) { filter == "all" || i.pricing == filter }

  /** An instructor teaching "all" levels matches every skill filter. */
  predicate SkillMatches(filter: string, i: Instructor) {
    filter == "all" || i.skillLevel == filter || i.skillLevel == "all"
  }

  /** `filterInstructors`: the price filter, then the skill filter, each
      applied only when it is not "all". */
  function FilterInstructors(list: seq<Instructor>, priceFilter: string, skillFilter: string): (r: seq<Instructor>)
    ensures |r| <= |list|
    ensures forall x :: x in r <==> x in list && PriceMatches(priceFilter, x) && SkillMatches(skillFilter, x)
  {
    var byPrice := if priceFilter != "all" then Filter(list, (i: Instructor) => i.pricing == priceFilter) else list;
    if skillFilter != "all" then Filter(byPrice, (i: Instructor) => i.skillLevel == skillFilter || i.skillLevel == "all")
    else byPrice
  }

  /** The two filters together are one order-preserving filter: the result
      keeps the matching instructors in list order. */
  lemma FilterInstructorsIsOneFilter(list: seq<Instructor>, priceFilter: string, skillFilter: string)
    ensures FilterInstructors(list, priceFilter, skillFilter)
      == Filter(list, (i: Instructor) => PriceMatches(priceFilter, i) && SkillMatches(skillFilter, i))
  {
    var both := (i: Instructor) => PriceMatches(priceFilter, i) && SkillMatches(skillFilter, i);
    var p := (i: Instructor) => i.pricing == priceFilter;
    var q := (i: Instructor) => i.skillLevel == skillFilter || i.skillLevel == "all";
    if priceFilter != "all" && skillFilter != "all" {
      FilterThenFilter(list, p, q, both);
    } else if priceFilter != "all" {
      FilterAgrees(list, p, both);
    } else if skillFilter != "all" {
      FilterAgrees(list, q, both);
    } else {
      FilterKeepsAll(list, both);
    }
  }

  /** With both filters on "all" the list is shown unchanged. */
  lemma AllAllIsIdentity(list: seq<Instructor>)
    ensures FilterInstructors(list, "all", "all") == list
  {
  }

  // ---------------------------------------------------------------------
  // Card labels
  // ---------------------------------------------------------------------

  datatype PriceLabel = FreeLabel | PerSession(price: real)

  /** "Free" exactly for free instructors, otherwise "$<price>/session". */
  function PriceLabelOf(i: Instructor): (r: PriceLabel)
    ensures r == FreeLabel <==> i.pricing == "free"
    ensures r.PerSession? ==> r.price == i.price
  {
    if i.pricing == "free" then FreeLabel else PerSession(i.price)
  }

  /** "All Levels" for "all", otherwise the level with its first letter
      upper-cased. */
  function SkillLabel(level: string): (r: string)
    ensures level == "all" ==> r == "All Levels"
    ensures level != "all" ==> |r| == |level| && Lower(r) == Lower(level)
    ensures level != "all" && |level| > 0 ==> r[0] == UpperChar(level[0]) && r[1..] == level[1..]
  {
    if level == "all" then "All Levels" else Capitalize(level)
  }

  lemma SkillLabelExamples()
    ensures SkillLabel("beginner") == "Beginner"
    ensures SkillLabel("advanced") == "Advanced"
  {
    assert SkillLabel("beginner")[1..] == "eginner";
    assert SkillLabel("advanced")[1..] == "dvanced";
  }

  datatype ReviewsBlock = NoReviews | FirstReview(text: string) | FirstReviewAndViewAll(text: string, count: nat)

  /** The reviews block appears when there is at least one review; the
      "View all" button only when there is more than one. */
  function ReviewsBlockOf(reviews: seq<string>): (r: ReviewsBlock)
    ensures r.NoReviews? <==> |reviews| == 0
    ensures r.FirstReview? <==> |reviews| == 1
    ensures r.FirstReviewAndViewAll? <==> |reviews| > 1
    ensures !r.NoReviews? ==> r.text == reviews[0]
    ensures r.FirstReviewAndViewAll? ==> r.count == |reviews|
  {
    if |reviews| == 0 then NoReviews
    else if |reviews| == 1 then FirstReview(reviews[0])
    else FirstReviewAndViewAll(reviews[0], |reviews|)
  }
}

=== FILE: risk_scoring.dfy ===
/** The risk-prediction engine: a base score of 50 moved by five analysers
    (time of day, location, weather, stored history, behaviour), clamped to
    0..100, bucketed into LOW / MEDIUM / HIGH, and turned into an ordered
    list of recommendations. The clock, the simulated location signals, the
    simulated weather and the simulated behaviour profile are inputs. */
module RiskScoring {
  import opened Base

  // ---------------------------------------------------------------------
  // Factors
  // ---------------------------------------------------------------------

  datatype FactorKind = TimeKind | LocationKind | WeatherKind | HistoricalKind | BehaviorKind
  datatype Impact = Positive | Neutral | Negative
  datatype Weight = LowWeight | MediumWeight | HighWeight

  /** Every factor an analyser can report, listed in the order the engine
      evaluates them. */
  datatype Cause =
    | Daytime | EarlyEvening | LateNight | VeryEarlyMorning | Weekend
    | HighDensity | LowDensity | WellLit | PoorlyLit | HighIncidents | LowIncidents
    | PoorVisibility | ClearWeather | HeavyPrecipitation
    | RecentHighRisk
    | NightActivity | RegularRoutes

  /** Position of a cause in evaluation order. */
  function Rank(c: Cause): nat {
    match c
    case Daytime => 0 case EarlyEvening => 1 case LateNight => 2
    case VeryEarlyMorning => 3 case Weekend => 4
    case HighDensity => 5 case LowDensity => 6 case WellLit => 7
    case PoorlyLit => 8 case HighIncidents => 9 case LowIncidents => 10
    case PoorVisibility => 11 case ClearWeather => 12 case HeavyPrecipitation => 13
    case RecentHighRisk => 14
    case NightActivity => 15 case RegularRoutes => 16
  }

  function KindOrder(k: FactorKind): nat {
    match k
    case TimeKind => 0 case LocationKind => 1 case WeatherKind => 2
    case HistoricalKind => 3 case BehaviorKind => 4
  }

  /** The `type` field of the factor record. */
  function KindOf(c: Cause): FactorKind {
    var n := Rank(c);
    if n <= 4 then TimeKind
    else if n <= 10 then LocationKind
    else if n <= 13 then WeatherKind
    else if n == 14 then HistoricalKind
    else BehaviorKind
  }

  /** The `impact` field of the factor record. */
  function ImpactOf(c: Cause): Impact {
    match c
    case Daytime => Positive case EarlyEvening => Neutral
    case LateNight => Negative case VeryEarlyMorning => Negative
    case Weekend => Neutral
    case HighDensity => Positive case LowDensity => Negative
    case WellLit => Positive case PoorlyLit => Negative
    case HighIncidents => Negative case LowIncidents => Positive
    case PoorVisibility => Negative case ClearWeather => Positive
    case HeavyPrecipitation => Negative
    case RecentHighRisk => Negative
    case NightActivity => Neutral case RegularRoutes => Positive
  }

  /** The `weight` field of the factor record (shown, never used in arithmetic). */
  function WeightOf(c: Cause): Weight {
    match c
    case Daytime => HighWeight case EarlyEvening => MediumWeight
    case LateNight => HighWeight case VeryEarlyMorning => HighWeight
    case Weekend => LowWeight
    case HighDensity => MediumWeight case LowDensity => MediumWeight
    case WellLit => MediumWeight case PoorlyLit => HighWeight
    case HighIncidents => HighWeight case LowIncidents => MediumWeight
    case PoorVisibility => MediumWeight case ClearWeather => LowWeight
    case HeavyPrecipitation => MediumWeight
    case RecentHighRisk => LowWeight
    case NightActivity => LowWeight case RegularRoutes => LowWeight
  }

  /** The score change the analyser makes together with reporting the cause. */
  function DeltaOf(c: Cause): int {
    match c
    case Daytime => -20 case EarlyEvening => -5 case LateNight => 25
    case VeryEarlyMorning => 15 case Weekend => 5
    case HighDensity => -10 case LowDensity => 15 case WellLit => -8
    case PoorlyLit => 12 case HighIncidents => 20 case LowIncidents => -10
    case PoorVisibility => 10 case ClearWeather => -5 case HeavyPrecipitation => 8
    case RecentHighRisk => 5
    case NightActivity => 5 case RegularRoutes => -3
  }

  function Description(c: Cause): string {
    match c
    case Daytime => "Daytime hours (6 AM - 6 PM)"
    case EarlyEvening => "Early evening hours (7 PM - 9 PM)"
    case LateNight => "Late night hours (10 PM - 2 AM)"
    case VeryEarlyMorning => "Very early morning hours (3 AM - 5 AM)"
    case Weekend => "Weekend - increased social activity"
    case HighDensity => "High population density area"
    case LowDensity => "Low population density area"
    case WellLit => "Well-lit area with good visibility"
    case PoorlyLit => "Poorly lit area with limited visibility"
    case HighIncidents => "Area with higher reported incidents"
    case LowIncidents => "Area with low incident reports"
    case PoorVisibility => "Poor visibility due to weather conditions"
    case ClearWeather => "Clear weather with good visibility"
    case HeavyPrecipitation => "Heavy precipitation affecting movement"
    case RecentHighRisk => "Recent high-risk periods detected in your area"
    case NightActivity => "Frequent late-night activity detected"
    case RegularRoutes => "Using familiar, regular routes"
  }

  /** A "positive" factor always lowers the score and a "negative" one always
      raises it (higher score = more danger). */
  lemma ImpactMatchesSign(c: Cause)
    ensures ImpactOf(c) == Positive ==> DeltaOf(c) < 0
    ensures ImpactOf(c) == Negative ==> DeltaOf(c) > 0
  {
  }

  function SumDeltas(fs: seq<Cause>): int {
    if fs == [] then 0 else DeltaOf(fs[0]) + SumDeltas(fs[1..])
  }

  lemma {:induction false} SumDeltasConcat(a: seq<Cause>, b: seq<Cause>)
    ensures SumDeltas(a + b) == SumDeltas(a) + SumDeltas(b)
  {
    if a == [] {
      assert a + b == b;
    } else {
      assert (a + b)[0] == a[0];
      assert (a + b)[1..] == a[1..] + b;
      SumDeltasConcat(a[1..], b);
    }
  }

  /** Each cause at most once, in evaluation order. */
  predicate InEvaluationOrder(fs: seq<Cause>) {
    forall i, j :: 0 <= i < j < |fs| ==> Rank(fs[i]) < Rank(fs[j])
  }

  /** Every cause in `fs` sits in evaluation positions `lo .. hi-1`. */
  predicate RanksIn(fs: seq<Cause>, lo: int, hi: int) {
    forall i :: 0 <= i < |fs| ==> lo <= Rank(fs[i]) < hi
  }

  /** The evaluation positions each analyser's causes occupy. */
  function KindStart(k: FactorKind): nat {
    match k
    case TimeKind => 0 case LocationKind => 5 case WeatherKind => 11
    case HistoricalKind => 14 case BehaviorKind => 15
  }

  function KindEnd(k: FactorKind): nat {
    match k
    case TimeKind => 5 case LocationKind => 11 case WeatherKind => 14
    case HistoricalKind => 15 case BehaviorKind => 17
  }

  /** A cause's kind is the analyser whose positions it occupies; the kinds
      therefore come in analyser order. */
  lemma KindMatchesPositions(c: Cause, k: FactorKind)
    ensures KindOf(c) == k <==> KindStart(k) <= Rank(c) < KindEnd(k)
    ensures KindStart(k) < KindEnd(k)
    ensures KindOrder(KindOf(c)) < KindOrder(k) <==> Rank(c) < KindStart(k)
  {
  }

  /** What one analyser (or part of one) returns: its net score change and
      its factors. */
  datatype Analysis = Analysis(modifier: int, factors: seq<Cause>)

  /** Strictly increasing evaluation positions, all within `lo .. hi-1`. */
  predicate Ascending(fs: seq<Cause>, lo: int, hi: int)
    decreases |fs|
  {
    fs == [] || (lo <= Rank(fs[0]) < hi && Ascending(fs[1..], Rank(fs[0]) + 1, hi))
  }

  /** An ascending list is in evaluation order and stays within its bounds. */
  lemma {:induction false} AscendingInOrder(fs: seq<Cause>, lo: int, hi: int)
    requires Ascending(fs, lo, hi)
    ensures InEvaluationOrder(fs) && RanksIn(fs, lo, hi)
    decreases |fs|
  {
    if fs != [] {
      var tail := fs[1..];
      AscendingInOrder(tail, Rank(fs[0]) + 1, hi);
      forall i, j | 0 <= i < j < |fs| ensures Rank(fs[i]) < Rank(fs[j]) {
        assert fs[j] == tail[j - 1];
        if i > 0 {
          assert fs[i] == tail[i - 1];
        }
      }
      forall i | 0 <= i < |fs| ensures lo <= Rank(fs[i]) < hi {
        if i > 0 {
          assert fs[i] == tail[i - 1];
        }
      }
    }
  }

  /** An ascending run within `lo .. mid-1` followed by one within
      `mid .. hi-1` is ascending within `lo .. hi-1`. */
  lemma {:induction false} AscendingConcat(a: seq<Cause>, b: seq<Cause>, lo: int, mid: int, hi: int)
    requires lo <= mid <= hi
    requires Ascending(a, lo, mid) && Ascending(b, mid, hi)
    ensures Ascending(a + b, lo, hi)
    decreases |a|
  {
    if a == [] {
      assert a + b == b;
      if b != [] {
        assert Ascending(b[1..], Rank(b[0]) + 1, hi);
      }
    } else {
      assert (a + b)[0] == a[0];
      assert (a + b)[1..] == a[1..] + b;
      AscendingConcat(a[1..], b, Rank(a[0]) + 1, mid, hi);
    }
  }

  /** The modifier accumulated alongside the factors is the sum of their
      table deltas, and the factors are in evaluation order within
      positions `lo .. hi-1`. */
  predicate Consistent(a: Analysis, lo: int, hi: int) {
    a.modifier == SumDeltas(a.factors) && Ascending(a.factors, lo, hi)
  }

  /** An analyser of kind `k` is consistent over that kind's positions. */
  predicate WellFormed(a: Analysis, k: FactorKind) {
    Consistent(a, KindStart(k), KindEnd(k))
  }

  /** Running one check after another (modifiers add, factors append):
      a consistent result over `lo .. mid-1` followed by one over
      `mid .. hi-1` is consistent over `lo .. hi-1`. */
  lemma JoinConsistent(a: Analysis, b: Analysis, lo: int, mid: int, hi: int)
    requires lo <= mid <= hi
    requires Consistent(a, lo, mid) && Consistent(b, mid, hi)
    ensures Consistent(Analysis(a.modifier + b.modifier, a.factors + b.factors), lo, hi)
  {
    SumDeltasConcat(a.factors, b.factors);
    AscendingConcat(a.factors, b.factors, lo, mid, hi);
  }

  // ---------------------------------------------------------------------
  // Time analyser
  // ---------------------------------------------------------------------

  /** The hours each time-of-day band covers, stated as the hour sets on the
      24-hour clock. */
  predicate InBand(hour: int, band: Cause) {
    match band
    case Daytime => 6 <= hour <= 18
    case EarlyEvening => 19 <= hour <= 21
    case LateNight => hour in {22, 23, 0, 1, 2}
    case VeryEarlyMorning => 3 <= hour <= 5
    case _ => false
  }

  predicate IsWeekend(weekday: int) { weekday == 0 || weekday == 6 }

  /** The hour-band branch of `analyzeTimeFactors`. */
  function HourBand(hour: int): (r: Analysis)
    ensures Consistent(r, 0, 4) && |r.factors| == 1
    ensures 0 <= hour < 24 ==> InBand(hour, r.factors[0])
  {
    if hour >= 6 && hour <= 18 then Analysis(-20, [Daytime])
    else if hour >= 19 && hour <= 21 then Analysis(-5, [EarlyEvening])
    else if hour >= 22 || hour <= 2 then Analysis(25, [LateNight])
    else Analysis(15, [VeryEarlyMorning])
  }

  /** The weekend branch of `analyzeTimeFactors` (Sunday is 0, Saturday 6). */
  function WeekendCheck(weekday: int): (r: Analysis)
    ensures Consistent(r, 4, 5)
    ensures r.factors == (if IsWeekend(weekday) then [Weekend] else [])
  {
    if weekday == 0 || weekday == 6 then Analysis(5, [Weekend]) else Analysis(0, [])
  }

  /** `analyzeTimeFactors`, with `getHours()` and `getDay()` as inputs. */
  function AnalyzeTime(hour: int, weekday: int): (r: Analysis)
    ensures WellFormed(r, TimeKind)
    ensures 1 <= |r.factors| <= 2
    ensures 0 <= hour < 24 ==> InBand(hour, r.factors[0])
    ensures |r.factors| == 2 <==> IsWeekend(weekday)
    ensures |r.factors| == 2 ==> r.factors[1] == Weekend
  {
    var band := HourBand(hour);
    var weekend := WeekendCheck(weekday);
    JoinConsistent(band, weekend, 0, 4, 5);
    Analysis(band.modifier + weekend.modifier, band.factors + weekend.factors)
  }

  /** The four hour bands are exclusive and exhaustive: every hour of the day
      lies in exactly one, and it is the one the time analyser reports. */
  lemma ExactlyOneBand(hour: int, weekday: int, band: Cause)
    requires 0 <= hour < 24
    ensures InBand(hour, band) <==> band == AnalyzeTime(hour, weekday).factors[0]
  {
  }

  // ---------------------------------------------------------------------
  // Location analyser
  // ---------------------------------------------------------------------

  datatype Coordinate = Coordinate(lat: real, lng: real)

  /** The three simulated per-location signals, each nominally in 0..1. */
  datatype LocationSignals = LocationSignals(density: real, lighting: real, crime: real)

  /** Where a signal falls against the two thresholds a check applies. */
  datatype Band = Above | Between | Below

  /** `x > upper` first, then `x < lower`, otherwise neither. */
  function BandOf(x: real, upper: real, lower: real): (b: Band)
    requires lower <= upper
    ensures b == Above <==> x > upper
    ensures b == Below <==> x < lower
  {
    if x > upper then Above else if x < lower then Below else Between
  }

  function DensityCheck(b: Band): (r: Analysis)
    ensures Consistent(r, 5, 7)
    ensures |r.factors| <= 1
    ensures HighDensity in r.factors <==> b == Above
    ensures LowDensity in r.factors <==> b == Below
  {
    match b
    case Above => Analysis(-10, [HighDensity])
    case Below => Analysis(15, [LowDensity])
    case Between => Analysis(0, [])
  }

  function LightingCheck(b: Band): (r: Analysis)
    ensures Consistent(r, 7, 9)
    ensures |r.factors| <= 1
    ensures WellLit in r.factors <==> b == Above
    ensures PoorlyLit in r.factors <==> b == Below
  {
    match b
    case Above => Analysis(-8, [WellLit])
    case Below => Analysis(12, [PoorlyLit])
    case Between => Analysis(0, [])
  }

  function CrimeCheck(b: Band): (r: Analysis)
    ensures Consistent(r, 9, 11)
    ensures |r.factors| <= 1
    ensures HighIncidents in r.factors <==> b == Above
    ensures LowIncidents in r.factors <==> b == Below
  {
    match b
    case Above => Analysis(20, [HighIncidents])
    case Below => Analysis(-10, [LowIncidents])
    case Between => Analysis(0, [])
  }

  /** The three checks in order, given where each signal falls. */
  function LocationChecks(density: Band, lighting: Band, crime: Band): (r: Analysis)
    ensures WellFormed(r, LocationKind)
    ensures |r.factors| <= 3
  {
    var d := DensityCheck(density);
    var l := LightingCheck(lighting);
    var c := CrimeCheck(crime);
    var dl := Analysis(d.modifier + l.modifier, d.factors + l.factors);
    JoinConsistent(d, l, 5, 7, 9);
    JoinConsistent(dl, c, 5, 9, 11);
    Analysis(dl.modifier + c.modifier, dl.factors + c.factors)
  }

  /** Each location factor is reported exactly when its signal's band calls
      for it. */
  lemma LocationMembers(density: Band, lighting: Band, crime: Band)
    ensures var r := LocationChecks(density, lighting, crime);
      && (HighDensity in r.factors <==> density == Above)
      && (LowDensity in r.factors <==> density == Below)
      && (WellLit in r.factors <==> lighting == Above)
      && (PoorlyLit in r.factors <==> lighting == Below)
      && (HighIncidents in r.factors <==> crime == Above)
      && (LowIncidents in r.factors <==> crime == Below)
  {
    var d := DensityCheck(density);
    var l := LightingCheck(lighting);
    ConcatMembers(d.factors, l.factors);
    ConcatMembers(d.factors + l.factors, CrimeCheck(crime).factors);
  }

  /** `analyzeLocationFactors`: each signal is thresholded on its own, so a
      location reports between zero and three factors. */
  function AnalyzeLocation(density: real, lighting: real, crime: real): (r: Analysis)
    ensures WellFormed(r, LocationKind)
    ensures |r.factors| <= 3
    ensures HighDensity in r.factors <==> density > 0.7
    ensures LowDensity in r.factors <==> density < 0.3
    ensures WellLit in r.factors <==> lighting > 0.8
    ensures PoorlyLit in r.factors <==> lighting < 0.4
    ensures HighIncidents in r.factors <==> crime > 0.7
    ensures LowIncidents in r.factors <==> crime < 0.3
  {
    var r := LocationChecks(BandOf(density, 0.7, 0.3), BandOf(lighting, 0.8, 0.4), BandOf(crime, 0.7, 0.3));
    LocationMembers(BandOf(density, 0.7, 0.3), BandOf(lighting, 0.8, 0.4), BandOf(crime, 0.7, 0.3));
    r
  }

  // ---------------------------------------------------------------------
  // Weather analyser
  // ---------------------------------------------------------------------

  datatype Visibility = Excellent | Good | Fair | Poor
  datatype Precipitation = NoPrecipitation | Light | Moderate | Heavy
  datatype Weather = Weather(visibility: Visibility, precipitation: Precipitation)

  function VisibilityCheck(v: Visibility): (r: Analysis)
    ensures Consistent(r, 11, 13)
    ensures |r.factors| <= 1
    ensures PoorVisibility in r.factors <==> v == Poor
    ensures ClearWeather in r.factors <==> v == Excellent
  {
    if v == Poor then Analysis(10, [PoorVisibility])
    else if v == Excellent then Analysis(-5, [ClearWeather])
    else Analysis(0, [])
  }

  function PrecipitationCheck(p: Precipitation): (r: Analysis)
    ensures Consistent(r, 13, 14)
    ensures |r.factors| <= 1
    ensures HeavyPrecipitation in r.factors <==> p == Heavy
  {
    if p == Heavy then Analysis(8, [HeavyPrecipitation]) else Analysis(0, [])
  }

  /** `analyzeWeatherFactors`: visibility and precipitation are judged
      independently; good or fair visibility without heavy rain adds
      nothing. */
  function AnalyzeWeather(w: Weather): (r: Analysis)
    ensures PoorVisibility in r.factors <==> w.visibility == Poor
    ensures ClearWeather in r.factors <==> w.visibility == Excellent
    ensures HeavyPrecipitation in r.factors <==> w.precipitation == Heavy
    ensures (w.visibility == Good || w.visibility == Fair) && w.precipitation != Heavy ==> r.modifier == 0 && |r.factors| == 0
  {
    var v := VisibilityCheck(w.visibility);
    var p := PrecipitationCheck(w.precipitation);
    ConcatMembers(v.factors, p.factors);
    Analysis(v.modifier + p.modifier, v.factors + p.factors)
  }

  /** The weather analyser's modifier matches its factors, which stay in
      evaluation order. */
  lemma WeatherConsistent(w: Weather)
    ensures WellFormed(AnalyzeWeather(w), WeatherKind)
  {
    JoinConsistent(VisibilityCheck(w.visibility), PrecipitationCheck(w.precipitation), 11, 13, 14);
  }

  // ---------------------------------------------------------------------
  // Assessments, history and the historical analyser
  // ---------------------------------------------------------------------

  /** One assessment as the engine returns it and as the history stores it;
      times are milliseconds since the epoch. */
  datatype Assessment = Assessment(score: int, factors: seq<Cause>, location: Option<Coordinate>, timestampMs: int)

  const DayMs: int := 24 * 60 * 60 * 1000

  /** A stored assessment counts when its score exceeds 70 and it is at most
      24 hours old; one stamped in the future is "0 or fewer hours" old. */
  predicate IsRecentHighRisk(e: Assessment, nowMs: int) {
    nowMs - e.timestampMs <= DayMs && e.score > 70
  }

  /** `analyzeHistoricalData`. */
  function AnalyzeHistory(history: seq<Assessment>, nowMs: int): (r: Analysis)
    ensures WellFormed(r, HistoricalKind)
    ensures |r.factors| <= 1
    ensures |r.factors| == 1 <==> exists i :: 0 <= i < |history| && IsRecentHighRisk(history[i], nowMs)
  {
    if |history| > 0 then
      var recent := Filter(history, e => IsRecentHighRisk(e, nowMs));
      if |recent| > 0 then
        assert IsRecentHighRisk(recent[0], nowMs);
        Analysis(5, [RecentHighRisk])
      else Analysis(0, [])
    else Analysis(0, [])
  }

  const HistoryCap: nat := 100

  /** `storeRiskData`: append, then keep only the 100 most recent entries. */
  function StoreAssessment(history: seq<Assessment>, a: Assessment): (r: seq<Assessment>)
    ensures |r| == Min(|history| + 1, HistoryCap)
    ensures r[|r| - 1] == a
    ensures r == (history + [a])[|history| + 1 - |r|..]
    ensures |history| < HistoryCap ==> r == history + [a]
  {
    KeepLast(history + [a], HistoryCap)
  }

  // ---------------------------------------------------------------------
  // Behaviour analyser
  // ---------------------------------------------------------------------

  datatype Behavior = Behavior(frequentNightActivity: bool, regularRoutes: bool)

  /** `analyzeBehaviorPatterns`: the two flags act independently. */
  function AnalyzeBehavior(b: Behavior): (r: Analysis)
    ensures WellFormed(r, BehaviorKind)
    ensures NightActivity in r.factors <==> b.frequentNightActivity
    ensures RegularRoutes in r.factors <==> b.regularRoutes
  {
    var night := if b.frequentNightActivity then Analysis(5, [NightActivity]) else Analysis(0, []);
    var routes := if b.regularRoutes then Analysis(-3, [RegularRoutes]) else Analysis(0, []);
    JoinConsistent(night, routes, 15, 16, 17);
    ConcatMembers(night.factors, routes.factors);
    Analysis(night.modifier + routes.modifier, night.factors + routes.factors)
  }

  // ---------------------------------------------------------------------
  // The engine
  // ---------------------------------------------------------------------

  /** Everything one evaluation reads: the clock, the optional location with
      its simulated signals, the simulated weather and behaviour profile,
      and the stored history. */
  datatype Context = Context(
    hour: int, weekday: int, nowMs: int,
    location: Option<Coordinate>, signals: LocationSignals,
    weather: Weather, behavior: Behavior, history: seq<Assessment>)

  /** Lowering the lower bound keeps a list ascending. */
  lemma AscendingWiden(fs: seq<Cause>, lo: int, lo2: int, hi: int)
    requires lo2 <= lo && Ascending(fs, lo, hi)
    ensures Ascending(fs, lo2, hi)
  {
  }

  /** Time factors followed directly by weather, history and behaviour
      factors: still consistent, and no position in between (no location
      factor) is taken. */
  lemma SkipLocation(t: Analysis, rest: Analysis)
    requires Consistent(t, 0, 5) && Consistent(rest, 11, 17)
    ensures Consistent(Analysis(t.modifier + rest.modifier, t.factors + rest.factors), 0, 17)
    ensures forall i :: 0 <= i < |t.factors + rest.factors| ==> KindOf((t.factors + rest.factors)[i]) != LocationKind
  {
    AscendingWiden(rest.factors, 11, 5, 17);
    JoinConsistent(t, rest, 0, 5, 17);
    AscendingInOrder(t.factors, 0, 5);
    AscendingInOrder(rest.factors, 11, 17);
    var fs := t.factors + rest.factors;
    forall i | 0 <= i < |fs| ensures KindOf(fs[i]) != LocationKind {
      if i < |t.factors| {
        assert fs[i] == t.factors[i];
      } else {
        assert fs[i] == rest.factors[i - |t.factors|];
      }
    }
  }

  /** The weather, history and behaviour analysers, in that order. */
  function LaterAnalysers(ctx: Context): (r: Analysis)
    ensures Consistent(r, 11, 17)
    ensures r.factors == AnalyzeWeather(ctx.weather).factors
      + (AnalyzeHistory(ctx.history, ctx.nowMs).factors + AnalyzeBehavior(ctx.behavior).factors)
    ensures r.modifier == AnalyzeWeather(ctx.weather).modifier
      + AnalyzeHistory(ctx.history, ctx.nowMs).modifier + AnalyzeBehavior(ctx.behavior).modifier
  {
    WeatherConsistent(ctx.weather);
    var w := AnalyzeWeather(ctx.weather);
    var h := AnalyzeHistory(ctx.history, ctx.nowMs);
    var b := AnalyzeBehavior(ctx.behavior);
    var hb := Analysis(h.modifier + b.modifier, h.factors + b.factors);
    JoinConsistent(h, b, 14, 15, 17);
    JoinConsistent(w, hb, 11, 14, 17);
    Analysis(w.modifier + hb.modifier, w.factors + hb.factors)
  }

  /** What the location analyser contributes: its result when there is a
      location, nothing otherwise. */
  function LocationPart(ctx: Context): (r: Analysis)
    ensures Consistent(r, 5, 11)
    ensures ctx.location.None? ==> r.factors == []
  {
    if ctx.location.Some? then AnalyzeLocation(ctx.signals.density, ctx.signals.lighting, ctx.signals.crime)
    else Analysis(0, [])
  }

  /** The time analyser, the location part and the later analysers, one
      after the other. */
  function JoinThree(t: Analysis, l: Analysis, rest: Analysis): (r: Analysis)
    requires Consistent(t, 0, 5) && Consistent(l, 5, 11) && Consistent(rest, 11, 17)
    ensures Consistent(r, 0, 17)
    ensures r.factors == t.factors + (l.factors + rest.factors)
    ensures r.modifier == t.modifier + l.modifier + rest.modifier
  {
    JoinConsistent(l, rest, 5, 11, 17);
    var lr := Analysis(l.modifier + rest.modifier, l.factors + rest.factors);
    JoinConsistent(t, lr, 0, 5, 17);
    Analysis(t.modifier + lr.modifier, t.factors + lr.factors)
  }

  /** The factors of the five analysers, concatenated in the order
      `analyzeRiskFactors` collects them. */
  function AllFactors(ctx: Context): seq<Cause> {
    AnalyzeTime(ctx.hour, ctx.weekday).factors + (LocationPart(ctx).factors + (AnalyzeWeather(ctx.weather).factors
    + (AnalyzeHistory(ctx.history, ctx.nowMs).factors + AnalyzeBehavior(ctx.behavior).factors)))
  }

  /** The five analysers' modifiers, each accumulated by its own `score +=`
      steps, added up. */
  function TotalModifier(ctx: Context): int {
    AnalyzeTime(ctx.hour, ctx.weekday).modifier + LocationPart(ctx).modifier + AnalyzeWeather(ctx.weather).modifier
    + AnalyzeHistory(ctx.history, ctx.nowMs).modifier + AnalyzeBehavior(ctx.behavior).modifier
  }

  /** The five analysers in the order the engine runs them; the location
      analyser only runs when there is a location. */
  function RunAnalysers(ctx: Context): (r: Analysis)
    ensures Consistent(r, 0, 17)
    ensures r.factors == AllFactors(ctx) && r.modifier == TotalModifier(ctx)
    ensures |r.factors| >= 1 && r.factors[0] == AnalyzeTime(ctx.hour, ctx.weekday).factors[0]
    ensures ctx.location.None? ==> forall i :: 0 <= i < |r.factors| ==> KindOf(r.factors[i]) != LocationKind
  {
    var t := AnalyzeTime(ctx.hour, ctx.weekday);
    var rest := LaterAnalysers(ctx);
    var r := JoinThree(t, LocationPart(ctx), rest);
    if ctx.location.None? then
      SkipLocation(t, rest);
      assert [] + rest.factors == rest.factors;
      r
    else
      r
  }

  /** `analyzeRiskFactors`: base 50 plus the five analysers' modifiers,
      clamped to 0..100; factors are listed in analyser order, and without a
      location no location factor appears. */
  function Assess(ctx: Context): (r: Assessment)
    ensures 0 <= r.score <= 100
    ensures r.score == Clamp(50 + TotalModifier(ctx), 0, 100)
    ensures r.factors == AllFactors(ctx)
    ensures r.score == Clamp(50 + SumDeltas(r.factors), 0, 100)
    ensures InEvaluationOrder(r.factors)
    ensures ctx.location.None? ==> forall i :: 0 <= i < |r.factors| ==> KindOf(r.factors[i]) != LocationKind
    ensures |r.factors| >= 1 && r.factors[0] == AnalyzeTime(ctx.hour, ctx.weekday).factors[0]
    ensures r.location == ctx.location && r.timestampMs == ctx.nowMs
  {
    Finish(RunAnalysers(ctx), ctx)
  }

  /** The last step of `analyzeRiskFactors`: add the base of 50, clamp to
      0..100, and stamp the result with the location and time. */
  function Finish(all: Analysis, ctx: Context): (r: Assessment)
    requires Consistent(all, 0, 17)
    ensures r.factors == all.factors
    ensures r.score == Clamp(50 + all.modifier, 0, 100)
    ensures r.score == Clamp(50 + SumDeltas(r.factors), 0, 100)
    ensures InEvaluationOrder(r.factors)
    ensures r.location == ctx.location && r.timestampMs == ctx.nowMs
  {
    AscendingInOrder(all.factors, 0, 17);
    Assessment(Clamp(50 + all.modifier, 0, 100), all.factors, ctx.location, ctx.nowMs)
  }

  // ---------------------------------------------------------------------
  // Levels
  // ---------------------------------------------------------------------

  datatype RiskLevel = LowRisk | MediumRisk | HighRisk

  function LevelRank(l: RiskLevel): nat {
    match l case LowRisk => 0 case MediumRisk => 1 case HighRisk => 2
  }

  /** The level shown in `displayRiskAssessment`. */
  function LevelOf(score: int): (r: RiskLevel)
    ensures r == LowRisk <==> score <= 30
    ensures r == MediumRisk <==> 31 <= score <= 60
    ensures r == HighRisk <==> score >= 61
  {
    if score <= 30 then LowRisk
    else if score <= 60 then MediumRisk
    else HighRisk
  }

  /** A higher score never shows a lower level. */
  lemma LevelMonotone(s1: int, s2: int)
    requires s1 <= s2
    ensures LevelRank(LevelOf(s1)) <= LevelRank(LevelOf(s2))
  {
  }

  // ---------------------------------------------------------------------
  // Recommendations
  // ---------------------------------------------------------------------

  datatype Priority = LowPriority | MediumPriority | HighPriority

  datatype Recommendation =
    | LateNightSafety | HighRiskAlert | AreaAwareness | EmergencyPreparedness | RoutePlanning

  function RecommendationRank(r: Recommendation): nat {
    match r
    case LateNightSafety => 0 case HighRiskAlert => 1 case AreaAwareness => 2
    case EmergencyPreparedness => 3 case RoutePlanning => 4
  }

  function PriorityOf(r: Recommendation): Priority {
    match r
    case LateNightSafety => HighPriority
    case HighRiskAlert => HighPriority
    case AreaAwareness => MediumPriority
    case EmergencyPreparedness => LowPriority
    case RoutePlanning => MediumPriority
  }

  /** `factors.some(f => f.type === 'location' && f.impact === 'negative')`. */
  predicate HasNegativeLocationFactor(a: Assessment) {
    exists i :: 0 <= i < |a.factors| && KindOf(a.factors[i]) == LocationKind && ImpactOf(a.factors[i]) == Negative
  }

  /** When each recommendation is due, rule by rule. */
  predicate Due(rec: Recommendation, a: Assessment, hour: int) {
    match rec
    case LateNightSafety => hour >= 22 || hour <= 5
    case HighRiskAlert => a.score > 70
    case AreaAwareness => HasNegativeLocationFactor(a)
    case EmergencyPreparedness => true
    case RoutePlanning => a.score > 40
  }

  /** `generateRecommendations`: exactly the due recommendations, each once,
      in rule order; the preparedness reminder is always among them. */
  function Recommend(a: Assessment, hour: int): (r: seq<Recommendation>)
    ensures forall rec :: rec in r <==> Due(rec, a, hour)
    ensures forall i, j :: 0 <= i < j < |r| ==> RecommendationRank(r[i]) < RecommendationRank(r[j])
    ensures 1 <= |r| <= 5
  {
    var timeBased := if hour >= 22 || hour <= 5 then [LateNightSafety] else [];
    var scoreBased := if a.score > 70 then [HighRiskAlert] else [];
    var locationBased := if HasNegativeLocationFactor(a) then [AreaAwareness] else [];
    var routeBased := if a.score > 40 then [RoutePlanning] else [];
    timeBased + scoreBased + locationBased + [EmergencyPreparedness] + routeBased
  }

  /** The ride-share advice fires on a wider band than the +25 late-night
      factor: also in the +15 early-morning hours 3..5. */
  lemma RideShareIffNightFactor(ctx: Context)
    requires 0 <= ctx.hour < 24
    ensures LateNightSafety in Recommend(Assess(ctx), ctx.hour) <==>
      Assess(ctx).factors[0] in {LateNight, VeryEarlyMorning}
  {
  }

  // ---------------------------------------------------------------------
  // One refresh of the panel
  // ---------------------------------------------------------------------

  /** What `getCurrentLocation` resolves to. */
  datatype Geolocation = Located(at: Coordinate) | LookupFailed | Unsupported

  /** The fallback position used when a lookup fails (New York City). */
  const DefaultCoordinate := Coordinate(40.7128, -74.0060)

  datatype Display =
    | Assessed(assessment: Assessment, level: RiskLevel, advice: seq<Recommendation>, history: seq<Assessment>)
    | DefaultMedium(history: seq<Assessment>)

  /** Assess at `at`, show the level and advice, and store the result. */
  function ShowAt(ctx: Context, at: Coordinate): (r: Display)
    ensures r.Assessed? && r.assessment == Assess(ctx.(location := Some(at)))
    ensures r.assessment.location == Some(at)
    ensures r.advice == Recommend(r.assessment, ctx.hour)
    ensures r.level == LevelOf(r.assessment.score)
    ensures r.history == StoreAssessment(ctx.history, r.assessment)
  {
    var a := Assess(ctx.(location := Some(at)));
    Assessed(a, LevelOf(a.score), Recommend(a, ctx.hour), StoreAssessment(ctx.history, a))
  }

  /** `updateRiskPrediction`: a failed lookup falls back to the default
      position, an unsupported one aborts to the default MEDIUM 50% panel
      without storing anything. */
  function Refresh(geo: Geolocation, ctx: Context): (r: Display)
    ensures geo.Unsupported? <==> r.DefaultMedium?
    ensures r.DefaultMedium? ==> r.history == ctx.history
    ensures geo.Located? ==> r.Assessed? && r.assessment == Assess(ctx.(location := Some(geo.at)))
    ensures geo.LookupFailed? ==> r.Assessed? && r.assessment == Assess(ctx.(location := Some(DefaultCoordinate)))
    ensures r.Assessed? ==> r.advice == Recommend(r.assessment, ctx.hour)
    ensures r.Assessed? ==> r.level == LevelOf(r.assessment.score)
    ensures r.Assessed? ==> r.history == StoreAssessment(ctx.history, r.assessment)
  {
    match geo
    case Unsupported => DefaultMedium(ctx.history)
    case Located(at) => ShowAt(ctx, at)
    case LookupFailed => ShowAt(ctx, DefaultCoordinate)
  }

  // ---------------------------------------------------------------------
  // Worked scenarios
  // ---------------------------------------------------------------------

  const Calm := Context(0, 1, 0, None, LocationSignals(0.5, 0.6, 0.5), Weather(Good, NoPrecipitation), Behavior(false, false), [])

  /** Noon on a weekday with nothing else in play scores 30: LOW. */
  lemma ScenarioNoon()
    ensures Assess(Calm.(hour := 12)).score == 30
    ensures LevelOf(Assess(Calm.(hour := 12)).score) == LowRisk
  {
    var ctx := Calm.(hour := 12);
    assert AnalyzeTime(12, 1).modifier == -20;
    assert LocationPart(ctx).modifier == 0 && AnalyzeWeather(ctx.weather).modifier == 0;
    assert AnalyzeHistory(ctx.history, ctx.nowMs).modifier == 0 && AnalyzeBehavior(ctx.behavior).modifier == 0;
  }

  /** 11 PM on a Saturday with nothing else in play scores 80: HIGH. */
  lemma ScenarioSaturdayNight()
    ensures Assess(Calm.(hour := 23, weekday := 6)).score == 80
    ensures LevelOf(Assess(Calm.(hour := 23, weekday := 6)).score) == HighRisk
  {
    var ctx := Calm.(hour := 23, weekday := 6);
    assert AnalyzeTime(23, 6).modifier == 30;
    assert LocationPart(ctx).modifier == 0 && AnalyzeWeather(ctx.weather).modifier == 0;
    assert AnalyzeHistory(ctx.history, ctx.nowMs).modifier == 0 && AnalyzeBehavior(ctx.behavior).modifier == 0;
  }

  /** Every bad signal at once adds 105 to the base of 50, 155 before clamping, and shows 100. */
  lemma ScenarioEverythingBad()
    ensures Assess(Calm.(hour := 23, weekday := 6, location := Some(DefaultCoordinate),
      signals := LocationSignals(0.1, 0.1, 0.9), weather := Weather(Poor, Heavy),
      behavior := Behavior(true, false),
      history := [Assessment(90, [], None, 0)])).score == 100
  {
  }
}

=== FILE: route_safety.dfy ===
/** The safe-route planner: every candidate walking route gets a safety
    score (base 70, moved by the hour, the walk's length, the user's three
    preferences and four simulated area findings), clamped to 0..100 and
    labelled High / Medium / Low with warnings and advice; the first route
    with the best score is shown. The hour and the outcomes of the simulated
    findings are inputs. */
module RouteSafety {
  import opened Base
  import opened Text

  // ---------------------------------------------------------------------
  // Score contributions
  // ---------------------------------------------------------------------

  /** Every line the analysis can list under "factors", in evaluation order. */
  datatype Note =
    | DaylightHours | EveningHours | LateNightHours
    | LongWalk
    | AvoidingDarkAreas | PreferringCrowds | AvoidingIncidents
    | SafetyImprovements | PolicePatrol | RecentIncident | WellLitStreet

  /** The points each line announces. */
  function Points(n: Note): int {
    match n
    case DaylightHours => 15 case EveningHours => 5 case LateNightHours => -10
    case LongWalk => -5
    case AvoidingDarkAreas => 10 case PreferringCrowds => 8 case AvoidingIncidents => 12
    case SafetyImprovements => 5 case PolicePatrol => 8 case RecentIncident => -10
    case WellLitStreet => 6
  }

  function SumPoints(ns: seq<Note>): int {
    if ns == [] then 0 else Points(ns[0]) + SumPoints(ns[1..])
  }

  lemma {:induction false} SumPointsConcat(a: seq<Note>, b: seq<Note>)
    ensures SumPoints(a + b) == SumPoints(a) + SumPoints(b)
  {
    if a == [] {
      assert a + b == b;
    } else {
      assert (a + b)[1..] == a[1..] + b;
      SumPointsConcat(a[1..], b);
    }
  }

  /** The route-planner checkboxes. */
  datatype Preferences = Preferences(avoidDarkAreas: bool, preferCrowded: bool, avoidIncidents: bool)

  /** Outcomes of the four `Math.random() > t` draws (t = 0.7, 0.8, 0.9, 0.85). */
  datatype Draws = Draws(improvements: bool, patrol: bool, incident: bool, wellLit: bool)

  /** The time-of-day line: exactly one per hour. */
  function TimeNote(hour: int): (r: Note)
    ensures r == DaylightHours <==> 6 <= hour <= 18
    ensures r == EveningHours <==> 19 <= hour <= 21
    ensures r == LateNightHours <==> !(6 <= hour <= 21)
  {
    if 6 <= hour <= 18 then DaylightHours
    else if 19 <= hour <= 21 then EveningHours
    else LateNightHours
  }

  function When(c: bool, n: Note): (r: seq<Note>)
    ensures SumPoints(r) == if c then Points(n) else 0
    ensures r == if c then [n] else []
  {
    if c then [n] else []
  }

  /** The points the three ticked preferences add. */
  function PreferencePoints(p: Preferences): int {
    (if p.avoidDarkAreas then 10 else 0) + (if p.preferCrowded then 8 else 0)
    + (if p.avoidIncidents then 12 else 0)
  }

  /** The points the four simulated findings add. */
  function DrawPoints(d: Draws): int {
    (if d.improvements then 5 else 0) + (if d.patrol then 8 else 0)
    + (if d.incident then -10 else 0) + (if d.wellLit then 6 else 0)
  }

  /** The preference lines, which announce exactly the preference points. */
  function PreferenceNotes(p: Preferences): (r: seq<Note>)
    ensures SumPoints(r) == PreferencePoints(p)
    ensures AvoidingDarkAreas in r <==> p.avoidDarkAreas
    ensures PreferringCrowds in r <==> p.preferCrowded
    ensures AvoidingIncidents in r <==> p.avoidIncidents
    ensures LongWalk !in r && RecentIncident !in r
    ensures SafetyImprovements !in r && PolicePatrol !in r && WellLitStreet !in r
  {
    var a := When(p.avoidDarkAreas, AvoidingDarkAreas);
    var b := When(p.preferCrowded, PreferringCrowds);
    var c := When(p.avoidIncidents, AvoidingIncidents);
    SumPointsConcat(a, b);
    SumPointsConcat(a + b, c);
    ConcatMembers(a, b);
    ConcatMembers(a + b, c);
    a + b + c
  }

  /** The lines of the first two simulated findings. */
  function GoodDrawNotes(d: Draws): (r: seq<Note>)
    ensures SumPoints(r) == (if d.improvements then 5 else 0) + (if d.patrol then 8 else 0)
    ensures SafetyImprovements in r <==> d.improvements
    ensures PolicePatrol in r <==> d.patrol
    ensures RecentIncident !in r && WellLitStreet !in r
    ensures LongWalk !in r && AvoidingDarkAreas !in r && PreferringCrowds !in r && AvoidingIncidents !in r
  {
    var a := When(d.improvements, SafetyImprovements);
    var b := When(d.patrol, PolicePatrol);
    SumPointsConcat(a, b);
    ConcatMembers(a, b);
    a + b
  }

  /** The lines of the last two simulated findings. */
  function LateDrawNotes(d: Draws): (r: seq<Note>)
    ensures SumPoints(r) == (if d.incident then -10 else 0) + (if d.wellLit then 6 else 0)
    ensures RecentIncident in r <==> d.incident
    ensures WellLitStreet in r <==> d.wellLit
    ensures SafetyImprovements !in r && PolicePatrol !in r
    ensures LongWalk !in r && AvoidingDarkAreas !in r && PreferringCrowds !in r && AvoidingIncidents !in r
  {
    var c := When(d.incident, RecentIncident);
    var e := When(d.wellLit, WellLitStreet);
    SumPointsConcat(c, e);
    ConcatMembers(c, e);
    c + e
  }

  /** The lines of the simulated findings, which announce exactly their points. */
  function DrawNotes(d: Draws): (r: seq<Note>)
    ensures SumPoints(r) == DrawPoints(d)
    ensures SafetyImprovements in r <==> d.improvements
    ensures PolicePatrol in r <==> d.patrol
    ensures RecentIncident in r <==> d.incident
    ensures WellLitStreet in r <==> d.wellLit
    ensures LongWalk !in r && AvoidingDarkAreas !in r && PreferringCrowds !in r && AvoidingIncidents !in r
  {
    var a := GoodDrawNotes(d);
    var b := LateDrawNotes(d);
    SumPointsConcat(a, b);
    ConcatMembers(a, b);
    a + b
  }

  function TimePoints(hour: int): int {
    if 6 <= hour <= 18 then 15 else if 19 <= hour <= 21 then 5 else -10
  }

  /** The running score of `calculateSafetyScore` before clamping, as the
      separate `score += …` steps add it up. */
  function RawScore(hour: int, durationSec: int, p: Preferences, d: Draws): (r: int)
    ensures 45 <= r <= 134
    ensures r == 45 <==> !(6 <= hour <= 21) && durationSec > 1800 && PreferencePoints(p) == 0 && DrawPoints(d) == -10
  {
    70 + TimePoints(hour) + (if durationSec > 1800 then -5 else 0) + PreferencePoints(p) + DrawPoints(d)
  }

  /** The time line and the long-walk line. */
  function RouteNotes(hour: int, durationSec: int): (r: seq<Note>)
    ensures SumPoints(r) == TimePoints(hour) + (if durationSec > 1800 then -5 else 0)
    ensures |r| >= 1 && r[0] == TimeNote(hour)
    ensures LongWalk in r <==> durationSec > 1800
    ensures AvoidingDarkAreas !in r && PreferringCrowds !in r && AvoidingIncidents !in r && RecentIncident !in r
    ensures SafetyImprovements !in r && PolicePatrol !in r && WellLitStreet !in r
  {
    var a := [TimeNote(hour)];
    var b := When(durationSec > 1800, LongWalk);
    SumPointsConcat(a, b);
    ConcatMembers(a, b);
    a + b
  }

  /** The lines of the preferences and of the simulated findings. */
  function ChoiceNotes(p: Preferences, d: Draws): (r: seq<Note>)
    ensures SumPoints(r) == PreferencePoints(p) + DrawPoints(d)
    ensures LongWalk !in r
    ensures AvoidingDarkAreas in r <==> p.avoidDarkAreas
    ensures PreferringCrowds in r <==> p.preferCrowded
    ensures AvoidingIncidents in r <==> p.avoidIncidents
    ensures SafetyImprovements in r <==> d.improvements
    ensures PolicePatrol in r <==> d.patrol
    ensures RecentIncident in r <==> d.incident
    ensures WellLitStreet in r <==> d.wellLit
  {
    var c := PreferenceNotes(p);
    var e := DrawNotes(d);
    SumPointsConcat(c, e);
    ConcatMembers(c, e);
    c + e
  }

  /** The listed factors, in the order the analysis pushes them; the points
      they announce add up to exactly what was added to the base of 70. */
  function Notes(hour: int, durationSec: int, p: Preferences, d: Draws): (r: seq<Note>)
    ensures RawScore(hour, durationSec, p, d) == 70 + SumPoints(r)
    ensures |r| >= 1 && r[0] == TimeNote(hour)
    ensures LongWalk in r <==> durationSec > 1800
    ensures AvoidingDarkAreas in r <==> p.avoidDarkAreas
    ensures PreferringCrowds in r <==> p.preferCrowded
    ensures AvoidingIncidents in r <==> p.avoidIncidents
    ensures SafetyImprovements in r <==> d.improvements
    ensures PolicePatrol in r <==> d.patrol
    ensures RecentIncident in r <==> d.incident
    ensures WellLitStreet in r <==> d.wellLit
  {
    var a := RouteNotes(hour, durationSec);
    var b := ChoiceNotes(p, d);
    SumPointsConcat(a, b);
    ConcatMembers(a, b);
    a + b
  }

  /** The lines the analysis can list, group by group, in the order it
      tests them. */
  const TimeLines: seq<Note> := [DaylightHours] + ([EveningHours] + [LateNightHours])
  const PreferenceLines: seq<Note> := ([AvoidingDarkAreas] + [PreferringCrowds]) + [AvoidingIncidents]
  const DrawLines: seq<Note> := ([SafetyImprovements] + [PolicePatrol]) + ([RecentIncident] + [WellLitStreet])
  const Catalogue: seq<Note> := (TimeLines + [LongWalk]) + (PreferenceLines + DrawLines)

  /** The condition under which each line is listed. */
  predicate Applies(n: Note, hour: int, durationSec: int, p: Preferences, d: Draws) {
    match n
    case DaylightHours => 6 <= hour <= 18
    case EveningHours => 19 <= hour <= 21
    case LateNightHours => !(6 <= hour <= 21)
    case LongWalk => durationSec > 1800
    case AvoidingDarkAreas => p.avoidDarkAreas
    case PreferringCrowds => p.preferCrowded
    case AvoidingIncidents => p.avoidIncidents
    case SafetyImprovements => d.improvements
    case PolicePatrol => d.patrol
    case RecentIncident => d.incident
    case WellLitStreet => d.wellLit
  }

  function AppliesTo(hour: int, durationSec: int, p: Preferences, d: Draws): Note -> bool {
    (n: Note) => Applies(n, hour, durationSec, p, d)
  }

  /** Filtering two elements keeps each exactly when it passes. */
  lemma FilterPair<T>(x: T, y: T, f: T -> bool)
    ensures Filter([x] + [y], f) == (if f(x) then [x] else []) + (if f(y) then [y] else [])
  {
    FilterCons(x, [y], f);
    FilterCons(y, [], f);
    assert [y] + [] == [y];
  }

  /** Filtering one element keeps it exactly when it passes. */
  lemma FilterSingle<T>(x: T, f: T -> bool)
    ensures Filter([x], f) == if f(x) then [x] else []
  {
    FilterCons(x, [], f);
    assert [x] + [] == [x];
  }

  lemma FilterTimes(hour: int, durationSec: int, p: Preferences, d: Draws)
    ensures Filter(TimeLines, AppliesTo(hour, durationSec, p, d)) == [TimeNote(hour)]
  {
    var f := AppliesTo(hour, durationSec, p, d);
    FilterCons(DaylightHours, [EveningHours] + [LateNightHours], f);
    FilterPair(EveningHours, LateNightHours, f);
    assert f(DaylightHours) == (6 <= hour <= 18);
    assert f(EveningHours) == (19 <= hour <= 21);
    assert f(LateNightHours) == !(6 <= hour <= 21);
  }

  lemma FilterFirstPreferences(hour: int, durationSec: int, p: Preferences, d: Draws)
    ensures Filter([AvoidingDarkAreas] + [PreferringCrowds], AppliesTo(hour, durationSec, p, d))
         == When(p.avoidDarkAreas, AvoidingDarkAreas) + When(p.preferCrowded, PreferringCrowds)
  {
    var f := AppliesTo(hour, durationSec, p, d);
    FilterPair(AvoidingDarkAreas, PreferringCrowds, f);
    assert f(AvoidingDarkAreas) == p.avoidDarkAreas;
    assert f(PreferringCrowds) == p.preferCrowded;
  }

  lemma FilterPreferences(hour: int, durationSec: int, p: Preferences, d: Draws)
    ensures Filter(PreferenceLines, AppliesTo(hour, durationSec, p, d)) == PreferenceNotes(p)
  {
    var f := AppliesTo(hour, durationSec, p, d);
    var pair := When(p.avoidDarkAreas, AvoidingDarkAreas) + When(p.preferCrowded, PreferringCrowds);
    var last := When(p.avoidIncidents, AvoidingIncidents);
    FilterConcat([AvoidingDarkAreas] + [PreferringCrowds], [AvoidingIncidents], f);
    FilterFirstPreferences(hour, durationSec, p, d);
    FilterSingle(AvoidingIncidents, f);
    assert f(AvoidingIncidents) == p.avoidIncidents;
    assert Filter(PreferenceLines, f) == pair + last;
    assert PreferenceNotes(p) == pair + last;
  }

  lemma FilterGoodDraws(hour: int, durationSec: int, p: Preferences, d: Draws)
    ensures Filter([SafetyImprovements] + [PolicePatrol], AppliesTo(hour, durationSec, p, d)) == GoodDrawNotes(d)
  {
    var f := AppliesTo(hour, durationSec, p, d);
    FilterPair(SafetyImprovements, PolicePatrol, f);
    assert f(SafetyImprovements) == d.improvements;
    assert f(PolicePatrol) == d.patrol;
  }

  lemma FilterLateDraws(hour: int, durationSec: int, p: Preferences, d: Draws)
    ensures Filter([RecentIncident] + [WellLitStreet], AppliesTo(hour, durationSec, p, d)) == LateDrawNotes(d)
  {
    var f := AppliesTo(hour, durationSec, p, d);
    FilterPair(RecentIncident, WellLitStreet, f);
    assert f(RecentIncident) == d.incident;
    assert f(WellLitStreet) == d.wellLit;
  }

  lemma FilterDraws(hour: int, durationSec: int, p: Preferences, d: Draws)
    ensures Filter(DrawLines, AppliesTo(hour, durationSec, p, d)) == DrawNotes(d)
  {
    FilterConcat([SafetyImprovements] + [PolicePatrol], [RecentIncident] + [WellLitStreet], AppliesTo(hour, durationSec, p, d));
    FilterGoodDraws(hour, durationSec, p, d);
    FilterLateDraws(hour, durationSec, p, d);
  }

  /** The time and long-walk lines of the catalogue filter to the route's
      own lines. */
  lemma FilterRoute(hour: int, durationSec: int, p: Preferences, d: Draws)
    ensures Filter(TimeLines + [LongWalk], AppliesTo(hour, durationSec, p, d)) == RouteNotes(hour, durationSec)
  {
    var f := AppliesTo(hour, durationSec, p, d);
    FilterConcat(TimeLines, [LongWalk], f);
    FilterTimes(hour, durationSec, p, d);
    FilterSingle(LongWalk, f);
    assert f(LongWalk) == (durationSec > 1800);
  }

  /** The preference and simulated lines of the catalogue filter to the
      lines of the user's choices and the draws. */
  lemma FilterChoices(hour: int, durationSec: int, p: Preferences, d: Draws)
    ensures Filter(PreferenceLines + DrawLines, AppliesTo(hour, durationSec, p, d)) == ChoiceNotes(p, d)
  {
    FilterConcat(PreferenceLines, DrawLines, AppliesTo(hour, durationSec, p, d));
    FilterPreferences(hour, durationSec, p, d);
    FilterDraws(hour, durationSec, p, d);
  }

  /** The listed factors are exactly the catalogue's lines whose condition
      holds, in catalogue order: each line at most once, in the order the
      analysis tests them. */
  lemma NotesFollowCatalogue(hour: int, durationSec: int, p: Preferences, d: Draws)
    ensures Notes(hour, durationSec, p, d) == Filter(Catalogue, AppliesTo(hour, durationSec, p, d))
  {
    FilterConcat(TimeLines + [LongWalk], PreferenceLines + DrawLines, AppliesTo(hour, durationSec, p, d));
    FilterRoute(hour, durationSec, p, d);
    FilterChoices(hour, durationSec, p, d);
  }

  // ---------------------------------------------------------------------
  // The analysis
  // ---------------------------------------------------------------------

  datatype SafetyLevel = High | Medium | Low
  datatype Warning = TransportAfterDark | HighRiskRoute
  datatype Advice = BreakUpJourney | StayAlert | UseRideShare

  datatype RouteAnalysis = RouteAnalysis(
    score: int, level: SafetyLevel, factors: seq<Note>, warnings: seq<Warning>, advice: seq<Advice>)

  /** The level bands: 80 and above, 60..79, below 60. */
  function LevelOf(score: int): (r: SafetyLevel)
    ensures r == High <==> score >= 80
    ensures r == Medium <==> 60 <= score < 80
    ensures r == Low <==> score < 60
  {
    if score >= 80 then High else if score >= 60 then Medium else Low
  }

  /** `calculateSafetyScore` for one route of `durationSec` seconds. */
  function SafetyScore(hour: int, durationSec: int, p: Preferences, d: Draws): (r: RouteAnalysis)
    ensures r.score == Clamp(RawScore(hour, durationSec, p, d), 0, 100)
    ensures r.score == Clamp(70 + SumPoints(r.factors), 0, 100)
    ensures 45 <= r.score <= 100
    ensures r.factors == Notes(hour, durationSec, p, d)
    ensures r.level == LevelOf(r.score)
    ensures TransportAfterDark in r.warnings <==> !(6 <= hour <= 21)
    ensures HighRiskRoute in r.warnings <==> r.level == Low
    ensures |r.warnings| > 0 <==> !(6 <= hour <= 21) || r.level == Low
    ensures BreakUpJourney in r.advice <==> durationSec > 1800
    ensures StayAlert in r.advice <==> r.level == Medium
    ensures UseRideShare in r.advice <==> r.level == Low
  {
    var notes := Notes(hour, durationSec, p, d);
    var raw := RawScore(hour, durationSec, p, d);
    assert raw == 70 + SumPoints(notes) && 45 <= raw;
    var score := Clamp(raw, 0, 100);
    var level := LevelOf(score);
    RouteAnalysis(score, level, notes, Warnings(hour, level), AdviceFor(durationSec, level))
  }

  /** The warnings: one for travelling outside 6:00..21:59, one for a Low route. */
  function Warnings(hour: int, level: SafetyLevel): (r: seq<Warning>)
    ensures TransportAfterDark in r <==> !(6 <= hour <= 21)
    ensures HighRiskRoute in r <==> level == Low
    ensures |r| > 0 <==> !(6 <= hour <= 21) || level == Low
  {
    (if 6 <= hour <= 21 then [] else [TransportAfterDark]) + (if level == Low then [HighRiskRoute] else [])
  }

  /** The advice: break up a long walk; stay alert on a Medium route; take a
      ride on a Low one. */
  function AdviceFor(durationSec: int, level: SafetyLevel): (r: seq<Advice>)
    ensures BreakUpJourney in r <==> durationSec > 1800
    ensures StayAlert in r <==> level == Medium
    ensures UseRideShare in r <==> level == Low
  {
    (if durationSec > 1800 then [BreakUpJourney] else [])
    + (if level == Medium then [StayAlert] else if level == Low then [UseRideShare] else [])
  }

  /** A short daylight walk with nothing ticked and nothing drawn scores the
      base of 70 plus the 15 daylight points: 85, a High route. */
  lemma QuietDaylightRoute(hour: int)
    requires 6 <= hour <= 18
    ensures SafetyScore(hour, 600, Preferences(false, false, false), Draws(false, false, false, false)).score == 85
    ensures SafetyScore(hour, 600, Preferences(false, false, false), Draws(false, false, false, false)).level == High
  {
  }

  /** The worst case: a long walk late at night with no preference ticked and
      a recent incident still scores 45, a Low route. */
  lemma WorstRouteScores45(hour: int)
    requires !(6 <= hour <= 21)
    ensures SafetyScore(hour, 3600, Preferences(false, false, false), Draws(false, false, true, false)).score == 45
    ensures SafetyScore(hour, 3600, Preferences(false, false, false), Draws(false, false, true, false)).level == Low
  {
  }

  // ---------------------------------------------------------------------
  // Choosing among alternatives
  // ---------------------------------------------------------------------

  /** The loop of `analyzeRouteSafety` over already scored routes: starting
      from `initial` (index 0), an analysis replaces the current choice only
      when its score is strictly higher. */
  method PickSafest(initial: RouteAnalysis, pass: seq<RouteAnalysis>) returns (best: nat, chosen: RouteAnalysis)
    requires |pass| >= 1
    ensures best < |pass|
    ensures (chosen == initial && best == 0) || chosen == pass[best]
    ensures initial.score <= chosen.score
    ensures forall i :: 0 <= i < |pass| ==> pass[i].score <= chosen.score
    ensures forall i :: 0 <= i < best ==> pass[i].score < chosen.score
    ensures (forall i :: 0 <= i < |pass| ==> pass[i].score <= initial.score) ==> best == 0 && chosen == initial
  {
    best := 0;
    chosen := initial;
    var k := 0;
    while k < |pass|
      invariant 0 <= k <= |pass|
      invariant best < |pass| && (best == 0 || best < k)
      invariant (chosen == initial && best == 0) || chosen == pass[best]
      invariant initial.score <= chosen.score
      invariant forall i :: 0 <= i < k ==> pass[i].score <= chosen.score
      invariant forall i :: 0 <= i < best ==> pass[i].score < chosen.score
      invariant (forall i :: 0 <= i < k ==> pass[i].score <= initial.score) ==> best == 0 && chosen == initial
    {
      if pass[k].score > chosen.score {
        best := k;
        chosen := pass[k];
      }
      k := k + 1;
    }
  }

  /** Every route scored once, with its own draws. */
  function ScoreAll(hour: int, durations: seq<int>, p: Preferences, draws: seq<Draws>): (r: seq<RouteAnalysis>)
    requires |draws| == |durations|
    ensures |r| == |durations|
    ensures forall i :: 0 <= i < |r| ==> r[i] == SafetyScore(hour, durations[i], p, draws[i])
  {
    if durations == [] then []
    else [SafetyScore(hour, durations[0], p, draws[0])] + ScoreAll(hour, durations[1..], p, draws[1..])
  }

  /** `analyzeRouteSafety`: `routes[0]` is scored first (with its own draws
      `first`); with more than one route every route, the first one
      included, is scored again with fresh draws (`draws[i]` for route `i`,
      giving `ScoreAll(hour, durations, p, draws)[i]`) and replaces the
      current choice only when strictly better. Returns the chosen index
      and its analysis. */
  method ChooseRoute(hour: int, durations: seq<int>, p: Preferences, first: Draws, draws: seq<Draws>)
    returns (best: nat, chosen: RouteAnalysis)
    requires |durations| >= 1 && |draws| == |durations|
    ensures best < |durations|
    ensures |durations| == 1 ==> best == 0 && chosen == SafetyScore(hour, durations[0], p, first)
    ensures var again := ScoreAll(hour, durations, p, draws);
      (best == 0 && chosen == SafetyScore(hour, durations[0], p, first)) || chosen == again[best]
    ensures SafetyScore(hour, durations[0], p, first).score <= chosen.score
    ensures var again := ScoreAll(hour, durations, p, draws);
      |durations| > 1 ==> forall i :: 0 <= i < |again| ==> again[i].score <= chosen.score
    ensures var again := ScoreAll(hour, durations, p, draws);
      |durations| > 1 ==> forall i :: 0 <= i < best ==> again[i].score < chosen.score
    ensures var again := ScoreAll(hour, durations, p, draws);
      (forall i :: 0 <= i < |again| ==> again[i].score <= SafetyScore(hour, durations[0], p, first).score)
      ==> best == 0 && chosen == SafetyScore(hour, durations[0], p, first)
  {
    var initial := SafetyScore(hour, durations[0], p, first);
    if |durations| > 1 {
      best, chosen := PickSafest(initial, ScoreAll(hour, durations, p, draws));
    } else {
      best, chosen := 0, initial;
    }
  }

  /** Index of the first route with the highest score, as a function. */
  function FirstBest(scores: seq<int>): (r: nat)
    requires |scores| >= 1
    ensures r < |scores|
    ensures forall i :: 0 <= i < |scores| ==> scores[i] <= scores[r]
    ensures forall i :: 0 <= i < r ==> scores[i] < scores[r]
  {
    if |scores| == 1 then 0
    else
      var b := FirstBest(scores[..|scores| - 1]);
      if scores[|scores| - 1] > scores[b] then |scores| - 1 else b
  }

  /** Ties go to the earlier route: when the highest score is reached more
      than once, the first route reaching it is chosen. */
  lemma FirstBestUnique(scores: seq<int>, j: nat)
    requires |scores| >= 1 && j < |scores|
    requires forall i :: 0 <= i < |scores| ==> scores[i] <= scores[j]
    requires forall i :: 0 <= i < j ==> scores[i] < scores[j]
    ensures FirstBest(scores) == j
  {
    var r := FirstBest(scores);
    assert scores[r] == scores[j];
  }

  // ---------------------------------------------------------------------
  // Planning a request
  // ---------------------------------------------------------------------

  /** What pressing "find safe route" leads to. */
  datatype Planned = MissingEndpoint | MapNotReady | Request(origin: string, destination: string)

  /** `calculateSafeRoute`: both fields are trimmed; a blank one stops with
      a warning before the map is consulted. */
  function PlanRoute(start: string, end: string, mapReady: bool): (r: Planned)
    ensures r.MissingEndpoint? <==> IsBlank(start) || IsBlank(end)
    ensures r.MapNotReady? <==> !IsBlank(start) && !IsBlank(end) && !mapReady
    ensures r.Request? ==> r.origin == Trim(start) && r.destination == Trim(end)
    ensures r.Request? ==> |r.origin| > 0 && !IsSpace(r.origin[0]) && |r.destination| > 0
  {
    var s := Trim(start);
    var e := Trim(end);
    if s == [] || e == [] then MissingEndpoint
    else if !mapReady then MapNotReady
    else Request(s, e)
  }
}

=== FILE: safety_ratings.dfy ===
/** Location safety ratings: collecting the star values of the rating form
    into per-category scores, submitting a rating, and filtering the list by
    its overall score. */
module SafetyRatings {
  import opened Base
  import opened Text

  /** A submitted rating; `scores` maps a category ("overall", "lighting",
      "crowd", …) to its star value. */
  datatype Rating = Rating(
    id: int, location: string, scores: map<string, int>, review: string,
    timestampMs: int, userId: string, userName: string)

  /** One star widget of the form: its category and the value stored on it
      (`None` while nothing was clicked, as the attribute is then missing). */
  datatype StarField = StarField(category: string, stored: Option<int>)

  /** `parseInt(rating.dataset.rating) || 0`. */
  function FieldValue(f: StarField): int {
    if f.stored.Some? then f.stored.value else 0
  }

  /** The collection loop of `handleRatingSubmission`: every widget writes
      its value under its category, so a later widget of the same category
      overrides an earlier one. */
  function CollectScores(fields: seq<StarField>): (r: map<string, int>)
    ensures r.Keys == set i | 0 <= i < |fields| :: fields[i].category
    decreases |fields|
  {
    if fields == [] then map[]
    else
      var last := fields[|fields| - 1];
      CollectScores(fields[..|fields| - 1])[last.category := FieldValue(last)]
  }

  /** Each category holds the value of the LAST widget of that category. */
  lemma {:induction false} CollectScoresTakesLast(fields: seq<StarField>, i: nat)
    requires i < |fields|
    requires forall j :: i < j < |fields| ==> fields[j].category != fields[i].category
    ensures fields[i].category in CollectScores(fields)
    ensures CollectScores(fields)[fields[i].category] == FieldValue(fields[i])
    decreases |fields|
  {
    if i < |fields| - 1 {
      var init := fields[..|fields| - 1];
      assert forall j :: i < j < |init| ==> init[j] == fields[j];
      CollectScoresTakesLast(init, i);
    }
  }

  /** `handleRatingSubmission`: the rating is appended to the list. */
  function SubmitRating(list: seq<Rating>, location: string, review: string, fields: seq<StarField>,
                        id: int, nowMs: int, uid: Option<string>, displayName: Option<string>): (r: seq<Rating>)
    ensures |r| == |list| + 1 && r[..|list|] == list
    ensures r[|list|].location == location && r[|list|].review == review
    ensures r[|list|].scores == CollectScores(fields)
    ensures uid.None? ==> r[|list|].userId == "anonymous"
    ensures displayName.None? ==> r[|list|].userName == "Anonymous User"
    ensures r[|list|].userId == OrElse(uid, "anonymous") && r[|list|].userName == OrElse(displayName, "Anonymous User")
    ensures r[|list|].id == id && r[|list|].timestampMs == nowMs
  {
    list + [Rating(id, location, CollectScores(fields), review, nowMs,
                   OrElse(uid, "anonymous"), OrElse(displayName, "Anonymous User"))]
  }

  /** `rating.ratings.overall || 0`: a missing overall score reads as 0. */
  function Overall(r: Rating): int {
    if "overall" in r.scores then r.scores["overall"] else 0
  }

  /** The value of the rating filter: "all", or a star count; `None` when
      the text does not parse as a number, which then matches nothing. */
  datatype RatingFilter = AllRatings | Stars(target: Option<int>)

  predicate Keeps(f: RatingFilter, r: Rating) {
    f.AllRatings? || (f.target.Some? && Overall(r) == f.target.value)
  }

  /** `filterRatings`. Stored overall scores are whole numbers, so
      `Math.round` leaves them as they are. */
  function FilterRatings(list: seq<Rating>, f: RatingFilter): (r: seq<Rating>)
    ensures f.AllRatings? ==> r == list
    ensures forall x :: x in r <==> x in list && Keeps(f, x)
    ensures f == Stars(None) ==> r == []
  {
    if f.AllRatings? then list
    else
      var r := Filter(list, (x: Rating) => f.target.Some? && Overall(x) == f.target.value);
      assert |r| > 0 ==> r[0] in r;
      r
  }

  /** For a star filter the kept ratings are one order-preserving filter of
      the list, as `Array.prototype.filter` keeps them. */
  lemma FilterRatingsIsOneFilter(list: seq<Rating>, f: RatingFilter)
    requires f.Stars?
    ensures FilterRatings(list, f) == Filter(list, (x: Rating) => Keeps(f, x))
  {
    FilterAgrees(list, (x: Rating) => f.target.Some? && Overall(x) == f.target.value, (x: Rating) => Keeps(f, x));
  }

  /** Filtering the filtered list again changes nothing. */
  lemma FilterRatingsIdempotent(list: seq<Rating>, f: RatingFilter)
    ensures FilterRatings(FilterRatings(list, f), f) == FilterRatings(list, f)
  {
    if f.Stars? {
      FilterIdempotent(list, (x: Rating) => f.target.Some? && Overall(x) == f.target.value);
    }
  }

  /** Filtering by n stars for each n from 0 to 5 splits the ratings whose
      overall score is in 0..5 among the six choices without loss. */
  lemma FiltersCoverScale(list: seq<Rating>, x: Rating)
    requires x in list && 0 <= Overall(x) <= 5
    ensures exists n :: 0 <= n <= 5 && x in FilterRatings(list, Stars(Some(n)))
  {
    assert x in FilterRatings(list, Stars(Some(Overall(x))));
  }

  /** The review paragraph is shown only for a non-empty review. */
  predicate ShowsReview(r: Rating) { r.review != [] }
}

=== FILE: search.dfy ===
/** Site search: the searchable items built from ratings, sample users,
    community posts and instructors; the query guard; the category filter
    and case-insensitive matching; the relevance comparator; and the icon
    and badge of a result. */
module Search {
  import opened Base
  import opened Text
  import Community
  import Instructors
  import SafetyRatings

  datatype Category = Locations | Users | Posts | Instructors

  /** A searchable item. Fields a category does not have are empty. */
  datatype Item = Item(
    category: Category, id: int, title: string, description: string,
    location: string, specialization: string, rating: real,
    verified: bool, safetyLevel: string, pricing: string)

  // ---------------------------------------------------------------------
  // Building the index
  // ---------------------------------------------------------------------

  /** `getLocationData`: a rated location, titled by its name; an empty
      review is described as "Safety rated location". */
  function FromRating(r: SafetyRatings.Rating): (i: Item)
    ensures i.category == Locations && i.title == r.location && i.id == r.id
    ensures i.description == if r.review == [] then "Safety rated location" else r.review
    ensures i.rating == SafetyRatings.Overall(r) as real
  {
    Item(Locations, r.id, r.location, OrElse(Some(r.review), "Safety rated location"), "", "",
         SafetyRatings.Overall(r) as real, false, "", "")
  }

  const TitleLength: nat := 50

  /** `content.substring(0, 50)` plus "..." when the content is longer: the
      title is at most 53 characters, starts with the content, and is the
      content itself when that is short enough. */
  function PostTitle(content: string): (r: string)
    ensures |r| <= TitleLength + 3
    ensures |content| <= TitleLength ==> r == content
    ensures |content| > TitleLength ==> r == content[..TitleLength] + "..."
    ensures StartsWith(r, content[..Min(|content|, TitleLength)])
  {
    if |content| > TitleLength then content[..TitleLength] + "..." else content
  }

  /** `getPostData`. */
  function FromPost(p: Community.Post): (i: Item)
    ensures i.category == Posts && i.id == p.id && i.title == PostTitle(p.content)
    ensures i.description == "Safety update about " + p.location && i.location == p.location
    ensures i.safetyLevel == p.safetyLevel
  {
    Item(Posts, p.id, PostTitle(p.content), "Safety update about " + p.location, p.location, "",
         0.0, false, p.safetyLevel, "")
  }

  /** `getInstructorData`. */
  function FromInstructor(t: Instructors.Instructor): (i: Item)
    ensures i.category == Instructors && i.id == t.id && i.title == t.name
    ensures i.description == t.specialization + " instructor in " + t.location
    ensures i.specialization == t.specialization && i.location == t.location
    ensures i.rating == t.rating && i.pricing == t.pricing
  {
    Item(Instructors, t.id, t.name, t.specialization + " instructor in " + t.location,
         t.location, t.specialization, t.rating, false, "", t.pricing)
  }

  /** The three sample members of `getUserData`. */
  const SampleUsers: seq<Item> := [
    Item(Users, 1, "Sarah Johnson", "Active safety advocate and community member", "", "", 0.0, true, "", ""),
    Item(Users, 2, "Emma Wilson", "Self-defense instructor and safety expert", "", "", 0.0, true, "", ""),
    Item(Users, 3, "Lisa Chen", "Community safety coordinator", "", "", 0.0, false, "", "")
  ]

  function MapRatings(s: seq<SafetyRatings.Rating>): (r: seq<Item>)
    ensures |r| == |s| && forall i :: 0 <= i < |s| ==> r[i] == FromRating(s[i])
  {
    if s == [] then [] else [FromRating(s[0])] + MapRatings(s[1..])
  }

  function MapPosts(s: seq<Community.Post>): (r: seq<Item>)
    ensures |r| == |s| && forall i :: 0 <= i < |s| ==> r[i] == FromPost(s[i])
  {
    if s == [] then [] else [FromPost(s[0])] + MapPosts(s[1..])
  }

  function MapInstructors(s: seq<Instructors.Instructor>): (r: seq<Item>)
    ensures |r| == |s| && forall i :: 0 <= i < |s| ==> r[i] == FromInstructor(s[i])
  {
    if s == [] then [] else [FromInstructor(s[0])] + MapInstructors(s[1..])
  }

  datatype Index = Index(locations: seq<Item>, users: seq<Item>, posts: seq<Item>, instructors: seq<Item>)

  /** `loadSearchableContent`. */
  function LoadIndex(ratings: seq<SafetyRatings.Rating>, posts: seq<Community.Post>,
                     instructors: seq<Instructors.Instructor>): (r: Index)
    ensures |r.locations| == |ratings| && |r.posts| == |posts| && |r.instructors| == |instructors|
    ensures r.users == SampleUsers
    ensures forall k :: 0 <= k < |ratings| ==> r.locations[k] == FromRating(ratings[k])
    ensures forall k :: 0 <= k < |posts| ==> r.posts[k] == FromPost(posts[k])
    ensures forall k :: 0 <= k < |instructors| ==> r.instructors[k] == FromInstructor(instructors[k])
    ensures forall i :: i in r.locations ==> i.category == Locations
    ensures forall i :: i in r.posts ==> i.category == Posts && |i.title| <= TitleLength + 3
    ensures forall i :: i in r.instructors ==> i.category == Instructors
  {
    Index(MapRatings(ratings), SampleUsers, MapPosts(posts), MapInstructors(instructors))
  }

  // ---------------------------------------------------------------------
  // Matching
  // ---------------------------------------------------------------------

  function Part(x: Index, c: Category): seq<Item> {
    match c
    case Locations => x.locations case Users => x.users
    case Posts => x.posts case Instructors => x.instructors
  }

  function CategoryName(c: Category): string {
    match c
    case Locations => "locations" case Users => "users"
    case Posts => "posts" case Instructors => "instructors"
  }

  /** The category buttons: "all" selects every category, a category name
      selects that one, anything else selects none. */
  predicate Selects(filter: string, c: Category) { filter == "all" || filter == CategoryName(c) }

  /** The fields searched in a category. */
  function Fields(c: Category, i: Item): seq<string> {
    match c
    case Locations => [i.title, i.description]
    case Users => [i.title, i.description]
    case Posts => [i.title, i.description, i.location]
    case Instructors => [i.title, i.description, i.specialization, i.location]
  }

  /** Some searched field contains the lower-cased query, ignoring case. */
  predicate Matches(c: Category, i: Item, q: string) {
    exists k :: 0 <= k < |Fields(c, i)| && Contains(Lower(Fields(c, i)[k]), q)
  }

  function SearchPart(x: Index, c: Category, filter: string, q: string): (r: seq<Item>)
    ensures forall i :: i in r <==> Selects(filter, c) && i in Part(x, c) && Matches(c, i, q)
  {
    if Selects(filter, c) then Filter(Part(x, c), (i: Item) => Matches(c, i, q)) else []
  }

  /** Item `i` is found in `x`: it sits in a selected category and one of
      that category's fields contains `q`. */
  predicate FoundIn(x: Index, filter: string, q: string, i: Item) {
    || (Selects(filter, Locations) && i in x.locations && Matches(Locations, i, q))
    || (Selects(filter, Users) && i in x.users && Matches(Users, i, q))
    || (Selects(filter, Posts) && i in x.posts && Matches(Posts, i, q))
    || (Selects(filter, Instructors) && i in x.instructors && Matches(Instructors, i, q))
  }

  /** `searchContent` before sorting: the matching items of each selected
      category, locations first, then users, posts and instructors; nothing
      when the index has not been loaded. */
  function SearchContent(index: Option<Index>, query: string, filter: string): (r: seq<Item>)
    ensures index.None? ==> r == []
    ensures index.Some? ==> forall i :: i in r <==> FoundIn(index.value, filter, Lower(query), i)
  {
    match index
    case None => []
    case Some(x) =>
      var q := Lower(query);
      var a := SearchPart(x, Locations, filter, q);
      var b := SearchPart(x, Users, filter, q);
      var c := SearchPart(x, Posts, filter, q);
      var d := SearchPart(x, Instructors, filter, q);
      ConcatMembers(a, b);
      ConcatMembers(a + b, c);
      ConcatMembers(a + b + c, d);
      a + b + c + d
  }

  /** Found items are exactly those of some selected category matching the
      query. */
  lemma FoundInIffSomeCategory(x: Index, filter: string, q: string, i: Item)
    ensures FoundIn(x, filter, q, i) <==> exists c :: Selects(filter, c) && i in Part(x, c) && Matches(c, i, q)
  {
    if exists c :: Selects(filter, c) && i in Part(x, c) && Matches(c, i, q) {
      var c :| Selects(filter, c) && i in Part(x, c) && Matches(c, i, q);
      match c
      case Locations => case Users => case Posts => case Instructors =>
    }
  }

  /** A filter that names no category finds nothing. */
  lemma UnknownFilterFindsNothing(index: Option<Index>, query: string, filter: string)
    requires filter != "all" && filter !in ["locations", "users", "posts", "instructors"]
    ensures SearchContent(index, query, filter) == []
  {
  }

  /** Searching is case-insensitive: queries that differ only in case find
      the same items. */
  lemma SearchIgnoresCase(index: Option<Index>, query: string, filter: string)
    ensures SearchContent(index, Lower(query), filter) == SearchContent(index, query, filter)
  {
    LowerIdempotent(query);
  }

  datatype Outcome = Placeholder | NoResults | Found(items: seq<Item>)

  /** `performSearch`: a query shorter than two characters after trimming
      shows the placeholder; otherwise the trimmed query is searched. */
  function PerformSearch(index: Option<Index>, query: string, filter: string): (r: Outcome)
    ensures r.Placeholder? <==> |Trim(query)| < 2
    ensures r.NoResults? <==> |Trim(query)| >= 2 && SearchContent(index, Trim(query), filter) == []
    ensures r.Found? ==> r.items == SearchContent(index, Trim(query), filter) && |r.items| > 0
  {
    var q := Trim(query);
    if |q| < 2 then Placeholder
    else
      var items := SearchContent(index, q, filter);
      if items == [] then NoResults else Found(items)
  }

  // ---------------------------------------------------------------------
  // Relevance
  // ---------------------------------------------------------------------

  /** How well a (lower-cased) title matches the query: 0 equal, 1 starts
      with it, 2 contains it, 3 neither. */
  function Tier(title: string, q: string): (r: nat)
    ensures r <= 3
    ensures r == 0 <==> title == q
    ensures r <= 1 <==> StartsWith(title, q)
    ensures r <= 2 <==> Contains(title, q)
  {
    TierChain(title, q);
    if title == q then 0 else if StartsWith(title, q) then 1 else if Contains(title, q) then 2 else 3
  }

  /** The comparator of `sortResultsByRelevance`, step by step; `q` is the
      lower-cased query. A rating of 0 is a missing one. It is the tier
      order, broken by descending rating when both ratings are present: a
      better tier always comes first, and within a tier only two present
      ratings decide. */
  function Compare(a: Item, b: Item, q: string): (r: real)
    ensures Tier(Lower(a.title), q) < Tier(Lower(b.title), q) ==> r < 0.0
    ensures Tier(Lower(a.title), q) > Tier(Lower(b.title), q) ==> r > 0.0
    ensures Tier(Lower(a.title), q) == Tier(Lower(b.title), q) ==>
      r == (if a.rating != 0.0 && b.rating != 0.0 then b.rating - a.rating else 0.0)
  {
    var at := Lower(a.title);
    var bt := Lower(b.title);
    if at == q && bt != q then -1.0
    else if bt == q && at != q then 1.0
    else if StartsWith(at, q) && !StartsWith(bt, q) then -1.0
    else if StartsWith(bt, q) && !StartsWith(at, q) then 1.0
    else if Contains(at, q) && !Contains(bt, q) then -1.0
    else if Contains(bt, q) && !Contains(at, q) then 1.0
    else if a.rating != 0.0 && b.rating != 0.0 then b.rating - a.rating
    else 0.0
  }

  /** An equal title starts with the query, which it therefore contains. */
  lemma TierChain(t: string, q: string)
    ensures t == q ==> StartsWith(t, q)
    ensures StartsWith(t, q) ==> Contains(t, q)
  {
  }

  /** Swapping the arguments flips the sign. */
  lemma CompareAntisymmetric(a: Item, b: Item, q: string)
    ensures Compare(a, b, q) == -Compare(b, a, q)
  {
  }

  /** Among items of one tier with present ratings the comparator is a
      consistent order: higher ratings first, transitively. */
  lemma CompareTransitiveWhenRated(a: Item, b: Item, c: Item, q: string)
    requires Tier(Lower(a.title), q) == Tier(Lower(b.title), q) == Tier(Lower(c.title), q)
    requires a.rating != 0.0 && b.rating != 0.0 && c.rating != 0.0
    requires Compare(a, b, q) <= 0.0 && Compare(b, c, q) <= 0.0
    ensures Compare(a, c, q) <= 0.0
  {
  }

  /** A missing rating makes the comparator inconsistent: an unrated item
      ties with a 5-star and a 3-star item, which do not tie with each
      other. The order the sort then produces is left to the engine. */
  lemma MissingRatingBreaksTies()
    ensures var a := Item(Locations, 1, "park", "", "", "", 5.0, false, "", "");
      var b := Item(Locations, 2, "park", "", "", "", 0.0, false, "", "");
      var c := Item(Locations, 3, "park", "", "", "", 3.0, false, "", "");
      Compare(a, b, "park") == 0.0 && Compare(b, c, "park") == 0.0 && Compare(a, c, "park") < 0.0
  {
    var a := Item(Locations, 1, "park", "", "", "", 5.0, false, "", "");
    var c := Item(Locations, 3, "park", "", "", "", 3.0, false, "", "");
    assert Lower("park") == "park";
  }

  // ---------------------------------------------------------------------
  // Result decorations
  // ---------------------------------------------------------------------

  datatype Icon = MapMarker | UserIcon | FileIcon | FistIcon | SearchIcon

  /** `getResultIcon`: one icon per known type, a magnifier for anything else. */
  function ResultIcon(itemType: string): (r: Icon)
    ensures r == SearchIcon <==> itemType !in ["location", "user", "post", "instructor"]
    ensures r == MapMarker <==> itemType == "location"
    ensures r == UserIcon <==> itemType == "user"
    ensures r == FileIcon <==> itemType == "post"
    ensures r == FistIcon <==> itemType == "instructor"
  {
    if itemType == "location" then MapMarker
    else if itemType == "user" then UserIcon
    else if itemType == "post" then FileIcon
    else if itemType == "instructor" then FistIcon
    else SearchIcon
  }

  /** The `type` field each category's items carry. */
  function TypeName(c: Category): string {
    match c
    case Locations => "location" case Users => "user"
    case Posts => "post" case Instructors => "instructor"
  }

  /** Every indexed item gets its own icon, never the fallback. */
  lemma IndexedItemsHaveIcons(c: Category)
    ensures ResultIcon(TypeName(c)) != SearchIcon
  {
  }

  datatype Badge = NoBadge | RatingBadge(stars: real) | VerifiedBadge | SafetyBadge(level: string) | PriceBadge(free: bool)

  /** `getResultBadge`: a rating badge for a rated location, a verified
      badge for a verified user, always a safety badge for a post, and
      always a Free/Paid badge for an instructor. */
  function ResultBadge(i: Item): (r: Badge)
    ensures r.RatingBadge? <==> i.category == Locations && i.rating != 0.0
    ensures r.RatingBadge? ==> r.stars == i.rating
    ensures r.VerifiedBadge? <==> i.category == Users && i.verified
    ensures r.SafetyBadge? <==> i.category == Posts
    ensures r.PriceBadge? <==> i.category == Instructors
    ensures r.PriceBadge? ==> (r.free <==> i.pricing == "free")
  {
    match i.category
    case Locations => if i.rating != 0.0 then RatingBadge(i.rating) else NoBadge
    case Users => if i.verified then VerifiedBadge else NoBadge
    case Posts => SafetyBadge(i.safetyLevel)
    case Instructors => PriceBadge(i.pricing == "free")
  }
}

=== FILE: shesecure.dfy ===
/** The older single-file application: the hour-based risk meter, the
    route label, the directions guard, its voice trigger and the section
    dispatch. */
module Shesecure {
  import opened Base
  import opened Text
  import RouteSafety
  import Emergency

  // ---------------------------------------------------------------------
  // Risk meter
  // ---------------------------------------------------------------------

  datatype RiskBand = LowRisk | MediumRisk | HighRisk

  /** `loadRiskPrediction`: the band of the current hour. */
  function HourRisk(hour: int): (r: RiskBand)
    ensures r == LowRisk <==> 6 <= hour <= 18
    ensures r == MediumRisk <==> 19 <= hour <= 21
    ensures r == HighRisk <==> hour < 6 || hour > 21
  {
    if 6 <= hour <= 18 then LowRisk
    else if 19 <= hour <= 21 then MediumRisk
    else HighRisk
  }

  /** The percentage shown on the meter. */
  function RiskPercent(b: RiskBand): (r: nat)
    ensures b == LowRisk ==> r == 25
    ensures b == MediumRisk ==> r == 45
    ensures b == HighRisk ==> r == 70
  {
    match b
    case LowRisk => 25
    case MediumRisk => 45
    case HighRisk => 70
  }

  /** The meter uses the same hour bands as the route score: low risk in
      the daylight hours, medium in the evening hours, high late at night. */
  lemma RiskBandsMatchRouteHours(hour: int)
    ensures HourRisk(hour) == LowRisk <==> RouteSafety.TimeNote(hour) == RouteSafety.DaylightHours
    ensures HourRisk(hour) == MediumRisk <==> RouteSafety.TimeNote(hour) == RouteSafety.EveningHours
    ensures HourRisk(hour) == HighRisk <==> RouteSafety.TimeNote(hour) == RouteSafety.LateNightHours
  {
  }

  /** A riskier band shows a higher percentage and earns the route fewer
      time points. */
  lemma RiskPercentAgainstRoutePoints(a: int, b: int)
    requires RiskPercent(HourRisk(a)) < RiskPercent(HourRisk(b))
    ensures RouteSafety.Points(RouteSafety.TimeNote(a)) > RouteSafety.Points(RouteSafety.TimeNote(b))
  {
    RiskBandsMatchRouteHours(a);
    RiskBandsMatchRouteHours(b);
  }

  // ---------------------------------------------------------------------
  // Routes
  // ---------------------------------------------------------------------

  datatype RouteLabel = HighSafety | MediumSafety | LowSafety

  /** `analyzeRouteSafety`: the label of a score (a random number in
      0..100 in the source, passed in here). */
  function LabelOf(score: real): (r: RouteLabel)
    ensures r == HighSafety <==> score > 75.0
    ensures r == MediumSafety <==> 50.0 < score <= 75.0
    ensures r == LowSafety <==> score <= 50.0
  {
    if score > 75.0 then HighSafety else if score > 50.0 then MediumSafety else LowSafety
  }

  function LabelRank(l: RouteLabel): nat {
    match l
    case LowSafety => 0
    case MediumSafety => 1
    case HighSafety => 2
  }

  /** A higher score never gets a lower label. */
  lemma LabelMonotone(a: real, b: real)
    requires a <= b
    ensures LabelRank(LabelOf(a)) <= LabelRank(LabelOf(b))
  {
  }

  /** `calculateSafeRoute`: the request goes out when both fields are
      non-empty; they are not trimmed. */
  function RouteRequest(start: string, end: string): (r: Option<(string, string)>)
    ensures r.None? <==> start == [] || end == []
    ensures r.Some? ==> r.value == (start, end)
  {
    if start == [] || end == [] then None else Some((start, end))
  }

  /** A start made of spaces is sent here, while the route planner of the
      newer page stops at it. */
  lemma SpacesPassOnlyHere()
    ensures RouteRequest(" ", "Park").Some?
    ensures RouteSafety.PlanRoute(" ", "Park", true).MissingEndpoint?
  {
    assert IsBlank(" ") by {
      BlankIffAllSpace(" ");
    }
  }

  // ---------------------------------------------------------------------
  // Voice trigger
  // ---------------------------------------------------------------------

  /** `onresult`: the joined transcript, lower-cased, mentions "help" or
      "emergency". */
  function VoiceTriggers(results: seq<string>, resultIndex: nat): (r: bool)
    ensures r <==> exists i :: OccursAt(Emergency.Transcript(results, resultIndex), "help", i)
                           || OccursAt(Emergency.Transcript(results, resultIndex), "emergency", i)
  {
    var t := Lower(Emergency.Joined(results, resultIndex));
    Emergency.TranscriptIsLowerOfJoined(results, resultIndex);
    ContainsIffOccurs(t, "help");
    ContainsIffOccurs(t, "emergency");
    Contains(t, "help") || Contains(t, "emergency")
  }

  /** Whatever raises the alarm here raises it on the emergency panel too,
      whose phrase list holds both words. */
  lemma TriggerImpliesPanelTrigger(results: seq<string>, resultIndex: nat)
    requires VoiceTriggers(results, resultIndex)
    ensures Emergency.VoiceTriggers(Emergency.Transcript(results, resultIndex))
  {
    Emergency.TranscriptIsLowerOfJoined(results, resultIndex);
    var t := Emergency.Transcript(results, resultIndex);
    if Contains(t, "help") {
      assert Emergency.EmergencyPhrases[7] == "help";
    } else {
      assert Emergency.EmergencyPhrases[1] == "emergency";
    }
  }

  // ---------------------------------------------------------------------
  // Sections
  // ---------------------------------------------------------------------

  datatype Loader =
    | LoadSafetyFeed | LoadSafetyRatings | InitializeMap
    | LoadCommunityFeed | LoadInstructors | LoadRiskPrediction

  const SectionNames: seq<string> :=
    ["home", "safety-ratings", "safe-routes", "community", "self-defense", "risk-prediction"]

  /** `loadSectionData`: the loader a section name runs, if any. */
  function LoaderOf(section: string): (r: Option<Loader>)
    ensures r.Some? <==> section in SectionNames
  {
    match section
    case "home" => Some(LoadSafetyFeed)
    case "safety-ratings" => Some(LoadSafetyRatings)
    case "safe-routes" => Some(InitializeMap)
    case "community" => Some(LoadCommunityFeed)
    case "self-defense" => Some(LoadInstructors)
    case "risk-prediction" => Some(LoadRiskPrediction)
    case _ => None
  }

  /** Every loader belongs to exactly one section name. */
  lemma LoadersAreDistinct(a: string, b: string)
    requires a in SectionNames && b in SectionNames && a != b
    ensures LoaderOf(a) != LoaderOf(b)
  {
  }
}

=== FILE: stars.dfy ===
/** Star ratings: the read-only five-star row drawn for an average rating,
    and the clickable star widget used by the rating forms (hover previews,
    leaving restores the chosen value, clicking sets it). */
module Stars {

  datatype Star = Full | Half | Empty

  function Repeat(s: Star, n: int): (r: seq<Star>)
    ensures |r| == if n < 0 then 0 else n
    ensures forall i :: 0 <= i < |r| ==> r[i] == s
    decreases n
  {
    if n <= 0 then [] else [s] + Repeat(s, n - 1)
  }

  /** `rating % 1 !== 0`. */
  predicate HasFraction(rating: real) { rating != rating.Floor as real }

  /** `createStars`: `Math.floor(rating)` full stars, a half star when the
      rating has a fractional part, then empty stars up to five; the loops
      draw nothing for a negative count. */
  function StarRow(rating: real): (r: seq<Star>)
    ensures 0.0 <= rating <= 5.0 ==> |r| == 5
    ensures forall i :: 0 <= i < |r| && r[i] == Full ==> i < rating.Floor
    ensures forall i :: 0 <= i < |r| && i < rating.Floor ==> r[i] == Full
    ensures Half in r <==> HasFraction(rating)
    ensures forall i :: 0 <= i < |r| && r[i] == Empty ==> i >= rating.Floor && !(HasFraction(rating) && i == rating.Floor)
  {
    var full := rating.Floor;
    var half := if HasFraction(rating) then 1 else 0;
    Repeat(Full, full) + (if half == 1 then [Half] else []) + Repeat(Empty, 5 - full - half)
  }

  function CountOf(r: seq<Star>, s: Star): nat {
    if r == [] then 0 else (if r[0] == s then 1 else 0) + CountOf(r[1..], s)
  }

  lemma {:induction false} CountOfConcat(a: seq<Star>, b: seq<Star>, s: Star)
    ensures CountOf(a + b, s) == CountOf(a, s) + CountOf(b, s)
  {
    if a == [] {
      assert a + b == b;
    } else {
      assert (a + b)[0] == a[0];
      assert (a + b)[1..] == a[1..] + b;
      CountOfConcat(a[1..], b, s);
    }
  }

  lemma {:induction false} CountOfRepeat(s: Star, n: int, t: Star)
    ensures CountOf(Repeat(s, n), t) == if s == t && n > 0 then n else 0
    decreases n
  {
    if n > 0 {
      assert Repeat(s, n)[1..] == Repeat(s, n - 1);
      CountOfRepeat(s, n - 1, t);
    }
  }

  /** The value a row of stars shows: one per full star, one half per half star. */
  function Shown(r: seq<Star>): real {
    CountOf(r, Full) as real + (if CountOf(r, Half) > 0 then 0.5 else 0.0)
  }

  /** For ratings on the 0..5 scale the row never misstates the rating by
      half a star or more: integers are drawn exactly, anything else as the
      nearest half-star step below the next whole number. */
  lemma ShownIsClose(rating: real)
    requires 0.0 <= rating <= 5.0
    ensures rating - 0.5 < Shown(StarRow(rating)) < rating + 0.5
    ensures !HasFraction(rating) ==> Shown(StarRow(rating)) == rating
  {
    var full := rating.Floor;
    var half := if HasFraction(rating) then 1 else 0;
    var tail := if half == 1 then [Half] else [];
    CountOfConcat(Repeat(Full, full) + tail, Repeat(Empty, 5 - full - half), Full);
    CountOfConcat(Repeat(Full, full), tail, Full);
    CountOfConcat(Repeat(Full, full) + tail, Repeat(Empty, 5 - full - half), Half);
    CountOfConcat(Repeat(Full, full), tail, Half);
    CountOfRepeat(Full, full, Full);
    CountOfRepeat(Empty, 5 - full - half, Full);
    CountOfRepeat(Full, full, Half);
    CountOfRepeat(Empty, 5 - full - half, Half);
  }

  // ---------------------------------------------------------------------
  // The clickable widget
  // ---------------------------------------------------------------------

  /** `highlightStars`: star `i` is active exactly when `i < count`. */
  function Highlight(n: nat, count: int): (r: seq<bool>)
    ensures |r| == n
    ensures forall i :: 0 <= i < n ==> (r[i] <==> i < count)
  {
    seq(n, i => i < count)
  }

  /** The number of active stars in a highlighted row. */
  function ActiveCount(r: seq<bool>): nat {
    if r == [] then 0 else (if r[|r| - 1] then 1 else 0) + ActiveCount(r[..|r| - 1])
  }

  /** A highlighted row lights `count` stars, capped to the row. */
  lemma {:induction false} HighlightLights(n: nat, count: int)
    ensures ActiveCount(Highlight(n, count)) == if count <= 0 then 0 else if count >= n then n else count
  {
    if n > 0 {
      assert Highlight(n, count)[..n - 1] == Highlight(n - 1, count);
      HighlightLights(n - 1, count);
    }
  }

  /** One star row: the value its listeners remember (`currentRating`, a
      closure variable), the value stored on the element for the form
      (`dataset.rating`) and which stars are lit. */
  datatype Widget = Widget(size: nat, chosen: nat, stored: nat, lit: seq<bool>)

  datatype Event = Enter(index: nat) | Leave | Click(index: nat)

  /** A fresh widget: nothing chosen, nothing lit. */
  function NewWidget(size: nat): (w: Widget)
    ensures w.chosen == 0 && w.stored == 0
    ensures forall i :: 0 <= i < |w.lit| ==> !w.lit[i]
  {
    Widget(size, 0, 0, Highlight(size, 0))
  }

  /** The three listeners of `setupStarRatings`; `index` is the star's
      0-based position in the row. */
  function Step(w: Widget, e: Event): (r: Widget)
    requires e.Enter? || e.Click? ==> e.index < w.size
    ensures r.size == w.size && |r.lit| == w.size
    ensures e.Enter? ==> r.chosen == w.chosen && r.stored == w.stored && r.lit == Highlight(w.size, e.index + 1)
    ensures e.Leave? ==> r.chosen == w.chosen && r.stored == w.stored && r.lit == Highlight(w.size, w.chosen)
    ensures e.Click? ==> 1 <= r.chosen <= w.size && r.chosen == e.index + 1 && r.stored == r.chosen
                         && r.lit == Highlight(w.size, r.chosen)
  {
    match e
    case Enter(i) => w.(lit := Highlight(w.size, i + 1))
    case Leave => w.(lit := Highlight(w.size, w.chosen))
    case Click(i) => Widget(w.size, i + 1, i + 1, Highlight(w.size, i + 1))
  }

  /** The stored value is what the form later submits; it always lies in
      0..size, and the listeners remember the same value. */
  predicate Valid(w: Widget) { w.chosen <= w.size && w.stored == w.chosen && |w.lit| == w.size }

  /** Hovering never changes the chosen value, and leaving afterwards shows
      exactly the chosen value again. */
  lemma HoverThenLeaveRestores(w: Widget, i: nat)
    requires i < w.size
    ensures Step(Step(w, Enter(i)), Leave).chosen == w.chosen
    ensures Step(Step(w, Enter(i)), Leave).lit == Highlight(w.size, w.chosen)
  {
  }

  /** Clicking the same star twice is the same as clicking it once. */
  lemma ClickIdempotent(w: Widget, i: nat)
    requires i < w.size
    ensures Step(Step(w, Click(i)), Click(i)) == Step(w, Click(i))
  {
  }

  /** Every event keeps the widget valid. */
  lemma StepKeepsValid(w: Widget, e: Event)
    requires Valid(w)
    requires e.Enter? || e.Click? ==> e.index < w.size
    ensures Valid(Step(w, e))
  {
  }

  /** `resetStarRatings` as written: the stored value goes back to 0 and no
      star is lit, but the listeners' `currentRating` keeps the old value. */
  function ResetAsWritten(w: Widget): (r: Widget)
    ensures r.size == w.size && r.stored == 0 && r.chosen == w.chosen
    ensures forall i :: 0 <= i < |r.lit| ==> !r.lit[i]
  {
    w.(stored := 0, lit := Highlight(w.size, 0))
  }

  /** After a reset, a hover over a star and leaving it light the old rating
      again while the form would submit 0. */
  lemma ResetThenLeaveShowsOldRating()
    ensures var w := Step(NewWidget(5), Click(3));
      var r := Step(Step(ResetAsWritten(w), Enter(0)), Leave);
      r.stored == 0 && r.lit[3] && Valid(w) && !Valid(ResetAsWritten(w))
  {
    var w := Step(NewWidget(5), Click(3));
    var r := Step(Step(ResetAsWritten(w), Enter(0)), Leave);
    assert r.lit == Highlight(5, 4);
  }

  /** The reset the form evidently means: the remembered value is cleared
      with the stored one. */
  function Reset(w: Widget): (r: Widget)
    ensures r.size == w.size && r.chosen == 0 && r.stored == 0
    ensures forall i :: 0 <= i < |r.lit| ==> !r.lit[i]
  {
    NewWidget(w.size)
  }

  /** A corrected reset keeps the widget valid, so leaving a star after it
      lights exactly what the form would submit. */
  lemma ResetKeepsValid(w: Widget, i: nat)
    requires i < w.size
    ensures Valid(Reset(w))
    ensures var r := Step(Step(Reset(w), Enter(i)), Leave);
      r.stored == 0 && forall k :: 0 <= k < |r.lit| ==> !r.lit[k]
  {
  }
}

=== FILE: text.dfy ===
/** The string operations the application leans on: `toLowerCase`,
    `includes`, `startsWith` and `trim`, over `seq<char>`. Lower-casing
    covers the ASCII letters and trimming the ASCII white space plus U+00A0
    and U+FEFF. */
module Text {
  import opened Base

  predicate IsUpper(c: char) { 'A' <= c <= 'Z' }

  function LowerChar(c: char): (r: char)
    ensures !IsUpper(r)
    ensures IsUpper(c) ==> r as int == c as int + 32
    ensures !IsUpper(c) ==> r == c
  {
    if IsUpper(c) then (c as int + 32) as char else c
  }

  /** `s.toLowerCase()`. */
  function Lower(s: string): (r: string)
    ensures |r| == |s|
    ensures forall i :: 0 <= i < |s| ==> r[i] == LowerChar(s[i])
  {
    seq(|s|, i requires 0 <= i < |s| => LowerChar(s[i]))
  }

  /** Lower-casing leaves no upper-case letter behind, so doing it twice is
      the same as doing it once. */
  lemma LowerIdempotent(s: string)
    ensures Lower(Lower(s)) == Lower(s)
  {
    var l := Lower(s);
    assert forall i :: 0 <= i < |l| ==> Lower(l)[i] == l[i];
  }

  /** Lower-casing a concatenation lower-cases each part. */
  lemma LowerConcat(a: string, b: string)
    ensures Lower(a + b) == Lower(a) + Lower(b)
  {
    assert forall i :: 0 <= i < |a + b| ==> Lower(a + b)[i] == (Lower(a) + Lower(b))[i];
  }

  predicate IsLower(s: string) { Lower(s) == s }

  predicate IsLowerLetter(c: char) { 'a' <= c <= 'z' }

  function UpperChar(c: char): (r: char)
    ensures !IsLowerLetter(r)
    ensures IsLowerLetter(c) ==> LowerChar(r) == c
    ensures !IsLowerLetter(c) ==> r == c
  {
    if IsLowerLetter(c) then (c as int - 32) as char else c
  }

  /** `s.charAt(0).toUpperCase() + s.slice(1)`: the first letter upper-cased,
      the rest untouched; the empty string stays empty. */
  function Capitalize(s: string): (r: string)
    ensures |r| == |s|
    ensures |s| > 0 ==> r[0] == UpperChar(s[0]) && r[1..] == s[1..]
    ensures Lower(r) == Lower(s)
  {
    if s == [] then []
    else
      var r := [UpperChar(s[0])] + s[1..];
      assert forall i :: 0 <= i < |s| ==> Lower(r)[i] == Lower(s)[i];
      r
  }

  /** `value || fallback` for a string that may be missing: a missing or
      empty value gives the fallback. */
  function OrElse(value: Option<string>, fallback: string): (r: string)
    ensures value.Some? && value.value != [] ==> r == value.value
    ensures value.None? || value.value == [] ==> r == fallback
  {
    if value.Some? && value.value != [] then value.value else fallback
  }

  /** `s.startsWith(prefix)`. */
  predicate StartsWith(s: string, prefix: string) {
    |prefix| <= |s| && s[..|prefix|] == prefix
  }

  /** `s.includes(sub)`, as a left-to-right scan. */
  predicate Contains(s: string, sub: string)
    decreases |s|
  {
    StartsWith(s, sub) || (|s| > 0 && Contains(s[1..], sub))
  }

  /** `sub` occurs in `s` at position `i`. */
  predicate OccursAt(s: string, sub: string, i: int) {
    0 <= i && i + |sub| <= |s| && s[i..i + |sub|] == sub
  }

  /** Every occurrence is found by the scan. */
  lemma {:induction false} OccursImpliesContains(s: string, sub: string, i: int)
    requires OccursAt(s, sub, i)
    ensures Contains(s, sub)
    decreases i
  {
    if i > 0 {
      assert s[1..][i - 1..i - 1 + |sub|] == s[i..i + |sub|];
      OccursImpliesContains(s[1..], sub, i - 1);
    }
  }

  /** Whatever the scan finds occurs at some position. */
  lemma {:induction false} ContainsGivesOccurrence(s: string, sub: string)
    requires Contains(s, sub)
    ensures exists i :: OccursAt(s, sub, i)
    decreases |s|
  {
    if StartsWith(s, sub) {
      assert OccursAt(s, sub, 0);
    } else {
      ContainsGivesOccurrence(s[1..], sub);
      var i :| OccursAt(s[1..], sub, i);
      assert s[i + 1..i + 1 + |sub|] == s[1..][i..i + |sub|];
      assert OccursAt(s, sub, i + 1);
    }
  }

  /** The scan finds `sub` exactly when it occurs at some position. */
  lemma ContainsIffOccurs(s: string, sub: string)
    ensures Contains(s, sub) <==> exists i :: OccursAt(s, sub, i)
  {
    if Contains(s, sub) {
      ContainsGivesOccurrence(s, sub);
    }
    if exists i :: OccursAt(s, sub, i) {
      var i :| OccursAt(s, sub, i);
      OccursImpliesContains(s, sub, i);
    }
  }

  /** Some text of a list occurs in `s` exactly when the scan finds one. */
  lemma AnyContainsIffOccurs(s: string, subs: seq<string>)
    ensures (exists k :: 0 <= k < |subs| && Contains(s, subs[k]))
        <==> (exists k, i :: 0 <= k < |subs| && OccursAt(s, subs[k], i))
  {
    forall k | 0 <= k < |subs| {
      ContainsIffOccurs(s, subs[k]);
    }
  }

  /** Every character of an occurrence matches the searched-for text. */
  lemma OccurrenceMatches(s: string, sub: string)
    ensures forall i, k :: OccursAt(s, sub, i) && 0 <= k < |sub| ==> s[i + k] == sub[k]
  {
    forall i, k | OccursAt(s, sub, i) && 0 <= k < |sub| ensures s[i + k] == sub[k] {
      assert s[i..i + |sub|][k] == s[i + k];
    }
  }

  /** A text in which two adjacent characters of `sub` never appear side by
      side cannot contain `sub`. */
  lemma AbsentPairRulesOut(s: string, sub: string, j: nat)
    requires j + 1 < |sub|
    requires forall i :: 0 <= i < |s| - 1 ==> !(s[i] == sub[j] && s[i + 1] == sub[j + 1])
    ensures !Contains(s, sub)
  {
    ContainsIffOccurs(s, sub);
    OccurrenceMatches(s, sub);
  }

  /** A text lacking one of the characters of `sub` cannot contain `sub`. */
  lemma AbsentCharRulesOut(s: string, sub: string, c: char)
    requires c in sub && c !in s
    ensures !Contains(s, sub)
  {
    ContainsIffOccurs(s, sub);
    OccurrenceMatches(s, sub);
  }

  /** Matching character by character at position `i` is an occurrence. */
  lemma MatchesAt(s: string, sub: string, i: nat)
    requires i + |sub| <= |s|
    requires forall k :: 0 <= k < |sub| ==> s[i + k] == sub[k]
    ensures Contains(s, sub)
  {
    assert s[i..i + |sub|] == sub;
    OccursImpliesContains(s, sub, i);
  }

  /** An occurrence of `sub` inside `mid`, which itself occurs in `s`, is an
      occurrence in `s`. */
  lemma ContainsTransitive(s: string, mid: string, sub: string)
    requires Contains(s, mid) && Contains(mid, sub)
    ensures Contains(s, sub)
  {
    ContainsIffOccurs(s, mid);
    ContainsIffOccurs(mid, sub);
    ContainsIffOccurs(s, sub);
    var i :| OccursAt(s, mid, i);
    var j :| OccursAt(mid, sub, j);
    assert s[i..i + |mid|] == mid;
    assert mid[j..j + |sub|] == sub;
    forall p | i + j <= p < i + j + |sub|
      ensures s[p] == sub[p - i - j]
    {
      assert s[p] == s[i..i + |mid|][p - i] == mid[p - i];
      assert mid[p - i] == mid[j..j + |sub|][p - i - j];
    }
    assert s[i + j..i + j + |sub|] == sub;
    assert OccursAt(s, sub, i + j);
  }

  /** Lower-casing the text keeps every occurrence of a lower-case word:
      matching against `s.toLowerCase()` finds all spellings of it. */
  lemma ContainsLowerOfLowerWord(s: string, word: string)
    requires IsLower(word) && Contains(s, word)
    ensures Contains(Lower(s), word)
  {
    ContainsIffOccurs(s, word);
    ContainsIffOccurs(Lower(s), word);
    var i :| OccursAt(s, word, i);
    assert Lower(s)[i..i + |word|] == Lower(word);
    assert OccursAt(Lower(s), word, i);
  }

  /** The white space `String.prototype.trim` removes (ASCII part, NBSP, BOM). */
  predicate IsSpace(c: char) {
    c == ' ' || c == '\t' || c == '\n' || c == '\r' || c == '\U{000B}' || c == '\U{000C}'
    || c == '\U{00A0}' || c == '\U{FEFF}'
  }

  /** The number of white-space characters `s` starts with. */
  function Leading(s: string): (n: nat)
    ensures n <= |s|
    ensures forall i :: 0 <= i < n ==> IsSpace(s[i])
    ensures n < |s| ==> !IsSpace(s[n])
    decreases |s|
  {
    if |s| > 0 && IsSpace(s[0]) then
      var n := 1 + Leading(s[1..]);
      assert forall i :: 1 <= i < n ==> s[i] == s[1..][i - 1];
      n
    else 0
  }

  /** The number of white-space characters `s` ends with. */
  function Trailing(s: string): (n: nat)
    ensures n <= |s|
    ensures forall i :: |s| - n <= i < |s| ==> IsSpace(s[i])
    ensures n < |s| ==> !IsSpace(s[|s| - n - 1])
    decreases |s|
  {
    if |s| > 0 && IsSpace(s[|s| - 1]) then
      var n := 1 + Trailing(s[..|s| - 1]);
      assert forall i :: |s| - n <= i < |s| - 1 ==> s[i] == s[..|s| - 1][i];
      n
    else 0
  }

  /** `s.trim()`: the slice of `s` left after dropping white space at both
      ends; it neither starts nor ends with white space, and everything
      dropped is white space. */
  function Trim(s: string): (r: string)
    ensures |r| <= |s| - Leading(s)
    ensures r == s[Leading(s)..Leading(s) + |r|]
    ensures forall i :: Leading(s) + |r| <= i < |s| ==> IsSpace(s[i])
    ensures |r| > 0 ==> !IsSpace(r[0]) && !IsSpace(r[|r| - 1])
  {
    var a := Leading(s);
    var t := s[a..];
    var b := Trailing(t);
    var r := t[..|t| - b];
    assert r == s[a..a + |r|];
    assert forall i :: a + |r| <= i < |s| ==> s[i] == t[i - a];
    r
  }

  /** JavaScript's `!s.trim()`: nothing but white space. */
  predicate IsBlank(s: string) { Trim(s) == [] }

  /** A string that neither starts nor ends with white space is its own
      trimmed form. */
  lemma TrimKeepsTrimmed(s: string)
    requires |s| > 0 && !IsSpace(s[0]) && !IsSpace(s[|s| - 1])
    ensures Trim(s) == s
  {
  }

  /** A string is blank exactly when every character in it is white space. */
  lemma BlankIffAllSpace(s: string)
    ensures IsBlank(s) <==> forall i :: 0 <= i < |s| ==> IsSpace(s[i])
  {
    if !IsBlank(s) {
      assert !IsSpace(s[Leading(s)]);
    }
  }

  // -------------------------------------------------------------------
  // Decimal numerals, as template literals render non-negative integers
  // -------------------------------------------------------------------

  predicate IsDigit(c: char) { '0' <= c <= '9' }

  function DigitChar(d: nat): (c: char)
    requires d < 10
    ensures IsDigit(c) && c as int - '0' as int == d
  {
    ('0' as int + d) as char
  }

  /** `String(n)` for a non-negative integer: no sign, no leading zero. */
  function NatToString(n: nat): (r: string)
    ensures |r| >= 1
    ensures forall i :: 0 <= i < |r| ==> IsDigit(r[i])
    ensures |r| > 1 ==> r[0] != '0'
    decreases n
  {
    if n < 10 then [DigitChar(n)] else NatToString(n / 10) + [DigitChar(n % 10)]
  }

  /** Reads a string of digits back as a number. */
  function ParseDigits(s: string): nat
    requires forall i :: 0 <= i < |s| ==> IsDigit(s[i])
  {
    if s == [] then 0
    else
      assert IsDigit(s[|s| - 1]);
      10 * ParseDigits(s[..|s| - 1]) + (s[|s| - 1] as int - '0' as int)
  }

  /** Rendering a number and reading it back gives the number: distinct
      counts always render as distinct text. */
  lemma {:induction false} NatToStringRoundTrip(n: nat)
    ensures ParseDigits(NatToString(n)) == n
    decreases n
  {
    if n >= 10 {
      var r := NatToString(n);
      var prefix := NatToString(n / 10);
      assert r[..|r| - 1] == prefix;
      NatToStringRoundTrip(n / 10);
    }
  }
}

=== FILE: time_ago.dfy ===
/** The relative-time label shown on posts, search results and ratings:
    whole elapsed seconds are bucketed into "just now", minutes, hours, days,
    and after 30 days the plain date. The three copies of the helper share
    the buckets and differ only in wording ("5m ago" against "5 minutes
    ago"). */
module TimeAgo {
  import opened Text

  const Minute: int := 60
  const Hour: int := 3600
  const Day: int := 86400
  const Month: int := 2592000

  /** `Math.floor((now - time) / 1000)` on millisecond timestamps; Dafny's
      division by a positive divisor floors, as `Math.floor` does. */
  function ElapsedSeconds(nowMs: int, thenMs: int): int {
    (nowMs - thenMs) / 1000
  }

  datatype Ago = JustNow | MinutesAgo(n: nat) | HoursAgo(n: nat) | DaysAgo(n: nat) | OnDate(ms: int)

  /** `getTimeAgo`: a timestamp in the future reads "just now". */
  function Classify(nowMs: int, thenMs: int): (r: Ago)
    ensures var e := ElapsedSeconds(nowMs, thenMs);
      && (r.JustNow? <==> e < Minute)
      && (r.MinutesAgo? <==> Minute <= e < Hour)
      && (r.HoursAgo? <==> Hour <= e < Day)
      && (r.DaysAgo? <==> Day <= e < Month)
      && (r.OnDate? <==> e >= Month)
    ensures r.MinutesAgo? ==> 1 <= r.n <= 59 && r.n * Minute <= ElapsedSeconds(nowMs, thenMs) < (r.n + 1) * Minute
    ensures r.HoursAgo? ==> 1 <= r.n <= 23 && r.n * Hour <= ElapsedSeconds(nowMs, thenMs) < (r.n + 1) * Hour
    ensures r.DaysAgo? ==> 1 <= r.n <= 29 && r.n * Day <= ElapsedSeconds(nowMs, thenMs) < (r.n + 1) * Day
    ensures r.OnDate? ==> r.ms == thenMs
  {
    var e := ElapsedSeconds(nowMs, thenMs);
    if e < 60 then JustNow
    else if e < 3600 then MinutesAgo(e / 60)
    else if e < 86400 then HoursAgo(e / 3600)
    else if e < 2592000 then DaysAgo(e / 86400)
    else OnDate(thenMs)
  }

  /** Coarseness of a label, from "just now" (0) to a plain date (4). */
  function Coarseness(a: Ago): nat {
    match a
    case JustNow => 0 case MinutesAgo(_) => 1 case HoursAgo(_) => 2
    case DaysAgo(_) => 3 case OnDate(_) => 4
  }

  /** As time passes a label only ever gets coarser, and within one unit its
      count only grows. */
  lemma LaterIsCoarser(now1: int, now2: int, thenMs: int)
    requires now1 <= now2
    ensures Coarseness(Classify(now1, thenMs)) <= Coarseness(Classify(now2, thenMs))
    ensures var a, b := Classify(now1, thenMs), Classify(now2, thenMs);
      Coarseness(a) == Coarseness(b) && !a.JustNow? && !a.OnDate? ==> a.n <= b.n
  {
    assert ElapsedSeconds(now1, thenMs) <= ElapsedSeconds(now2, thenMs);
  }

  /** A label that carries a count. */
  predicate Counted(a: Ago) { a.MinutesAgo? || a.HoursAgo? || a.DaysAgo? }

  /** The wording used by search results and community posts: a counted
      label is the count in digits and a one-letter unit ("m", "h" or "d")
      before " ago". */
  function ShortLabel(a: Ago, date: string): (r: string)
    ensures Counted(a) ==> StartsWith(r, NatToString(a.n)) && |r| == |NatToString(a.n)| + 5
    ensures Counted(a) ==> r[|r| - 4..] == " ago"
    ensures a.JustNow? ==> r == "Just now"
    ensures a.MinutesAgo? ==> r == NatToString(a.n) + "m ago"
    ensures a.HoursAgo? ==> r == NatToString(a.n) + "h ago"
    ensures a.DaysAgo? ==> r == NatToString(a.n) + "d ago"
    ensures a.OnDate? ==> r == date
  {
    match a
    case JustNow => "Just now"
    case MinutesAgo(n) => Spelled(NatToString(n), "m")
    case HoursAgo(n) => Spelled(NatToString(n), "h")
    case DaysAgo(n) => Spelled(NatToString(n), "d")
    case OnDate(_) => date
  }

  /** A count in digits, a spelled-out unit and " ago". */
  function Spelled(digits: string, unit: string): (r: string)
    ensures |r| == |digits| + |unit| + 4
    ensures StartsWith(r, digits) && r[|r| - 4..] == " ago"
  {
    var r := digits + unit + " ago";
    assert r[..|digits|] == digits;
    assert r[|r| - 4..] == " ago";
    r
  }

  /** The wording used by the safety-ratings page: the same as the short
      one except that the unit is spelled out. */
  function LongLabel(a: Ago, date: string): (r: string)
    ensures Counted(a) ==> |r| >= |NatToString(a.n)| + 9
    ensures Counted(a) ==> StartsWith(r, NatToString(a.n)) && r[|r| - 4..] == " ago"
    ensures !Counted(a) ==> r == ShortLabel(a, date)
    ensures a.MinutesAgo? ==> r == NatToString(a.n) + " minutes ago"
    ensures a.HoursAgo? ==> r == NatToString(a.n) + " hours ago"
    ensures a.DaysAgo? ==> r == NatToString(a.n) + " days ago"
  {
    match a
    case JustNow => "Just now"
    case MinutesAgo(n) => Spelled(NatToString(n), " minutes")
    case HoursAgo(n) => Spelled(NatToString(n), " hours")
    case DaysAgo(n) => Spelled(NatToString(n), " days")
    case OnDate(_) => date
  }

  /** A relative label starts with its count written out in digits, and
      reading those digits back gives the count. */
  lemma LabelStartsWithCount(a: Ago, date: string)
    requires Counted(a)
    ensures ParseDigits(ShortLabel(a, date)[..|NatToString(a.n)|]) == a.n
    ensures ParseDigits(LongLabel(a, date)[..|NatToString(a.n)|]) == a.n
  {
    NatToStringRoundTrip(a.n);
  }
}
